=== FILE: README.md ===
# Zoracle trading bot core, modelled in Dafny

This project models the core of a Telegram trading bot for the Base chain. It covers five parts:

- **Price and liquidity alerts** (`trading/alerts.py`). The bot keeps two in-memory registries: `price_alerts`, which holds each token's alerts (at most one per user), and `token_data`, the last price and liquidity seen per token. Registering is add-or-update. Removing drops the token's list once it is empty. The price poll fires only when a price crosses a threshold. The liquidity poll notifies every distinct subscriber when ETH liquidity moves by 20% or more.
- **Copy trading** (`trading/copytrade.py`). `monitored_wallets` holds each watched wallet's subscriptions. `processed_transactions` only grows and makes processing idempotent per transaction hash. Setup appends a subscription. A pause removes it. A partial update overwrites only the fields it is given.
- **Portfolio and P&L** (`trading/portfolio.py`). Covers the per-token cost-basis loop, the unrealized P&L, the totals, and the holdings list sorted by value.
- **Bot conversations** (`bot/alert_handlers.py`, `bot/copytrade_handlers.py`, `bot/handlers.py`). Covers the input checks (address shape, thresholds, slippage and ETH-cap bounds and defaults, PIN, buy amount, yes/no), the per-user conversation store, and the callback-data codecs, with their round trips. The `/wallet` and `/buy` conversations of `bot/handlers.py` are modelled as defined, but `setup_handlers` (bot/handlers.py:494-515) never registers them, so the running bot cannot reach them.
- **Private keys** (`utils/wallet.py`). Covers how an imported key is stripped of `0x`, checked and re-prefixed, the shape of a created key, and the prefixing done before signing.

Every operation is a pure function:

- Operations on a registry take the state and return the next state together with a result or a list of events.
- Python dicts are modelled by `Dict.Dict`, which keeps insertion order. Assigning to a present key keeps its place, assigning to a new key appends it, and `del` removes it. The order of events depends on this.
- These are parameters, not modelled:
  - database lookups;
  - the token-info, price, balance and liquidity feeds;
  - web3's address check;
  - `Account.from_key`;
  - random bytes;
  - Python's `float()`.
- A feed that raises is a parameter returning `None`.
- Amounts are exact reals.

Files:

| file | contents |
|---|---|
| `wrappers.dfy` | `Option`, `Result` |
| `text.dfy` | the Python string helpers used: `startswith`, `lower`, `isdigit`, `strip() == ""`, `int`/`str`, hex |
| `dict.dfy` | insertion-ordered dicts |
| `sorting.dfy` | descending sort and sums |
| `session.dfy` | the conversation store `user_data` |
| `wallet.dfy` | `utils/wallet.py` |
| `alerts.dfy` | `trading/alerts.py` |
| `copytrade.dfy` | `trading/copytrade.py` |
| `portfolio.dfy` | `trading/portfolio.py` |
| `alert_handlers.dfy` | `bot/alert_handlers.py` |
| `copytrade_handlers.dfy` | `bot/copytrade_handlers.py` |
| `handlers.dfy` | `bot/handlers.py` |

Two places where the code as written does something one might not expect are modelled as written, with a lemma that shows the effect (two more, which are evidently bugs, are under "## Findings"):

- **A sell charges its per-token sale price against every token held so far.** The loop reads the transactions newest first, as the query returns them. `Portfolio.SellChargesSalePriceOnHoldings`: a sale of 5 tokens for 10 ETH recorded before a later buy of 10 for 10 ETH reaches the loop after the buy, and leaves a cost basis of -10 ETH. `Portfolio.BuyThenSellNewestFirst`: a buy followed by a sale reaches the loop sale first, so the sale is charged against no tokens and the cost basis stays at the 10 ETH paid.
- **A pause that empties a watched wallet's list deletes the wallet while the dict is being iterated.** The next iteration step raises. The call therefore reports the generic error, although the removal has taken effect. This is `CopyTrade.UpdateCopyTrading` with error `UpdateFailed`.

## Model

| member | source | states |
|---|---|---|
| Text.Lower | bot/alert_handlers.py:118 | lower-casing keeps the length and maps each ASCII capital to its small letter, leaving every other character alone |
| Text.LowerIdempotent | bot/handlers.py:441 | lower-casing an already lower-cased text changes nothing |
| Text.ParseIntToString | bot/copytrade_handlers.py:293 | `int(str(n)) == n` for every integer, negative ones included |
| Text.HexEncode | utils/wallet.py:23 | the hex text of n bytes has 2n characters, all hex digits |
| Text.HexDecode | utils/wallet.py:43 | unhexlify succeeds exactly on even-length all-hex text and yields half as many bytes |
| Text.HexRoundTrip | utils/wallet.py:23 | decoding the hex text of any bytes gives back those bytes |
| Dict.Put | trading/copytrade.py:74-76 | assignment maps the key to the value; a present key keeps its place in the order, a new key goes last; keys stay distinct and match the map |
| Dict.Delete | trading/copytrade.py:150-151 | `del` drops exactly that key from the map and from the order, and keeps the keys distinct |
| Dict.Get | trading/alerts.py:262 | `.get` returns a value exactly for a present key, and then the mapped value |
| Session.Forget | bot/alert_handlers.py:283-293 | after the conditional deletes, exactly the keys outside the forgotten set remain, with their values |
| Session.ForgetAbsent | bot/copytrade_handlers.py:205-216 | forgetting keys the store never held leaves the store as it was |
| Wallet.StripPrefix | utils/wallet.py:35-36 | exactly one leading lower-case `0x` is removed, and nothing when the key does not start with it |
| Wallet.ImportWallet | utils/wallet.py:31-55 | a key is accepted iff, after one `0x` is stripped, it is 64 hex characters; the stored key is `0x` plus those characters and the address is derived from it; length failures are exactly the keys whose stripped length is not 64; the byte-count error never occurs |
| Wallet.ImportIgnoresPrefix | utils/wallet.py:35-53 | a key with and without its `0x` imports to the same account |
| Wallet.UpperCasePrefixRejected | utils/wallet.py:35-40 | an upper-case `0X` is not stripped, so `0X` and 64 hex digits fail on length |
| Wallet.ImportIdempotent | utils/wallet.py:50-53 | importing the key an import returned yields the same account |
| Wallet.CreateWallet | utils/wallet.py:20-29 | a created key is `0x` and 64 hex characters that decode to the 32 random bytes; the address is derived from the key |
| Wallet.CreatedKeyImports | utils/wallet.py:20-55 | a created key passes the import unchanged and gives the same account |
| Wallet.SigningKey | utils/wallet.py:90-91 | the signing key always starts with `0x`; a prefixed key is kept, and stripping the prefix from an added one gives back the key |
| Wallet.SigningKeyIdempotent | utils/wallet.py:90-91 | prefixing twice is prefixing once |
| Wallet.SigningKeyIgnoresPrefix | utils/wallet.py:90-91 | a key with and without `0x` is signed with the same key |
| Wallet.ImportedKeySignsUnchanged | utils/wallet.py:87-96 | a key the import returned is signed with exactly as stored |
| Alerts.Initial | trading/alerts.py:24-30 | both registries start empty, and the empty state meets the registry invariant |
| Alerts.AddPriceAlert | trading/alerts.py:32-144 | unknown user, failed token lookup and missing watchlist (names compared ignoring case) are each the error iff their condition holds, and each leaves both registries unchanged; on success the user's alert with exactly the given thresholds is on the token, other tokens' lists are unchanged, and the key order only gains a new token; an existing alert of the user is overwritten at its index, otherwise the alert is appended after a list holding no alert of that user; a token's record is never overwritten, changes only on an `Added` registration, and is seeded with the current price and liquidity exactly when the token had none; the invariant (no empty list, one alert per user) is kept |
| Alerts.Overwrite | trading/alerts.py:92-107 | replacing the user's alert at its index changes only that element, keeps the key order and the cache, and keeps the invariant |
| Alerts.AppendAlert | trading/alerts.py:110-126 | appending the alert of a user absent from the list makes the list the old one plus that alert; the cache gains the seeded record only for an unknown token; the invariant is kept |
| Alerts.WithoutUser | trading/alerts.py:164-168 | the reference for removal: exactly the alerts of the other users |
| Alerts.RemoveAtIsWithoutUser | trading/alerts.py:164-168 | popping the user's only alert from a list equals filtering that user out, so the other users' alerts stay in order |
| Alerts.RemovePriceAlert | trading/alerts.py:146-190 | a token without alerts, and a token without an alert of the caller, are each the error iff their condition holds, and change nothing; on success the token's list is the old list without the caller, the token key is gone iff that list is empty, other tokens are unchanged and the price cache is never touched |
| Alerts.DropAt | trading/alerts.py:166-172 | removing index i deletes the token's key when it was the only alert, and otherwise stores the list without index i; the invariant and cache are kept |
| Alerts.AddTwiceIsAddOnce | trading/alerts.py:92-114 | registering the same alert twice leaves the state of registering it once, and the second call reports an update |
| Alerts.OverwriteSame | trading/alerts.py:92-107 | overwriting an alert with itself changes nothing |
| Alerts.AddThenRemoveRestoresAlerts | trading/alerts.py:110-172 | adding an alert for a user who had none on the token and removing it restores `price_alerts` exactly, while a seeded `token_data` record stays |
| Alerts.AddFreshAppends | trading/alerts.py:110-114 | adding for a user with no alert on the token reports `Added` and appends to the list, creating the key last if new |
| Alerts.RemoveAppended | trading/alerts.py:164-172 | removing the user whose alert was just appended succeeds and yields the registry from before the append |
| Alerts.UserAlertsOf | trading/alerts.py:215-230 | one token's listing is exactly the user's alerts on it with the given price, and nothing when the token lookup fails |
| Alerts.CollectUserAlerts | trading/alerts.py:213-230 | the listing over a key sequence is exactly the user's alerts on those tokens, each with the token's cached price or 0 |
| Alerts.UserAlertsOfAtMostOne | trading/alerts.py:214-217 | with one alert per user on a token, the token lists at most one row for the user |
| Alerts.NoAlertNoRows | trading/alerts.py:214-217 | a token with no alert of the user lists nothing for the user |
| Alerts.CollectUserAlertsDistinct | trading/alerts.py:213-230 | over distinct tokens with one alert per user, no row is listed twice |
| Alerts.GetUserAlerts | trading/alerts.py:192-242 | unknown user iff error; otherwise a row is listed iff the user has that alert on a registered token whose lookup succeeds, with its cached price or 0, and no row is listed twice, so the count is the number of such alerts |
| Alerts.AlertEvents | trading/alerts.py:271-309 | one alert raises at most one event per poll, none when the price did not move, and only for its own user and token |
| Alerts.TokenEvents | trading/alerts.py:271-309 | a token's events are exactly the events of its alerts |
| Alerts.TokenEventsDistinct | trading/alerts.py:271-309 | with one alert per user on the token, no event of the token is listed twice |
| Alerts.AlertEventsHigh | trading/alerts.py:278 | a high event is raised iff the high threshold is set, non-zero, and previous < high <= current |
| Alerts.AlertEventsLow | trading/alerts.py:295 | a low event is raised iff the low threshold is set, non-zero, and current <= low < previous |
| Alerts.PollEvents | trading/alerts.py:255-262 | a token whose quote fails raises nothing; events name only the polled token |
| Alerts.PollPricesSpec | trading/alerts.py:255-312 | over distinct tokens the poll raises exactly each token's events against the cache before the loop, and refreshes exactly the polled tokens' records |
| Alerts.PollPricesEvents | trading/alerts.py:255-312 | the events of the whole loop are the union of each token's events computed against the initial cache |
| Alerts.PollPricesCache | trading/alerts.py:261-269 | after the loop a token with a successful quote has its record refreshed to the current price and every other record is unchanged |
| Alerts.PollPricesDistinct | trading/alerts.py:255-312 | over distinct tokens, each with one alert per user, the loop raises no event twice |
| Alerts.CheckPriceAlerts | trading/alerts.py:244-317 | `price_alerts` is never changed; each polled token's cached price becomes the current one; a high (low) event for a user, token, threshold and price is raised iff that user's alert on the token has that threshold set and the price crossed it upwards (downwards) since the previous cached price; no event is raised twice |
| Alerts.PriceEventsFire | trading/alerts.py:271-309 | events computed token by token are exactly the threshold crossings, and no liquidity events |
| Alerts.RepeatedPollIsSilent | trading/alerts.py:262-269 | polling again with unchanged prices raises no event at all |
| Alerts.NoSecondHighEvent | trading/alerts.py:262-278 | once a poll saw a token at or above a high threshold, the next poll raises no high event for it, whatever the price |
| Alerts.FirstPollIsSilent | trading/alerts.py:262 | a token with no cached record raises no price event on its first poll |
| Alerts.Subscribers | trading/alerts.py:355-358 | the user set of a token's alerts: each user with an alert on it, once |
| Alerts.LiquidityEventsFor | trading/alerts.py:361-374 | one liquidity event per listed user, carrying previous, current and change, with `increased` iff change > 0 |
| Alerts.LiquidityEventsForMembers | trading/alerts.py:361-374 | the events are exactly one per listed user, and distinct users give distinct events |
| Alerts.TokenLiquidityEvents | trading/alerts.py:333-374 | a token raises events iff its quote succeeds and its ETH liquidity moved by 20% or more from the cached value (or the current one if none is cached), one per distinct subscriber |
| Alerts.LiquidityEvents | trading/alerts.py:330-377 | over distinct tokens the events are distinct and are exactly the union of each token's events |
| Alerts.CheckLiquidityChanges | trading/alerts.py:319-382 | `price_alerts` and the cache's keys are unchanged; every record with a successful quote takes the current liquidity whether or not an event fires; an event is raised iff the token is cached, its quote succeeds, the change is at least 20% either way and the user has an alert on it, so a record without alerts raises nothing; events are distinct |
| Alerts.TwentyPercentFires | trading/alerts.py:344-350 | 10 ETH to 12 ETH is a 20% change and fires; 10 to 11.99 does not |
| CopyTrade.Initial | trading/copytrade.py:28-29 | no wallet is watched and no hash is processed, and the registry invariant holds |
| CopyTrade.SetupCopyTrading | trading/copytrade.py:32-100 | an invalid address, and a user without a wallet, are each the error iff their condition holds, and change nothing; on success exactly one subscription with the given settings and the new id is appended to the target's list (created if absent, key last), nothing else changes, and the summary echoes the settings |
| CopyTrade.SetupTwiceKeepsBoth | trading/copytrade.py:74-83 | setting up the same subscription twice adds two entries: setups are not deduplicated |
| CopyTrade.IndexOfConfig | trading/copytrade.py:145-146 | the inner loop stops at the first entry carrying the id |
| CopyTrade.Apply | trading/copytrade.py:153-163 | each given field overwrites the entry's, each absent field is kept, a resume sets `active`, user and id are unchanged |
| CopyTrade.WithoutConfig | trading/copytrade.py:147-149 | the reference for a pause: exactly the entries of the other configurations |
| CopyTrade.PauseIsWithoutConfig | trading/copytrade.py:144-152 | when the id occurs at most once in a list, a pause leaves the list without that configuration |
| CopyTrade.PatchTouchesFirstMatchOnly | trading/copytrade.py:144-165 | a non-pausing update keeps the list's length and changes only the first matching entry, to the patched one; a list without the id is unchanged |
| CopyTrade.FirstEmptied | trading/copytrade.py:147-152 | finds the first wallet in iteration order whose list a pause would empty |
| CopyTrade.UpdateWallets | trading/copytrade.py:144-165 | the loop keeps the dict well formed and keeps the key order when it does not raise |
| CopyTrade.LoopKeys | trading/copytrade.py:144-165 | the loop raises iff it reaches a wallet whose list becomes empty, and then only that wallet is gone from the order |
| CopyTrade.LoopMembers | trading/copytrade.py:144-165 | after the loop, the wallets present are the original ones minus the emptied one it stopped at |
| CopyTrade.LoopEntries | trading/copytrade.py:144-165 | wallets before the stopping point are patched, and later ones keep their lists |
| CopyTrade.UpdateCopyTrading | trading/copytrade.py:102-182 | unknown user, and an unknown configuration, are each the error iff their condition holds, and change nothing; the generic error is reported iff some list becomes empty, and then exactly one such wallet has been deleted; on success every wallet's list is patched and the summary takes each field from the arguments, else from the stored row; whatever the outcome each remaining wallet is untouched or patched, only an emptied wallet can vanish, no list is left empty, and processed hashes are kept |
| CopyTrade.LoopKeepsListsNonEmpty | trading/copytrade.py:147-152 | the loop never leaves a watched wallet with an empty list |
| CopyTrade.LoopRaises | trading/copytrade.py:144-165 | the loop raises iff some wallet's list would become empty, and then one wallet is gone |
| CopyTrade.LoopPatches | trading/copytrade.py:144-165 | without a raise, every wallet is patched |
| CopyTrade.LoopTouchesOnly | trading/copytrade.py:144-165 | each remaining wallet is patched or untouched |
| CopyTrade.LoopDropsOnlyEmptied | trading/copytrade.py:147-152 | only a wallet whose list the update empties can be missing afterwards |
| CopyTrade.Tradable | trading/copytrade.py:263-274 | the entries whose user has a wallet and key, each as many times as it is listed, and no other entry |
| CopyTrade.IntentsOf | trading/copytrade.py:263-285 | one intent per given entry, at the same position, carrying that entry's settings and sandbox flag |
| CopyTrade.Intents | trading/copytrade.py:263-285 | the intents are exactly those of the tradable entries, one per entry and in list order; as a set, one per entry whose user has a wallet and key |
| CopyTrade.ProcessTransaction | trading/copytrade.py:233-291 | the hash is added to the processed set and the wallets are never changed; a seen hash, or a sender that is not watched, yields nothing; otherwise the intents are exactly one per subscription to the sender whose user can trade, in subscription order |
| CopyTrade.ProcessTwiceIsProcessOnce | trading/copytrade.py:242-247 | processing the same transaction again changes nothing and yields nothing |
| CopyTrade.ProcessedGrows | trading/copytrade.py:242-247 | after any sequence of transactions the processed set is the old one plus their hashes, and the wallets are unchanged |
| CopyTrade.PauseStopsCopying | trading/copytrade.py:147-152 | pausing a configuration whose id occurs once leaves every watched wallet's list without it, whether or not the call then reports the error |
| CopyTrade.PausedConfigNotCopied | trading/copytrade.py:255-285 | after such a pause, a fresh transaction yields the intents of the remaining subscriptions and none for the paused configuration |
| CopyTrade.NoMatchUnpatched | trading/copytrade.py:144-146 | a list without the id is left alone by any update |
| CopyTrade.UnknownConfigNoChange | trading/copytrade.py:153-154 | a resume, or any update, for an id no entry carries changes no wallet and succeeds: nothing is re-inserted |
| Sorting.Insert | trading/portfolio.py:241 | inserting into a descending list keeps it descending and adds exactly that element |
| Sorting.InsertPermutes | trading/portfolio.py:241 | insertion adds exactly one occurrence of the element to the multiset |
| Sorting.SortDesc | trading/portfolio.py:241 | the sorted list is descending by the key and has the input's length |
| Sorting.SortDescPermutes | trading/portfolio.py:241 | the sorted list is a permutation of the input |
| Sorting.InsertDistinct | trading/portfolio.py:241 | inserting a new element into a duplicate-free sorted list keeps it duplicate-free |
| Sorting.SortDescDistinct | trading/portfolio.py:241 | sorting a duplicate-free list keeps it duplicate-free |
| Sorting.SortDescMembers | trading/portfolio.py:95 | sorting keeps exactly the same elements |
| Sorting.SumInsert | trading/portfolio.py:244-246 | a sum over a list with an inserted element gains exactly that element's value |
| Sorting.SumAppend | trading/portfolio.py:78 | a running total over a list with an appended element gains that element's value |
| Sorting.SumSortDesc | trading/portfolio.py:244-246 | sums are the same before and after the sort |
| Sorting.SortDescSorted | trading/portfolio.py:241 | sorting an already descending list changes nothing |
| Sorting.InsertLast | trading/portfolio.py:241 | an element no greater than every listed one goes last, after equal keys, as a stable sort puts it |
| Sorting.WithKey | trading/portfolio.py:241 | the elements with a given key value, in list order: exactly the listed elements with that key |
| Sorting.WithKeyInsert | trading/portfolio.py:241 | insertion puts the new element after every listed element with the same key |
| Sorting.SortDescStable | trading/portfolio.py:95 | the sort is stable: for every key value, the elements carrying it come out in their input order |
| Portfolio.Step | trading/portfolio.py:204-210 | a transaction that is neither a buy nor a sell leaves the running totals alone |
| Portfolio.AcquiredIsBoughtMinusSold | trading/portfolio.py:204-210 | after the loop, tokens acquired = tokens bought - tokens sold |
| Portfolio.CostOfBuysOnly | trading/portfolio.py:204-207 | without sells, the cost basis is the ETH spent on buys |
| Portfolio.SellChargesSalePriceOnHoldings | trading/portfolio.py:209 | a sell subtracts its sale price per token times all tokens the loop has counted: with the buy of 10 for 10 ETH read before the sale of 5 for 10 ETH (the sale being the older trade), the cost basis is -10 on 5 tokens |
| Portfolio.BuyThenSellNewestFirst | trading/portfolio.py:184-210 | a buy of 10 for 10 ETH followed in time by a sale of 5 for 10 ETH is read newest first, so the sale is charged against no tokens and the cost basis is 10 on 5 tokens |
| Portfolio.ZeroBuyFirstShiftsCost | trading/portfolio.py:204-210 | a buy of zero tokens read first raises the final cost basis by its ETH and leaves the tokens acquired unchanged, for any later transactions |
| Portfolio.OfToken | trading/portfolio.py:187-191 | a token's group holds only that token's transactions and is empty for a token never traded |
| Portfolio.OfTokenMembers | trading/portfolio.py:187-191 | every transaction of the token is in its group, and only those |
| Portfolio.GroupByToken | trading/portfolio.py:187-191 | the grouping has one key per address traded (a missing address included), in order of first use, mapped to that token's transactions in order |
| Portfolio.TokenPnlOf | trading/portfolio.py:212-236 | a P&L row carries the address, balance, the loop's cost basis and balance × price; with nothing acquired its P&L and percentage are 0 |
| Portfolio.PnlOfBasis | trading/portfolio.py:218-225 | the same row in terms of the loop's final totals |
| Portfolio.PnlAgainstAverageCost | trading/portfolio.py:218-222 | with tokens acquired, the unrealized P&L is the current value minus the balance valued at average cost; the percentage is positive iff the price exceeds a positive average cost, and 0 when the average cost is not positive |
| Portfolio.BasisPnlAgainstAverageCost | trading/portfolio.py:218-222 | the same in terms of the loop's final totals |
| Portfolio.PnlOfFullHolding | trading/portfolio.py:218-221 | holding exactly what was acquired, the unrealized P&L is the current value minus the cost basis |
| Portfolio.BasisPnlOfFullHolding | trading/portfolio.py:218-221 | the same in terms of the loop's final totals |
| Portfolio.PnlRows | trading/portfolio.py:193-238 | a row is kept for exactly the groups whose lookups succeed |
| Portfolio.PnlRowsDistinct | trading/portfolio.py:193-238 | over distinct group keys, no row is listed twice |
| Portfolio.CalculateProfitLoss | trading/portfolio.py:162-262 | no wallet iff error; otherwise the rows are sorted by unrealized P&L, highest first, and are exactly the groups whose lookups succeed, none listed twice; the totals are the sums of cost, value and P&L over the rows, and the total percentage is value against cost, 0 without a positive cost |
| Portfolio.RowsAreGroups | trading/portfolio.py:187-238 | the unsorted rows are exactly the P&L of each group whose lookups succeed |
| Portfolio.TotalsBeforeSort | trading/portfolio.py:241-246 | the totals equal the sums over the unsorted rows, so the sort does not affect them |
| Portfolio.TokenAddresses | trading/portfolio.py:50-53 | the token set is the distinct non-empty addresses of the transactions |
| Portfolio.HoldingOf | trading/portfolio.py:69-75 | a holding's value in ETH and USD is balance × price |
| Portfolio.Holdings | trading/portfolio.py:59-92 | the held tokens are exactly those whose lookups succeed with a positive balance |
| Portfolio.HoldingsDistinct | trading/portfolio.py:59-92 | over distinct addresses, no holding is listed twice |
| Portfolio.GetUserPortfolio | trading/portfolio.py:20-110 | the corrected portfolio of the "## Findings" row, the one the holdings model intends: no wallet iff that error; a failing ETH balance iff the generic error; otherwise the ETH value is balance × 2500, the tokens are exactly the held ones, none listed twice, all with positive balance, sorted by USD value, highest first, and the total is the ETH value plus the tokens' USD values |
| Portfolio.HoldingsAsWritten | trading/portfolio.py:59-92 | the token loop as written: with a `Decimal` running total every token is dropped, otherwise the held tokens are exactly those of `Holdings` |
| Portfolio.GetUserPortfolioAsWritten | trading/portfolio.py:20-110 | the errors as for `GetUserPortfolio`; with a non-zero ETH balance no token is listed and the total is the ETH value alone; with a zero balance the result is `GetUserPortfolio`'s |
| Portfolio.AsWrittenAgreesIff | trading/portfolio.py:57-81 | the code as written and the corrected portfolio agree iff there is no wallet, the balance fails, the ETH balance is zero or no token is held |
| Portfolio.DecimalEthDropsHeldToken | trading/portfolio.py:57-81 | with 1 ETH and 4 tokens at $2.50, the code as written reports $2,500 and no token; the corrected portfolio lists the token and reports $2,510 |
| AlertHandlers.AddAlertCommand | bot/alert_handlers.py:78-94 | with an argument it is stored unchecked and the high price is asked; without one the address is asked and nothing changes |
| AlertHandlers.TokenAddressInput | bot/alert_handlers.py:96-114 | a typed address is accepted and stored iff it starts with `0x` and has 42 characters; otherwise the store is unchanged and the address asked again |
| AlertHandlers.CommandArgumentIsUnchecked | bot/alert_handlers.py:81-105 | a non-address is taken as a command argument but refused when typed |
| AlertHandlers.ParseThreshold | bot/alert_handlers.py:118-133 | "skip" in any letter case means no threshold; otherwise the lower-cased text must parse to a number greater than 0, else the answer is invalid |
| AlertHandlers.ThresholdIgnoresCase | bot/alert_handlers.py:143-158 | the threshold answer does not depend on letter case |
| AlertHandlers.Stored | bot/alert_handlers.py:121-128 | a skipped threshold is stored as `None`, a number as itself |
| AlertHandlers.ThresholdOf | bot/alert_handlers.py:257-262 | a stored threshold reaches the registry as present exactly when it is a number, and then it can fire |
| AlertHandlers.PriceHighInput | bot/alert_handlers.py:116-139 | an invalid answer re-asks with the store unchanged; otherwise the answer as parsed (`None` for skip, else the positive number) is stored and the low price asked |
| AlertHandlers.PriceLowInput | bot/alert_handlers.py:141-199 | an invalid answer re-asks with the store unchanged; otherwise the answer as parsed (`None` for skip, else the positive number) is stored, and the flow returns to the high price iff both thresholds are `None` |
| AlertHandlers.WatchlistNeedsAThreshold | bot/alert_handlers.py:161-165 | the watchlist question is reached iff at least one of the two answers is a number, and then at least one stored threshold can fire |
| AlertHandlers.DecodeWatchlist | bot/alert_handlers.py:201-224 | `watchlist_none` and `watchlist_new` are the two fixed buttons; any other `watchlist_` data names the watchlist after the prefix; other data is not handled |
| AlertHandlers.WatchlistRoundTrip | bot/alert_handlers.py:177 | a watchlist's button decodes to its name, except that watchlists named "none" and "new" are taken for the fixed buttons |
| AlertHandlers.ConfirmAlert | bot/alert_handlers.py:239-295 | the registration asked for carries exactly the stored token, thresholds and watchlist (`None` if absent), and the four alert keys are then forgotten, the rest kept |
| AlertHandlers.WatchlistButton | bot/alert_handlers.py:201-224 | "No Watchlist" and a named watchlist are `ConfirmAlert` with the watchlist set to `None` or that name, so the request carries the stored token and thresholds and the four keys are forgotten; "Create New Watchlist" asks for a name; other data does nothing |
| AlertHandlers.ConfirmAlertAsWritten | bot/alert_handlers.py:239-295 | from a button it is `ConfirmAlert`; from a typed message it registers nothing, does not end the conversation and keeps the store, because the `isinstance(..., object)` test sends `None` down the callback path |
| AlertHandlers.WatchlistNameInput | bot/alert_handlers.py:226-237 | a typed name creates that watchlist and stores its name, then `confirm_alert` fails as written |
| AlertHandlers.TypedNameNeverRegisters | bot/alert_handlers.py:226-253 | after a typed watchlist name no alert is requested, the conversation does not end, and all answers stay stored beside the name |
| AlertHandlers.IntendedWatchlistNameInput | bot/alert_handlers.py:226-295 | with the reply taken from the message, a typed name creates that watchlist and registers exactly the stored answers under it, ends the conversation and forgets the four alert keys |
| AlertHandlers.AlertConversation | bot/alert_handlers.py:96-295 | a typed address, two accepted thresholds and "No Watchlist" register exactly those answers with at least one threshold that can fire, and leave the store as they found it |
| AlertHandlers.TypedNameConversation | bot/alert_handlers.py:96-295 | with the intended reply, "New Watchlist" and a typed name register exactly the answers under that name and leave the store as they found it |
| AlertHandlers.DecodeAlertButton | bot/alert_handlers.py:304-313 | `add_alert` starts a new alert; any `remove_alert_` data removes the alert on the token after the prefix |
| AlertHandlers.RemoveAlertRoundTrip | bot/alert_handlers.py:67 | the remove button of an alert on a token decodes to that token |
| CopyTradeHandlers.MirrorCommand | bot/copytrade_handlers.py:18-42 | an argument is stored before it is checked; the flow moves on iff it starts with `0x` and has 42 characters; without an argument nothing changes |
| CopyTradeHandlers.TargetWalletInput | bot/copytrade_handlers.py:44-62 | a typed wallet is accepted and stored iff it has the address shape; otherwise nothing changes |
| CopyTradeHandlers.InvalidArgumentIsStored | bot/copytrade_handlers.py:18-62 | an invalid wallet given as argument stays in the store; typed, it does not |
| CopyTradeHandlers.ParseSlippage | bot/copytrade_handlers.py:69-76 | blank means 5.0; otherwise the answer is accepted iff it parses to a number from 0.1 to 50 inclusive, and then it is that number |
| CopyTradeHandlers.ParseMaxEth | bot/copytrade_handlers.py:95-102 | blank means 0.1; otherwise the answer is accepted iff it parses to a number greater than 0, and then it is that number |
| CopyTradeHandlers.SlippageBounds | bot/copytrade_handlers.py:74-75 | 0.1 and 50 are accepted, 0.09 and 50.5 refused, and a blank answer, including a lone U+001C, gives 5.0 |
| CopyTradeHandlers.SlippageInput | bot/copytrade_handlers.py:64-88 | an accepted answer stores the parsed slippage (within the bounds) and asks for the ETH cap; otherwise the store is unchanged and the slippage asked again |
| CopyTradeHandlers.MaxEthInput | bot/copytrade_handlers.py:90-122 | an accepted answer stores the parsed positive cap and asks for sandbox mode; otherwise the store is unchanged and the cap asked again |
| CopyTradeHandlers.SandboxButton | bot/copytrade_handlers.py:124-161 | sandbox mode is stored as on iff the button is `sandbox_yes` |
| CopyTradeHandlers.ConfirmSetupButton | bot/copytrade_handlers.py:163-218 | `confirm_mirror_no` ends the flow with no setup and the store unchanged; anything else asks for a setup with exactly the four stored answers and then forgets them |
| CopyTradeHandlers.MirrorConversation | bot/copytrade_handlers.py:18-218 | `/mirror <wallet>`, accepted answers and "Yes" set up exactly those answers, within their bounds, and leave the store as they found it |
| CopyTradeHandlers.ConfigKeyInjective | bot/copytrade_handlers.py:248 | different configuration ids are cached under different keys |
| CopyTradeHandlers.Cached | bot/copytrade_handlers.py:328 | the cached configuration for an id is found exactly when `/mirrors` stored one under its key |
| CopyTradeHandlers.MirrorButton | bot/copytrade_handlers.py:277-352 | `mirror_add` starts a setup; pause and resume send only `active` false or true for the id after the 13- or 14-character prefix; the sandbox toggle sends only the negation of the cached flag for the id after 15 characters, and nothing without a cached configuration |
| CopyTradeHandlers.PauseRoundTrip | bot/copytrade_handlers.py:293 | the pause button of any id decodes to a pause of that id |
| CopyTradeHandlers.ResumeRoundTrip | bot/copytrade_handlers.py:310 | the resume button of any id decodes to a resume of that id |
| CopyTradeHandlers.SandboxRoundTrip | bot/copytrade_handlers.py:327 | the sandbox button of any id decodes to a toggle of that id against its cached flag |
| CopyTradeHandlers.CacheConfigs | bot/copytrade_handlers.py:248 | caching the listed configurations keeps every earlier key |
| CopyTradeHandlers.CacheHolds | bot/copytrade_handlers.py:248 | with distinct ids each listed configuration is found in the cache as listed |
| CopyTradeHandlers.CacheKeeps | bot/copytrade_handlers.py:248 | caching other ids leaves an id's cache entry alone |
| CopyTradeHandlers.ManageButtons | bot/copytrade_handlers.py:253-270 | two buttons per configuration, then "Add New Mirror" last |
| CopyTradeHandlers.ManageButtonsAt | bot/copytrade_handlers.py:253-268 | the i-th configuration's buttons are at positions 2i and 2i+1 |
| CopyTradeHandlers.ButtonsFlipListedState | bot/copytrade_handlers.py:220-352 | each button `/mirrors` shows does what it is labelled with: pause or resume negates the listed state, the sandbox button negates the listed mode, and the last one starts a setup |
| CopyTradeHandlers.PauseButtonStopsCopying | bot/copytrade_handlers.py:291-306 | pressing a configuration's pause button removes that configuration from every watched wallet's list |
| Handlers.WalletButton | bot/handlers.py:161-209 | "create" stores a fresh key of the created shape and asks for a PIN; "import" asks for a key; "balance" ends; only "create" changes the store; other data does nothing |
| Handlers.ImportWalletInput | bot/handlers.py:211-236 | an accepted key is stored as the import normalised it and a PIN asked; a refused key re-asks with the store unchanged |
| Handlers.PinInput | bot/handlers.py:238-258 | a PIN is accepted iff it is six ASCII digits, and then kept for confirmation; otherwise the store is unchanged and the PIN asked again |
| Handlers.ConfirmPinInput | bot/handlers.py:260-294 | a different PIN ends the flow storing nothing with the store unchanged; the same PIN stores the pending wallet and forgets the pending wallet and PIN |
| Handlers.WalletConversation | bot/handlers.py:211-294 | importing a key and entering a PIN twice stores the normalised wallet iff the PINs agree, leaving the store as found; on a mismatch the key stays in the store |
| Handlers.BuyCommand | bot/handlers.py:321-401 | confirmation is asked iff the user has a wallet, an address passes, the token lookup succeeds and the amount argument is a number with 0 < amount <= balance; the amount is asked iff only the address is given; nothing is stored before the wallet, argument and address checks pass |
| Handlers.TokenAmountInput | bot/handlers.py:403-437 | a non-number or non-positive amount re-asks with the store unchanged; an amount over the balance is stored and ends the flow; confirmation is asked iff 0 < amount <= balance; that path reads the stored token info, which the caller must have stored (a missing one raises an uncaught `KeyError` at bot/handlers.py:424) |
| Handlers.ConfirmationNeedsCoveredAmount | bot/handlers.py:361-421 | whichever way the amount was given, confirmation is only asked with 0 < amount <= balance stored, for the token given |
| Handlers.ProceedsSpelledOut | bot/handlers.py:441-443 | the trade proceeds exactly for `y` or `yes` in any letter case |
| Handlers.SimulatedHash | bot/handlers.py:471 | the simulated hash is `0x` and 64 more characters |
| Handlers.ConfirmTradeInput | bot/handlers.py:439-491 | anything but yes/y cancels; confirming records a buy of the stored token for the stored ETH amount with zero tokens and the simulated hash |
| Handlers.AsTradeRecord | bot/handlers.py:474-482 | the recorded trade reads back with the same token, kind and amounts |
| Handlers.ConfirmedBuyAddsCostOnly | bot/handlers.py:474-482 | a confirmed buy, being the newest record and so first in the history read, raises the token's cost basis by the ETH spent but adds no tokens |

## Left out

- The monitoring loops `start_alert_monitoring` and `start_monitoring` are infinite async loops with sleeps and backoff. `start_monitoring` never calls `process_transaction`.
- The other functions of the core files are out: `get_transaction_history` and `get_copy_trading_configs` are read-only formatting of database rows, and `alerts_command`, `mirrors_command`'s message text and `balance_command` only format text. The rest of `utils/wallet.py` (Fernet encryption, balances, receipts) is thin wrapping of libraries.
- Every database query, the token-info, price, balance and liquidity feeds, web3's `is_address` and `validate_address`, the new configuration id, `Account.from_key` and `secrets.token_hex` are parameters. The model makes no claim about what they return.
- `Account.from_key` rejecting a key outside the curve's range is not modelled: the derivation parameter always succeeds.
- Python's `float()` is the parameter `parse`. The model does not claim to reject "nan" or "inf", which pass the bound checks in the source, because every comparison with NaN is false.
- Amounts are exact reals, not IEEE doubles. For example, Python computes 10 to 12 ETH as a 19.999999999999996% change, which misses the 20% bound that `Alerts.TwentyPercentFires` reaches exactly. The constants 0.1 and 50 are likewise exact.
- `str.lower`, `str.isdigit` and `str.strip` are modelled for ASCII only. `strip` removes the ASCII whitespace including U+001C to U+001F; non-ASCII whitespace such as U+0085 and U+00A0 is not treated as blank. Python's `isdigit` also accepts non-ASCII digits in a PIN. Python's `int()` also accepts surrounding whitespace and `_` between digits; the model parses only an optional sign and ASCII digits.
- Python iterates the user set of a liquidity alert and the token set of the portfolio in hash order. The model uses order of first appearance. The events and holdings are the same as sets. The portfolio is re-sorted, so only the order of equal values can differ.
- Alerts.CheckPriceAlerts: the order of events (by token in registry order, then by alert order) is fixed by the definition but not stated as a separate contract. Membership is stated exactly, and no event occurs twice. High and low for one alert cannot both occur, so their relative order is moot.
- The token-info lookup inside the two poll loops is assumed to succeed. In the source, a failure there skips the token's remaining events, after its cache record was already updated.
- In `add_price_alert`, a price or liquidity feed that raises while seeding the record (after the alert was appended) is not modelled: the feeds are assumed to succeed there.
- Each operation's catch-all exception path (the generic error on an unexpected exception) is not modelled, except for the deletion during iteration in `update_copy_trading`, which is.
- A `KeyError` from a missing conversation key is excluded by a `requires`: the conversation flow always stores the key before the step that reads it.
- The conversation store holds only the kinds of value the handlers write. A cached configuration keeps just `active` and `sandbox_mode`, the two fields the buttons read.
- Telegram message text, keyboards apart from the callback data, and `ConversationHandler` wiring are out.
- Creating a watchlist from a typed name is returned as the name to create. The database write and `add_token_to_watchlist` are out.
- The 10-row default of the transaction query bounds the P&L and portfolio input in the source. The model accepts any list, read in the query's order: newest first by creation time (database/operations.py:178).

## Findings

| source | as written | input that shows it | evidently intended | confidence | as-written member | corrected member |
|---|---|---|---|---|---|---|
| bot/alert_handlers.py:248-253 | `confirm_alert` picks its reply function with `isinstance(update.callback_query, object)`, which holds even for `None`, so a typed message takes the callback path and raises `AttributeError` at line 250, before `add_price_alert` | a typed watchlist name after "New Watchlist" (the update carries a message and no callback query) | answer a typed message with `update.message.reply_text` and register the alert with the typed watchlist | high; not executed | AlertHandlers.TypedNameNeverRegisters | AlertHandlers.IntendedWatchlistNameInput |
| trading/portfolio.py:78 | `total_value_usd` starts as the ETH value, a `Decimal` whenever the balance is non-zero (web3's `from_wei`, utils/wallet.py:68), and `+=` adds each token's float USD value to it; that raises `TypeError`, which the per-token `except` at line 91 swallows before the append | a wallet holding 1 ETH and 4 tokens of a traded token priced at $2.50 | list every held token and add its value to the total | high, given that `from_wei` returns a `Decimal` for a non-zero amount; not executed | Portfolio.DecimalEthDropsHeldToken | Portfolio.GetUserPortfolio |

=== FILE: alert_handlers.dfy ===
/**
 * The alert conversation of bot/alert_handlers.py: `/addalert` asks for a
 * token address, a high and a low price threshold and a watchlist, keeping
 * the answers in the user's conversation store, and finally registers the
 * alert. The `remove_alert_<token>` buttons of `/alerts` remove one.
 * Text parsing by Python's `float()` is the parameter `parse`.
 */
module AlertHandlers {
  import opened Wrappers
  import opened Text
  import opened Session
  import Alerts

  /** The conversation states; `End` is `ConversationHandler.END`. */
  datatype Step = TokenAddress | PriceHigh | PriceLow | WatchlistName | End

  const TokenKey := "alert_token_address"
  const HighKey := "alert_price_high"
  const LowKey := "alert_price_low"
  const WatchlistKey := "alert_watchlist"
  const AlertKeys: set<string> := {TokenKey, HighKey, LowKey, WatchlistKey}

  /** The arguments `confirm_alert` hands to `add_price_alert`. */
  datatype AlertRequest = AlertRequest(token: Datum, high: Datum, low: Datum, watchlist: Datum)

  /**
   * What a handler leaves behind: the store, the next state (`None` when the
   * handler returns nothing and the conversation stays where it is), and the
   * alert it asks to register, if any.
   */
  datatype Reply = Reply(ud: UserData, next: Option<Step>, request: Option<AlertRequest>)

  // ----- token address -----

  /** `/addalert [token]`: an argument is stored without any check. */
  function AddAlertCommand(ud: UserData, args: seq<string>): (r: (UserData, Step))
    ensures r.1 == PriceHigh <==> |args| > 0
    ensures r.1 != PriceHigh ==> r.1 == TokenAddress && r.0 == ud
    ensures r.1 == PriceHigh ==> TokenKey in r.0 && r.0[TokenKey] == Str(args[0])
    ensures forall k :: k != TokenKey ==> (k in r.0 <==> k in ud) && (k in ud ==> r.0[k] == ud[k])
  {
    if |args| > 0 then (ud[TokenKey := Str(args[0])], PriceHigh)
    else (ud, TokenAddress)
  }

  /** A typed token address is accepted iff it looks like an address. */
  function TokenAddressInput(ud: UserData, text: string): (r: (UserData, Step))
    ensures r.1 == PriceHigh <==> LooksLikeAddress(text)
    ensures r.1 != PriceHigh ==> r.1 == TokenAddress && r.0 == ud
    ensures r.1 == PriceHigh ==> TokenKey in r.0 && r.0[TokenKey] == Str(text)
    ensures forall k :: k != TokenKey ==> (k in r.0 <==> k in ud) && (k in ud ==> r.0[k] == ud[k])
  {
    if !StartsWith(text, "0x") || |text| != 42 then (ud, TokenAddress)
    else (ud[TokenKey := Str(text)], PriceHigh)
  }

  /** The command argument bypasses the address check the typed input gets. */
  lemma CommandArgumentIsUnchecked(ud: UserData)
    ensures !LooksLikeAddress("pepe")
    ensures AddAlertCommand(ud, ["pepe"]).1 == PriceHigh
    ensures TokenAddressInput(ud, "pepe").1 == TokenAddress
  {
  }

  // ----- thresholds -----

  datatype Threshold = Skip | Value(v: real) | Invalid

  /**
   * A threshold answer: "skip" in any letter case means none; otherwise the
   * lower-cased text must parse as a number greater than zero.
   */
  function ParseThreshold(text: string, parse: string -> Option<real>): (r: Threshold)
    ensures r == Skip <==> Lower(text) == "skip"
    ensures r.Value? ==> r.v > 0.0 && parse(Lower(text)) == Some(r.v)
    ensures r == Invalid <==>
      Lower(text) != "skip" && (parse(Lower(text)).None? || parse(Lower(text)).value <= 0.0)
  {
    var t := Lower(text);
    if t == "skip" then Skip
    else match parse(t)
      case None => Invalid
      case Some(v) => if v <= 0.0 then Invalid else Value(v)
  }

  /** The threshold answer does not depend on letter case. */
  lemma ThresholdIgnoresCase(text: string, parse: string -> Option<real>)
    ensures ParseThreshold(Lower(text), parse) == ParseThreshold(text, parse)
  {
    LowerIdempotent(text);
  }

  /** What an accepted threshold answer stores: `None` or the number. */
  function Stored(t: Threshold): (d: Datum)
    requires !t.Invalid?
    ensures d == Null <==> t == Skip
    ensures d.Num? ==> t == Value(d.x)
  {
    if t.Skip? then Null else Num(t.v)
  }

  /** A stored threshold is `None` or a positive number. */
  predicate ThresholdShaped(d: Datum) {
    d == Null || (d.Num? && d.x > 0.0)
  }

  /** A stored threshold in the form `add_price_alert` receives it. */
  function ThresholdOf(d: Datum): (r: Option<real>)
    ensures r.Some? <==> d.Num?
    ensures ThresholdShaped(d) ==> (Alerts.Armed(r) <==> d.Num?)
  {
    if d.Num? then Some(d.x) else None
  }

  /** The high threshold: an invalid answer re-asks; otherwise it is stored and the low one asked. */
  function PriceHighInput(ud: UserData, text: string, parse: string -> Option<real>): (r: (UserData, Step))
    ensures r.1 == PriceHigh <==> ParseThreshold(text, parse) == Invalid
    ensures r.1 == PriceHigh ==> r.0 == ud
    ensures r.1 != PriceHigh ==>
      && r.1 == PriceLow
      && HighKey in r.0 && ThresholdShaped(r.0[HighKey])
      && (r.0[HighKey] == Null <==> Lower(text) == "skip")
      && r.0[HighKey] == Stored(ParseThreshold(text, parse))
    ensures forall k :: k != HighKey ==> (k in r.0 <==> k in ud) && (k in ud ==> r.0[k] == ud[k])
  {
    var t := ParseThreshold(text, parse);
    if t.Invalid? then (ud, PriceHigh)
    else (ud[HighKey := Stored(t)], PriceLow)
  }

  /**
   * The low threshold: an invalid answer re-asks; otherwise it is stored,
   * and if both thresholds are now `None` the flow goes back to the high one.
   * The stored high threshold is read once the answer is accepted.
   */
  function PriceLowInput(ud: UserData, text: string, parse: string -> Option<real>): (r: (UserData, Step))
    requires ParseThreshold(text, parse) != Invalid ==> HighKey in ud
    ensures r.1 == PriceLow <==> ParseThreshold(text, parse) == Invalid
    ensures r.1 == PriceLow ==> r.0 == ud
    ensures r.1 == PriceHigh <==> Lower(text) == "skip" && ud[HighKey] == Null
    ensures r.1 != PriceLow ==>
      && r.1 in {PriceHigh, WatchlistName}
      && LowKey in r.0 && ThresholdShaped(r.0[LowKey])
      && (r.0[LowKey] == Null <==> Lower(text) == "skip")
      && r.0[LowKey] == Stored(ParseThreshold(text, parse))
    ensures forall k :: k != LowKey ==> (k in r.0 <==> k in ud) && (k in ud ==> r.0[k] == ud[k])
  {
    var t := ParseThreshold(text, parse);
    if t.Invalid? then (ud, PriceLow)
    else
      var ud' := ud[LowKey := Stored(t)];
      if ud'[HighKey] == Null && ud'[LowKey] == Null then (ud', PriceHigh)
      else (ud', WatchlistName)
  }

  /**
   * Whoever reaches the watchlist question has at least one threshold that
   * can fire: answering the high and then the low question moves on exactly
   * when at least one answer was a number.
   */
  lemma WatchlistNeedsAThreshold(ud: UserData, highText: string, lowText: string, parse: string -> Option<real>)
    requires PriceHighInput(ud, highText, parse).1 == PriceLow
    ensures var ud1 := PriceHighInput(ud, highText, parse).0;
            var r := PriceLowInput(ud1, lowText, parse);
            && (r.1 == WatchlistName <==>
                 ParseThreshold(lowText, parse) != Invalid
                 && (ParseThreshold(highText, parse).Value? || ParseThreshold(lowText, parse).Value?))
            && (r.1 == WatchlistName ==>
                 Alerts.Armed(ThresholdOf(r.0[HighKey])) || Alerts.Armed(ThresholdOf(r.0[LowKey])))
  {
    var ud1 := PriceHighInput(ud, highText, parse).0;
    var r := PriceLowInput(ud1, lowText, parse);
    if r.1 == WatchlistName {
      assert ThresholdShaped(r.0[HighKey]) && ThresholdShaped(r.0[LowKey]);
    }
  }

  // ----- watchlist -----

  datatype WatchlistChoice = NoWatchlist | NewWatchlist | Existing(name: string) | Unhandled

  /** The callback data of the button for an existing watchlist. */
  function WatchlistData(name: string): string {
    "watchlist_" + name
  }

  /**
   * Decoding a watchlist button: the two fixed buttons first, then any other
   * `watchlist_` data names a watchlist by everything after the prefix.
   */
  function DecodeWatchlist(data: string): (r: WatchlistChoice)
    ensures r == NoWatchlist <==> data == "watchlist_none"
    ensures r == NewWatchlist <==> data == "watchlist_new"
    ensures r == Unhandled <==> !StartsWith(data, "watchlist_")
    ensures r.Existing? ==> data == WatchlistData(r.name) && r.name != "none" && r.name != "new"
  {
    if data == "watchlist_none" then NoWatchlist
    else if data == "watchlist_new" then NewWatchlist
    else if StartsWith(data, "watchlist_") then
      assert data == "watchlist_" + data[10..];
      Existing(data[10..])
    else Unhandled
  }

  /**
   * The button for a watchlist decodes to its name, except that watchlists
   * named "none" and "new" are taken for the two fixed buttons.
   */
  lemma WatchlistRoundTrip(name: string)
    ensures DecodeWatchlist(WatchlistData(name)) ==
      if name == "none" then NoWatchlist
      else if name == "new" then NewWatchlist
      else Existing(name)
  {
    StartsWithConcat("watchlist_", name);
  }

  /** `confirm_alert`: hand the answers to `add_price_alert` and forget them. */
  function ConfirmAlert(ud: UserData): (r: Reply)
    requires TokenKey in ud && HighKey in ud && LowKey in ud
    ensures r.request.Some?
    ensures r.request.value.token == ud[TokenKey]
    ensures r.request.value.high == ud[HighKey] && r.request.value.low == ud[LowKey]
    ensures r.request.value.watchlist == if WatchlistKey in ud then ud[WatchlistKey] else Null
    ensures r.next == Some(End)
    ensures forall k :: k in r.ud <==> k in ud && k !in AlertKeys
    ensures forall k :: k in r.ud ==> r.ud[k] == ud[k]
  {
    var request := AlertRequest(ud[TokenKey], ud[HighKey], ud[LowKey],
      if WatchlistKey in ud then ud[WatchlistKey] else Null);
    Reply(Forget(ud, AlertKeys), Some(End), Some(request))
  }

  /** A watchlist button press: the fixed and named choices confirm the alert. */
  function WatchlistButton(ud: UserData, data: string): (r: Reply)
    requires DecodeWatchlist(data).NoWatchlist? || DecodeWatchlist(data).Existing? ==>
      TokenKey in ud && HighKey in ud && LowKey in ud
    ensures r.request.Some? <==> DecodeWatchlist(data).NoWatchlist? || DecodeWatchlist(data).Existing?
    ensures r.request.Some? ==> (r.request.value.watchlist ==
      if data == "watchlist_none" then Null else Str(DecodeWatchlist(data).name))
    ensures DecodeWatchlist(data).NoWatchlist? ==> r == ConfirmAlert(ud[WatchlistKey := Null])
    ensures DecodeWatchlist(data).Existing? ==> r == ConfirmAlert(ud[WatchlistKey := Str(DecodeWatchlist(data).name)])
    ensures data == "watchlist_new" ==> r == Reply(ud, Some(WatchlistName), None)
    ensures !StartsWith(data, "watchlist_") ==> r == Reply(ud, None, None)
  {
    match DecodeWatchlist(data)
    case NoWatchlist => ConfirmAlert(ud[WatchlistKey := Null])
    case NewWatchlist => Reply(ud, Some(WatchlistName), None)
    case Existing(name) => ConfirmAlert(ud[WatchlistKey := Str(name)])
    case Unhandled => Reply(ud, None, None)
  }

  /**
   * `confirm_alert` as written, reached from a button (`fromButton`) or from
   * a typed message. It picks its reply function by testing
   * `isinstance(update.callback_query, object)`, which holds for every
   * Python value, `None` included. From a typed message the query is `None`,
   * so fetching its `edit_message_text` raises `AttributeError`. That happens
   * before `add_price_alert` runs and before the answers are forgotten. The
   * handler then returns nothing, so the conversation stays where it is.
   */
  function ConfirmAlertAsWritten(ud: UserData, fromButton: bool): (r: Reply)
    requires TokenKey in ud && HighKey in ud && LowKey in ud
    ensures fromButton ==> r == ConfirmAlert(ud)
    ensures !fromButton ==> r.request.None? && r.next.None? && r.ud == ud
  {
    if fromButton then ConfirmAlert(ud) else Reply(ud, None, None)
  }

  /**
   * A typed watchlist name, as written: the watchlist is created (first
   * component) and its name stored, then `confirm_alert` fails on the
   * missing callback query.
   */
  function WatchlistNameInput(ud: UserData, text: string): (r: (string, Reply))
    requires TokenKey in ud && HighKey in ud && LowKey in ud
    ensures r.0 == text
    ensures r.1 == ConfirmAlertAsWritten(ud[WatchlistKey := Str(text)], false)
  {
    (text, ConfirmAlertAsWritten(ud[WatchlistKey := Str(text)], false))
  }

  /**
   * A typed watchlist name never registers an alert: no request is made,
   * the conversation does not end, and every answer stays in the store
   * beside the new watchlist name.
   */
  lemma TypedNameNeverRegisters(ud: UserData, text: string)
    requires TokenKey in ud && HighKey in ud && LowKey in ud
    ensures var r := WatchlistNameInput(ud, text).1;
      && r.request.None?
      && r.next != Some(End)
      && (forall k :: k in AlertKeys ==> k in r.ud)
      && r.ud[TokenKey] == ud[TokenKey] && r.ud[HighKey] == ud[HighKey] && r.ud[LowKey] == ud[LowKey]
      && r.ud[WatchlistKey] == Str(text)
  {
  }

  /**
   * A typed watchlist name as evidently intended: `confirm_alert` answers a
   * typed message with `update.message.reply_text`, and the reply function
   * has no bearing on the registration, so the watchlist is created and the
   * alert confirmed with it, as on the button path.
   */
  function IntendedWatchlistNameInput(ud: UserData, text: string): (r: (string, Reply))
    requires TokenKey in ud && HighKey in ud && LowKey in ud
    ensures r.0 == text
    ensures r.1.request.Some? && r.1.request.value.watchlist == Str(text)
    ensures r.1.request.value.token == ud[TokenKey]
    ensures r.1.request.value.high == ud[HighKey] && r.1.request.value.low == ud[LowKey]
    ensures r.1.next == Some(End)
    ensures forall k :: k in r.1.ud <==> k in ud && k !in AlertKeys
  {
    (text, ConfirmAlert(ud[WatchlistKey := Str(text)]))
  }

  /**
   * The whole conversation for a typed address and "No Watchlist": the
   * request carries exactly the answers, it can fire, and the store is left
   * as it was found.
   */
  lemma AlertConversation(
    ud: UserData, token: string, highText: string, lowText: string, parse: string -> Option<real>)
    requires forall k :: k in AlertKeys ==> k !in ud
    requires TokenAddressInput(ud, token).1 == PriceHigh
    requires PriceHighInput(TokenAddressInput(ud, token).0, highText, parse).1 == PriceLow
    requires PriceLowInput(PriceHighInput(TokenAddressInput(ud, token).0, highText, parse).0, lowText, parse).1
      == WatchlistName
    ensures var ud1 := TokenAddressInput(ud, token).0;
            var ud2 := PriceHighInput(ud1, highText, parse).0;
            var ud3 := PriceLowInput(ud2, lowText, parse).0;
            var r := WatchlistButton(ud3, "watchlist_none");
            && r.ud == ud
            && r.request == Some(AlertRequest(
                 Str(token), Stored(ParseThreshold(highText, parse)),
                 Stored(ParseThreshold(lowText, parse)), Null))
            && (Alerts.Armed(ThresholdOf(r.request.value.high)) || Alerts.Armed(ThresholdOf(r.request.value.low)))
  {
    var ud1 := TokenAddressInput(ud, token).0;
    var ud2 := PriceHighInput(ud1, highText, parse).0;
    WatchlistNeedsAThreshold(ud1, highText, lowText, parse);
    var ud3 := PriceLowInput(ud2, lowText, parse).0;
    var r := WatchlistButton(ud3, "watchlist_none");
    assert r.ud == ud;
  }

  /**
   * With the intended reply, the conversation ending in "New Watchlist" and a
   * typed name registers exactly the answers under that watchlist, the
   * watchlist is created under the typed name, and the store is left as it
   * was found.
   */
  lemma TypedNameConversation(
    ud: UserData, token: string, highText: string, lowText: string, name: string,
    parse: string -> Option<real>)
    requires forall k :: k in AlertKeys ==> k !in ud
    requires TokenAddressInput(ud, token).1 == PriceHigh
    requires PriceHighInput(TokenAddressInput(ud, token).0, highText, parse).1 == PriceLow
    requires PriceLowInput(PriceHighInput(TokenAddressInput(ud, token).0, highText, parse).0, lowText, parse).1
      == WatchlistName
    ensures var ud1 := TokenAddressInput(ud, token).0;
            var ud2 := PriceHighInput(ud1, highText, parse).0;
            var ud3 := PriceLowInput(ud2, lowText, parse).0;
            var b := WatchlistButton(ud3, "watchlist_new");
            var r := IntendedWatchlistNameInput(b.ud, name);
            && b.next == Some(WatchlistName)
            && r.0 == name
            && r.1.ud == ud
            && r.1.request == Some(AlertRequest(
                 Str(token), Stored(ParseThreshold(highText, parse)),
                 Stored(ParseThreshold(lowText, parse)), Str(name)))
  {
    var ud1 := TokenAddressInput(ud, token).0;
    var ud2 := PriceHighInput(ud1, highText, parse).0;
    WatchlistNeedsAThreshold(ud1, highText, lowText, parse);
    var ud3 := PriceLowInput(ud2, lowText, parse).0;
    var r := IntendedWatchlistNameInput(ud3, name);
    assert r.1.ud == ud;
  }

  // ----- the /alerts buttons -----

  datatype AlertButton = AddAlert | RemoveAlert(token: string) | NoButton

  /** The callback data of the remove button of an alert on `token`. */
  function RemoveAlertData(token: string): string {
    "remove_alert_" + token
  }

  /** Decoding an `/alerts` button: the token is everything after 13 characters. */
  function DecodeAlertButton(data: string): (r: AlertButton)
    ensures r == AddAlert <==> data == "add_alert"
    ensures r.RemoveAlert? <==> StartsWith(data, "remove_alert_")
    ensures r.RemoveAlert? ==> data == RemoveAlertData(r.token)
  {
    if data == "add_alert" then AddAlert
    else if StartsWith(data, "remove_alert_") then
      assert data == "remove_alert_" + data[13..];
      RemoveAlert(data[13..])
    else NoButton
  }

  /** The remove button of an alert decodes to that alert's token. */
  lemma RemoveAlertRoundTrip(token: string)
    ensures DecodeAlertButton(RemoveAlertData(token)) == RemoveAlert(token)
  {
    StartsWithConcat("remove_alert_", token);
  }
}

=== FILE: alerts.dfy ===
/**
 * The price/liquidity alert registry and detector of trading/alerts.py.
 *
 * Two in-memory registries make up the state: `price_alerts` maps a token
 * to the list of alerts users registered on it (at most one per user), and
 * `token_data` caches the last observed price and liquidity of a token.
 * Every operation is a pure transition from one state to the next, plus a
 * result or a list of events. Database lookups, token-info lookups and the
 * price and liquidity feeds are parameters.
 */
module Alerts {
  import opened Wrappers
  import opened Text
  import D = Dict

  type UserId = string
  type Token = string

  /** One user's alert on one token; either threshold may be absent. */
  datatype Alert = Alert(telegramId: UserId, priceHigh: Option<real>, priceLow: Option<real>)

  /** The cached observation of a token; liquidity is absent until first polled. */
  datatype TokenRecord = TokenRecord(
    priceEth: real,
    priceUsd: real,
    ethLiquidity: Option<real>,
    tokenLiquidity: Option<real>)

  datatype AlertState = AlertState(
    priceAlerts: D.Dict<Token, seq<Alert>>,
    tokenData: D.Dict<Token, TokenRecord>)

  /** What the price feed returns for a token. */
  datatype PriceQuote = PriceQuote(inEth: real, inUsd: real)

  /** What the liquidity feed returns for a token. */
  datatype LiquidityQuote = LiquidityQuote(ethLiquidity: real, tokenLiquidity: real)

  datatype AlertEvent =
    | PriceHigh(telegramId: UserId, token: Token, threshold: real, current: real)
    | PriceLow(telegramId: UserId, token: Token, threshold: real, current: real)
    | LiquidityChanged(
        telegramId: UserId, token: Token, previous: real, current: real,
        changePercent: real, increased: bool)

  datatype AlertError =
    | UserNotFound
    | WatchlistNotFound
    | LookupFailed        // the token-info lookup raised
    | NoAlertsForToken
    | NoAlertForUser

  datatype AddOutcome = Added | Updated

  /** One row of `get_user_alerts`. */
  datatype UserAlert = UserAlert(token: Token, priceHigh: Option<real>, priceLow: Option<real>, currentPrice: real)

  // ----- invariants -----

  /** No user has two alerts in the same list. */
  ghost predicate OnePerUser(alerts: seq<Alert>) {
    forall i, j :: 0 <= i < j < |alerts| ==> alerts[i].telegramId != alerts[j].telegramId
  }

  /** The invariant every reachable state keeps. */
  ghost predicate Wf(s: AlertState) {
    && D.Valid(s.priceAlerts)
    && D.Valid(s.tokenData)
    && forall t :: t in s.priceAlerts.entries ==>
         |s.priceAlerts.entries[t]| > 0 && OnePerUser(s.priceAlerts.entries[t])
  }

  function Initial(): (s: AlertState)
    ensures Wf(s)
    ensures s.priceAlerts.entries == map[] && s.tokenData.entries == map[]
  {
    AlertState(D.Empty(), D.Empty())
  }

  // ----- registration -----

  /** The index of the first alert of `user`, or `|alerts|` when there is none. */
  function IndexOfUser(alerts: seq<Alert>, user: UserId): (i: nat)
    ensures i <= |alerts|
    ensures i < |alerts| ==> alerts[i].telegramId == user
    ensures forall j :: 0 <= j < i ==> alerts[j].telegramId != user
    decreases |alerts|
  {
    if |alerts| == 0 then 0
    else if alerts[0].telegramId == user then 0
    else 1 + IndexOfUser(alerts[1..], user)
  }

  /** Python truthiness of `watchlist_name`: present and non-empty. */
  predicate WatchlistRequested(name: Option<string>) {
    name.Some? && name.value != ""
  }

  /** The watchlist lookup compares names case-insensitively. */
  predicate HasWatchlist(watchlists: seq<string>, name: string) {
    exists w :: w in watchlists && Lower(w) == Lower(name)
  }

  function Seed(price: PriceQuote, liquidity: LiquidityQuote): TokenRecord {
    TokenRecord(price.inEth, price.inUsd, Some(liquidity.ethLiquidity), Some(liquidity.tokenLiquidity))
  }

  /**
   * `add_price_alert`. `userExists` is the user lookup, `tokenInfoOk` whether
   * the token-info lookup succeeds, `watchlists` the user's watchlist names,
   * and `price`/`liquidity` what the feeds return when the token is seeded.
   * Thresholds are stored as given: this function validates none of them.
   */
  function AddPriceAlert(
    s: AlertState, user: UserId, token: Token, high: Option<real>, low: Option<real>,
    watchlistName: Option<string>, userExists: bool, tokenInfoOk: bool,
    watchlists: seq<string>, price: PriceQuote, liquidity: LiquidityQuote
  ): (r: (AlertState, Result<AddOutcome, AlertError>))
    requires Wf(s)
    ensures Wf(r.0)
    // the three error paths, each leaving both registries untouched
    ensures r.1 == Err(UserNotFound) <==> !userExists
    ensures r.1 == Err(LookupFailed) <==> userExists && !tokenInfoOk
    ensures r.1 == Err(WatchlistNotFound) <==>
      userExists && tokenInfoOk && WatchlistRequested(watchlistName) && !HasWatchlist(watchlists, watchlistName.value)
    ensures r.1.Err? ==> r.0 == s
    // on success the user has exactly the given thresholds on the token
    ensures r.1.Ok? ==>
      token in r.0.priceAlerts.entries && Alert(user, high, low) in r.0.priceAlerts.entries[token]
    ensures r.1.Ok? ==> forall t :: t != token ==> D.Get(r.0.priceAlerts, t) == D.Get(s.priceAlerts, t)
    ensures r.1.Ok? ==> (r.0.priceAlerts.keys ==
      if token in s.priceAlerts.entries then s.priceAlerts.keys else s.priceAlerts.keys + [token])
    // an existing alert is overwritten in place; only a new user appends
    ensures r.1 == Ok(Updated) ==>
      && token in s.priceAlerts.entries
      && (var old_ := s.priceAlerts.entries[token];
          var new_ := r.0.priceAlerts.entries[token];
          && |new_| == |old_|
          && exists i :: 0 <= i < |old_| && old_[i].telegramId == user && new_ == old_[i := Alert(user, high, low)])
    ensures r.1 == Ok(Added) ==>
      D.Get(r.0.priceAlerts, token) == Some(D.Get(s.priceAlerts, token).GetOr([]) + [Alert(user, high, low)])
      && forall a :: a in D.Get(s.priceAlerts, token).GetOr([]) ==> a.telegramId != user
    // the cached record is seeded only for a new token, never overwritten
    ensures token in s.tokenData.entries ==> r.0.tokenData == s.tokenData
    ensures r.0.tokenData != s.tokenData ==>
      r.1 == Ok(Added) && r.0.tokenData == D.Put(s.tokenData, token, Seed(price, liquidity))
    ensures r.1 == Ok(Added) && token !in s.tokenData.entries ==>
      r.0.tokenData == D.Put(s.tokenData, token, Seed(price, liquidity))
  {
    if !userExists then (s, Err(UserNotFound))
    else if !tokenInfoOk then (s, Err(LookupFailed))
    else if WatchlistRequested(watchlistName) && !HasWatchlist(watchlists, watchlistName.value) then
      (s, Err(WatchlistNotFound))
    else
      var alerts := D.Get(s.priceAlerts, token).GetOr([]);
      var i := IndexOfUser(alerts, user);
      if i < |alerts| then
        (Overwrite(s, token, i, Alert(user, high, low)), Ok(Updated))
      else
        (AppendAlert(s, token, Alert(user, high, low), Seed(price, liquidity)), Ok(Added))
  }

  /** The state with the alert at index `i` of the token's list replaced by `a`, a new alert of the same user. */
  function Overwrite(s: AlertState, token: Token, i: nat, a: Alert): (r: AlertState)
    requires Wf(s) && token in s.priceAlerts.entries
    requires i < |s.priceAlerts.entries[token]| && s.priceAlerts.entries[token][i].telegramId == a.telegramId
    ensures Wf(r) && r.tokenData == s.tokenData
    ensures r.priceAlerts.keys == s.priceAlerts.keys
    ensures r.priceAlerts.entries == s.priceAlerts.entries[token := s.priceAlerts.entries[token][i := a]]
    ensures token in r.priceAlerts.entries && a in r.priceAlerts.entries[token]
  {
    var updated := s.priceAlerts.entries[token][i := a];
    assert OnePerUser(updated);
    assert updated[i] == a;
    AlertState(D.Put(s.priceAlerts, token, updated), s.tokenData)
  }

  /** The state with `a`, whose user has no alert on the token, appended to the token's list; a new token is seeded. */
  function AppendAlert(s: AlertState, token: Token, a: Alert, seed: TokenRecord): (r: AlertState)
    requires Wf(s)
    requires forall b :: b in D.Get(s.priceAlerts, token).GetOr([]) ==> b.telegramId != a.telegramId
    ensures Wf(r)
    ensures r.priceAlerts == D.Put(s.priceAlerts, token, D.Get(s.priceAlerts, token).GetOr([]) + [a])
    ensures r.tokenData == if token in s.tokenData.entries then s.tokenData else D.Put(s.tokenData, token, seed)
    ensures token in r.priceAlerts.entries && a in r.priceAlerts.entries[token]
  {
    var alerts := D.Get(s.priceAlerts, token).GetOr([]);
    var appended := alerts + [a];
    assert forall j :: 0 <= j < |alerts| ==> alerts[j] in alerts;
    assert OnePerUser(appended);
    assert appended[|alerts|] == a;
    var data := if token in s.tokenData.entries then s.tokenData else D.Put(s.tokenData, token, seed);
    AlertState(D.Put(s.priceAlerts, token, appended), data)
  }

  /** `alerts` without the alerts of `user`, in order: the reference for removal. */
  function WithoutUser(alerts: seq<Alert>, user: UserId): (r: seq<Alert>)
    ensures forall a :: a in r <==> a in alerts && a.telegramId != user
    decreases |alerts|
  {
    if |alerts| == 0 then []
    else if alerts[0].telegramId == user then WithoutUser(alerts[1..], user)
    else [alerts[0]] + WithoutUser(alerts[1..], user)
  }

  /** Dropping the single alert of a user at index `i` is the same as filtering the user out. */
  lemma {:induction false} RemoveAtIsWithoutUser(alerts: seq<Alert>, i: nat, user: UserId)
    requires i < |alerts| && alerts[i].telegramId == user
    requires forall j :: 0 <= j < |alerts| && j != i ==> alerts[j].telegramId != user
    ensures alerts[..i] + alerts[i + 1..] == WithoutUser(alerts, user)
    decreases |alerts|
  {
    var tail := alerts[1..];
    if i == 0 {
      assert forall a :: a in tail ==> a.telegramId != user by {
        forall a | a in tail ensures a.telegramId != user {
          var k :| 0 <= k < |tail| && tail[k] == a;
          assert alerts[k + 1] == a;
        }
      }
      NoUserNoChange(tail, user);
      assert alerts[..0] + alerts[1..] == tail;
    } else {
      assert alerts[0].telegramId != user;
      assert forall j :: 0 <= j < |tail| && j != i - 1 ==> tail[j] == alerts[j + 1];
      RemoveAtIsWithoutUser(tail, i - 1, user);
      DropAtCons(alerts, i);
      assert WithoutUser(alerts, user) == [alerts[0]] + WithoutUser(tail, user);
    }
  }

  lemma DropAtCons<T>(s: seq<T>, i: nat)
    requires 0 < i < |s|
    ensures s[..i] + s[i + 1..] == [s[0]] + (s[1..][..i - 1] + s[1..][i..])
  {
    assert s[..i] == [s[0]] + s[1..][..i - 1];
    assert s[i + 1..] == s[1..][i..];
  }

  lemma {:induction false} NoUserNoChange(alerts: seq<Alert>, user: UserId)
    requires forall a :: a in alerts ==> a.telegramId != user
    ensures WithoutUser(alerts, user) == alerts
    decreases |alerts|
  {
    if |alerts| > 0 {
      NoUserNoChange(alerts[1..], user);
      assert [alerts[0]] + alerts[1..] == alerts;
    }
  }

  lemma OnePerUserSlice(alerts: seq<Alert>, i: nat)
    requires OnePerUser(alerts)
    requires i < |alerts|
    ensures OnePerUser(alerts[..i] + alerts[i + 1..])
  {
    var r := alerts[..i] + alerts[i + 1..];
    forall p, q | 0 <= p < q < |r| ensures r[p].telegramId != r[q].telegramId {
      var p' := if p < i then p else p + 1;
      var q' := if q < i then q else q + 1;
      assert r[p] == alerts[p'] && r[q] == alerts[q'];
    }
  }

  /**
   * `remove_price_alert`: drops the caller's alert on the token and the
   * token's list once it is empty; the price cache is never touched.
   */
  function RemovePriceAlert(s: AlertState, user: UserId, token: Token): (r: (AlertState, Result<(), AlertError>))
    requires Wf(s)
    ensures Wf(r.0)
    ensures r.0.tokenData == s.tokenData
    ensures r.1 == Err(NoAlertsForToken) <==> token !in s.priceAlerts.entries
    ensures r.1 == Err(NoAlertForUser) <==>
      token in s.priceAlerts.entries && forall a :: a in s.priceAlerts.entries[token] ==> a.telegramId != user
    ensures r.1.Err? ==> r.0 == s
    ensures r.1.Ok? ==>
      (token in r.0.priceAlerts.entries <==> |WithoutUser(s.priceAlerts.entries[token], user)| > 0)
    ensures r.1.Ok? && |WithoutUser(s.priceAlerts.entries[token], user)| > 0 ==>
      && r.0.priceAlerts.entries[token] == WithoutUser(s.priceAlerts.entries[token], user)
      && r.0.priceAlerts.keys == s.priceAlerts.keys
    ensures r.1.Ok? && |WithoutUser(s.priceAlerts.entries[token], user)| == 0 ==>
      r.0.priceAlerts.keys == D.Without(s.priceAlerts.keys, token)
    ensures forall t :: t != token ==> D.Get(r.0.priceAlerts, t) == D.Get(s.priceAlerts, t)
  {
    if token !in s.priceAlerts.entries then (s, Err(NoAlertsForToken))
    else
      var alerts := s.priceAlerts.entries[token];
      var i := IndexOfUser(alerts, user);
      if i == |alerts| then (s, Err(NoAlertForUser))
      else
        assert forall j :: 0 <= j < |alerts| && j != i ==> alerts[j].telegramId != user;
        RemoveAtIsWithoutUser(alerts, i, user);
        (DropAt(s, token, i), Ok(()))
  }

  /** The state without the alert at index `i` of the token's list, and without the list once it is empty. */
  function DropAt(s: AlertState, token: Token, i: nat): (r: AlertState)
    requires Wf(s) && token in s.priceAlerts.entries && i < |s.priceAlerts.entries[token]|
    ensures Wf(r) && r.tokenData == s.tokenData
    ensures r.priceAlerts ==
      if |s.priceAlerts.entries[token]| == 1 then D.Delete(s.priceAlerts, token)
      else D.Put(s.priceAlerts, token, s.priceAlerts.entries[token][..i] + s.priceAlerts.entries[token][i + 1..])
  {
    var alerts := s.priceAlerts.entries[token];
    var rest := alerts[..i] + alerts[i + 1..];
    OnePerUserSlice(alerts, i);
    if |rest| == 0 then AlertState(D.Delete(s.priceAlerts, token), s.tokenData)
    else AlertState(D.Put(s.priceAlerts, token, rest), s.tokenData)
  }

  /**
   * Registering an alert twice with the same arguments leaves the same state
   * as registering it once: the second call overwrites in place.
   */
  lemma AddTwiceIsAddOnce(
    s: AlertState, user: UserId, token: Token, high: Option<real>, low: Option<real>,
    watchlistName: Option<string>, userExists: bool, tokenInfoOk: bool,
    watchlists: seq<string>, price: PriceQuote, liquidity: LiquidityQuote)
    requires Wf(s)
    ensures
      var once := AddPriceAlert(s, user, token, high, low, watchlistName, userExists, tokenInfoOk, watchlists, price, liquidity);
      var twice := AddPriceAlert(once.0, user, token, high, low, watchlistName, userExists, tokenInfoOk, watchlists, price, liquidity);
      twice.0 == once.0 && (once.1.Ok? ==> twice.1 == Ok(Updated))
  {
    var once := AddPriceAlert(s, user, token, high, low, watchlistName, userExists, tokenInfoOk, watchlists, price, liquidity);
    if once.1.Ok? {
      var a := Alert(user, high, low);
      var alerts := once.0.priceAlerts.entries[token];
      var i := IndexOfUser(alerts, user);
      var k :| 0 <= k < |alerts| && alerts[k] == a;
      assert i <= k;
      assert i == k;
      assert D.Get(once.0.priceAlerts, token).GetOr([]) == alerts;
      OverwriteSame(once.0, token, i, a);
    }
  }

  /** Overwriting an alert with itself changes nothing. */
  lemma OverwriteSame(s: AlertState, token: Token, i: nat, a: Alert)
    requires Wf(s) && token in s.priceAlerts.entries
    requires i < |s.priceAlerts.entries[token]| && s.priceAlerts.entries[token][i] == a
    ensures Overwrite(s, token, i, a) == s
  {
    var alerts := s.priceAlerts.entries[token];
    assert alerts[i := a] == alerts;
    assert s.priceAlerts.entries[token := alerts] == s.priceAlerts.entries;
  }

  /**
   * Adding an alert for a user who had none on the token and removing it
   * again restores `price_alerts` exactly; a price record seeded by the add
   * stays behind in `token_data`.
   */
  lemma AddThenRemoveRestoresAlerts(
    s: AlertState, user: UserId, token: Token, high: Option<real>, low: Option<real>,
    price: PriceQuote, liquidity: LiquidityQuote)
    requires Wf(s)
    requires forall a :: a in D.Get(s.priceAlerts, token).GetOr([]) ==> a.telegramId != user
    ensures
      var added := AddPriceAlert(s, user, token, high, low, None, true, true, [], price, liquidity);
      var removed := RemovePriceAlert(added.0, user, token);
      && added.1 == Ok(Added)
      && removed.1 == Ok(())
      && removed.0.priceAlerts == s.priceAlerts
      && removed.0.tokenData == added.0.tokenData
  {
    var added := AddPriceAlert(s, user, token, high, low, None, true, true, [], price, liquidity);
    AddFreshAppends(s, user, token, high, low, price, liquidity);
    RemoveAppended(s, added.0, user, token, Alert(user, high, low));
  }

  lemma AddFreshAppends(
    s: AlertState, user: UserId, token: Token, high: Option<real>, low: Option<real>,
    price: PriceQuote, liquidity: LiquidityQuote)
    requires Wf(s)
    requires forall a :: a in D.Get(s.priceAlerts, token).GetOr([]) ==> a.telegramId != user
    ensures
      var added := AddPriceAlert(s, user, token, high, low, None, true, true, [], price, liquidity);
      && added.1 == Ok(Added)
      && added.0.priceAlerts.entries == s.priceAlerts.entries[token := D.Get(s.priceAlerts, token).GetOr([]) + [Alert(user, high, low)]]
      && added.0.priceAlerts.keys ==
           (if token in s.priceAlerts.entries then s.priceAlerts.keys else s.priceAlerts.keys + [token])
  {
    var added := AddPriceAlert(s, user, token, high, low, None, true, true, [], price, liquidity);
    assert added.1 == Ok(Added);
    assert forall t :: t in added.0.priceAlerts.entries <==> t in s.priceAlerts.entries || t == token;
  }

  /** Removing the user of an alert appended to a list without that user restores the registry. */
  lemma RemoveAppended(s: AlertState, mid: AlertState, user: UserId, token: Token, a: Alert)
    requires Wf(s) && Wf(mid)
    requires a.telegramId == user
    requires forall x :: x in D.Get(s.priceAlerts, token).GetOr([]) ==> x.telegramId != user
    requires mid.priceAlerts.entries == s.priceAlerts.entries[token := D.Get(s.priceAlerts, token).GetOr([]) + [a]]
    requires mid.priceAlerts.keys ==
      (if token in s.priceAlerts.entries then s.priceAlerts.keys else s.priceAlerts.keys + [token])
    ensures RemovePriceAlert(mid, user, token).1 == Ok(())
    ensures RemovePriceAlert(mid, user, token).0.priceAlerts == s.priceAlerts
    ensures RemovePriceAlert(mid, user, token).0.tokenData == mid.tokenData
  {
    var before := D.Get(s.priceAlerts, token).GetOr([]);
    var alerts := mid.priceAlerts.entries[token];
    RemoveAppendedSucceeds(mid, user, token, before, a);
    IndexOfAppended(before, a, user);
    assert RemovePriceAlert(mid, user, token).0 == DropAt(mid, token, |before|);
    if |before| == 0 {
      assert token !in s.priceAlerts.entries;
      WithoutAppended(s.priceAlerts.keys, token);
      RemoveAdded(s.priceAlerts.entries, token, alerts);
    } else {
      ReplaceTwice(s.priceAlerts.entries, token, alerts);
    }
  }

  /** The appended alert is the first of its user, and dropping it leaves the original list. */
  lemma IndexOfAppended(before: seq<Alert>, a: Alert, user: UserId)
    requires a.telegramId == user
    requires forall x :: x in before ==> x.telegramId != user
    ensures IndexOfUser(before + [a], user) == |before|
    ensures (before + [a])[..|before|] + (before + [a])[|before| + 1..] == before
  {
    var alerts := before + [a];
    assert alerts[|before|] == a;
    assert forall j :: 0 <= j < |before| ==> alerts[j] == before[j] && before[j] in before;
    assert alerts[..|before|] == before;
  }

  lemma RemoveAdded<K, V>(m: map<K, V>, k: K, v: V)
    requires k !in m
    ensures m[k := v] - {k} == m
  {
  }

  lemma ReplaceTwice<K, V>(m: map<K, V>, k: K, v: V)
    requires k in m
    ensures m[k := v][k := m[k]] == m
  {
  }

  /** The remove finds the appended alert, and filtering its user out leaves the list as it was. */
  lemma RemoveAppendedSucceeds(mid: AlertState, user: UserId, token: Token, before: seq<Alert>, a: Alert)
    requires Wf(mid) && a.telegramId == user
    requires forall x :: x in before ==> x.telegramId != user
    requires token in mid.priceAlerts.entries && mid.priceAlerts.entries[token] == before + [a]
    ensures RemovePriceAlert(mid, user, token).1 == Ok(())
    ensures WithoutUser(mid.priceAlerts.entries[token], user) == before
  {
    NoUserNoChange(before, user);
    WithoutUserAppend(before, a, user);
    assert a in mid.priceAlerts.entries[token];
  }

  lemma {:induction false} WithoutUserAppend(alerts: seq<Alert>, a: Alert, user: UserId)
    requires a.telegramId == user
    ensures WithoutUser(alerts + [a], user) == WithoutUser(alerts, user)
    decreases |alerts|
  {
    if |alerts| == 0 {
      assert WithoutUser([a], user) == WithoutUser([a][1..], user);
    } else {
      assert (alerts + [a])[1..] == alerts[1..] + [a];
      WithoutUserAppend(alerts[1..], a, user);
    }
  }

  lemma {:induction false} WithoutAppended(keys: seq<Token>, k: Token)
    requires k !in keys
    ensures D.Without(keys + [k], k) == keys
    decreases |keys|
  {
    if |keys| == 0 {
      assert D.Without([k], k) == D.Without([k][1..], k);
    } else {
      assert (keys + [k])[1..] == keys[1..] + [k];
      WithoutAppended(keys[1..], k);
      assert [keys[0]] + keys[1..] == keys;
    }
  }

  // ----- listing -----

  function CurrentPrice(data: D.Dict<Token, TokenRecord>, t: Token): real {
    match D.Get(data, t)
    case Some(rec) => rec.priceEth
    case None => 0.0
  }

  function UserAlertsOf(t: Token, alerts: seq<Alert>, user: UserId, price: real, infoOk: Token -> bool): (r: seq<UserAlert>)
    ensures forall x :: x in r <==>
      infoOk(t) && x.token == t && x.currentPrice == price &&
      Alert(user, x.priceHigh, x.priceLow) in alerts
    decreases |alerts|
  {
    if |alerts| == 0 then []
    else
      var here :=
        if alerts[0].telegramId == user && infoOk(t)
        then [UserAlert(t, alerts[0].priceHigh, alerts[0].priceLow, price)]
        else [];
      here + UserAlertsOf(t, alerts[1..], user, price, infoOk)
  }

  /** With one alert per user, a token lists at most one alert of the user. */
  lemma {:induction false} UserAlertsOfAtMostOne(t: Token, alerts: seq<Alert>, user: UserId, price: real, infoOk: Token -> bool)
    requires OnePerUser(alerts)
    ensures |UserAlertsOf(t, alerts, user, price, infoOk)| <= 1
    decreases |alerts|
  {
    if |alerts| > 0 {
      var rest := UserAlertsOf(t, alerts[1..], user, price, infoOk);
      assert OnePerUser(alerts[1..]) by {
        forall i, j | 0 <= i < j < |alerts[1..]|
          ensures alerts[1..][i].telegramId != alerts[1..][j].telegramId
        {
          assert alerts[1..][i] == alerts[i + 1] && alerts[1..][j] == alerts[j + 1];
        }
      }
      UserAlertsOfAtMostOne(t, alerts[1..], user, price, infoOk);
      if alerts[0].telegramId == user {
        forall a | a in alerts[1..] ensures a.telegramId != user {
          var k :| 0 <= k < |alerts[1..]| && alerts[1..][k] == a;
          assert alerts[k + 1] == a;
        }
        NoAlertNoRows(t, alerts[1..], user, price, infoOk);
      }
    }
  }

  /** A token none of whose alerts is the user's lists nothing for the user. */
  lemma {:induction false} NoAlertNoRows(t: Token, alerts: seq<Alert>, user: UserId, price: real, infoOk: Token -> bool)
    requires forall a :: a in alerts ==> a.telegramId != user
    ensures UserAlertsOf(t, alerts, user, price, infoOk) == []
    decreases |alerts|
  {
    if |alerts| > 0 {
      assert alerts[0] in alerts;
      assert forall a :: a in alerts[1..] ==> a in alerts;
      NoAlertNoRows(t, alerts[1..], user, price, infoOk);
    }
  }

  function CollectUserAlerts(
    keys: seq<Token>, entries: map<Token, seq<Alert>>, data: D.Dict<Token, TokenRecord>,
    user: UserId, infoOk: Token -> bool
  ): (r: seq<UserAlert>)
    requires forall t :: t in keys ==> t in entries
    ensures forall x :: x in r <==>
      && x.token in keys
      && infoOk(x.token)
      && x.currentPrice == CurrentPrice(data, x.token)
      && Alert(user, x.priceHigh, x.priceLow) in entries[x.token]
    decreases |keys|
  {
    if |keys| == 0 then []
    else
      UserAlertsOf(keys[0], entries[keys[0]], user, CurrentPrice(data, keys[0]), infoOk)
      + CollectUserAlerts(keys[1..], entries, data, user, infoOk)
  }

  /** Over distinct tokens with one alert per user on each, no row is listed twice. */
  lemma {:induction false} CollectUserAlertsDistinct(
    keys: seq<Token>, entries: map<Token, seq<Alert>>, data: D.Dict<Token, TokenRecord>,
    user: UserId, infoOk: Token -> bool)
    requires forall t :: t in keys ==> t in entries && OnePerUser(entries[t])
    requires D.Distinct(keys)
    ensures D.Distinct(CollectUserAlerts(keys, entries, data, user, infoOk))
    decreases |keys|
  {
    if |keys| > 0 {
      var first := UserAlertsOf(keys[0], entries[keys[0]], user, CurrentPrice(data, keys[0]), infoOk);
      var rest := CollectUserAlerts(keys[1..], entries, data, user, infoOk);
      UserAlertsOfAtMostOne(keys[0], entries[keys[0]], user, CurrentPrice(data, keys[0]), infoOk);
      assert D.Distinct(keys[1..]);
      CollectUserAlertsDistinct(keys[1..], entries, data, user, infoOk);
      assert keys[0] !in keys[1..];
      DistinctConcat(first, rest);
    }
  }

  /**
   * `get_user_alerts`: every alert of the user, token by token, with the
   * cached price (0 when there is none). A token whose info lookup fails
   * (`infoOk` false) is skipped.
   */
  function GetUserAlerts(s: AlertState, user: UserId, userExists: bool, infoOk: Token -> bool): (r: Result<seq<UserAlert>, AlertError>)
    requires Wf(s)
    ensures r.Err? <==> !userExists
    ensures r.Err? ==> r.error == UserNotFound
    ensures r.Ok? ==> forall x :: x in r.value <==>
      && x.token in s.priceAlerts.entries
      && infoOk(x.token)
      && x.currentPrice == CurrentPrice(s.tokenData, x.token)
      && Alert(user, x.priceHigh, x.priceLow) in s.priceAlerts.entries[x.token]
    ensures r.Ok? ==> D.Distinct(r.value)
  {
    if !userExists then Err(UserNotFound)
    else
      CollectUserAlertsDistinct(s.priceAlerts.keys, s.priceAlerts.entries, s.tokenData, user, infoOk);
      Ok(CollectUserAlerts(s.priceAlerts.keys, s.priceAlerts.entries, s.tokenData, user, infoOk))
  }

  // ----- price polling -----

  /** Python truthiness of a threshold: present and non-zero. */
  predicate Armed(threshold: Option<real>) {
    threshold.Some? && threshold.value != 0.0
  }

  /** The price moved from strictly below `h` to `h` or above. */
  predicate CrossedUp(previous: real, current: real, h: real) {
    previous < h <= current
  }

  /** The price moved from strictly above `l` to `l` or below. */
  predicate CrossedDown(previous: real, current: real, l: real) {
    current <= l < previous
  }

  /** The events one alert raises when the price moves from `previous` to `current`: at most one. */
  function AlertEvents(t: Token, a: Alert, previous: real, current: real): (r: seq<AlertEvent>)
    ensures |r| <= 1
    ensures previous == current ==> r == []
    ensures forall e :: e in r ==> e.telegramId == a.telegramId && e.token == t && !e.LiquidityChanged?
    ensures D.Distinct(r)
  {
    var high :=
      if Armed(a.priceHigh) && previous < a.priceHigh.value && current >= a.priceHigh.value
      then [PriceHigh(a.telegramId, t, a.priceHigh.value, current)] else [];
    var low :=
      if Armed(a.priceLow) && previous > a.priceLow.value && current <= a.priceLow.value
      then [PriceLow(a.telegramId, t, a.priceLow.value, current)] else [];
    high + low
  }

  /** A token's events: each alert's in list order. */
  function TokenEvents(t: Token, alerts: seq<Alert>, previous: real, current: real): (r: seq<AlertEvent>)
    ensures forall e :: e in r <==> exists a :: a in alerts && e in AlertEvents(t, a, previous, current)
    decreases |alerts|
  {
    if |alerts| == 0 then []
    else AlertEvents(t, alerts[0], previous, current) + TokenEvents(t, alerts[1..], previous, current)
  }

  /** With one alert per user, a token raises no event twice: alerts of different users raise different events. */
  lemma {:induction false} TokenEventsDistinct(t: Token, alerts: seq<Alert>, previous: real, current: real)
    requires OnePerUser(alerts)
    ensures D.Distinct(TokenEvents(t, alerts, previous, current))
    decreases |alerts|
  {
    if |alerts| > 0 {
      var first := AlertEvents(t, alerts[0], previous, current);
      var rest := TokenEvents(t, alerts[1..], previous, current);
      assert OnePerUser(alerts[1..]) by {
        forall i, j | 0 <= i < j < |alerts[1..]|
          ensures alerts[1..][i].telegramId != alerts[1..][j].telegramId
        {
          assert alerts[1..][i] == alerts[i + 1] && alerts[1..][j] == alerts[j + 1];
        }
      }
      TokenEventsDistinct(t, alerts[1..], previous, current);
      forall e | e in rest ensures e.telegramId != alerts[0].telegramId {
        var a :| a in alerts[1..] && e in AlertEvents(t, a, previous, current);
        var k :| 0 <= k < |alerts[1..]| && alerts[1..][k] == a;
        assert alerts[k + 1] == a;
      }
      DistinctConcat(first, rest);
    }
  }

  /** A high event names a user whose armed high threshold the price crossed upwards. */
  lemma AlertEventsHigh(t: Token, a: Alert, previous: real, current: real, u: UserId, h: real, c: real)
    ensures PriceHigh(u, t, h, c) in AlertEvents(t, a, previous, current) <==>
      a.telegramId == u && a.priceHigh == Some(h) && h != 0.0 && c == current && CrossedUp(previous, current, h)
  {
  }

  /** A low event names a user whose armed low threshold the price crossed downwards. */
  lemma AlertEventsLow(t: Token, a: Alert, previous: real, current: real, u: UserId, l: real, c: real)
    ensures PriceLow(u, t, l, c) in AlertEvents(t, a, previous, current) <==>
      a.telegramId == u && a.priceLow == Some(l) && l != 0.0 && c == current && CrossedDown(previous, current, l)
  {
  }

  /** The previous price: the cached one, or the current one for a token never observed. */
  function PreviousPrice(data: D.Dict<Token, TokenRecord>, t: Token, q: PriceQuote): real {
    match D.Get(data, t)
    case Some(rec) => rec.priceEth
    case None => q.inEth
  }

  /** The cached record after a successful price poll; liquidity is left as it was. */
  function Refreshed(old_: Option<TokenRecord>, q: PriceQuote): TokenRecord {
    match old_
    case Some(rec) => rec.(priceEth := q.inEth, priceUsd := q.inUsd)
    case None => TokenRecord(q.inEth, q.inUsd, None, None)
  }

  /** The events a token raises when its quote is `q` against the cache `data`. */
  function PollEvents(t: Token, alerts: seq<Alert>, data: D.Dict<Token, TokenRecord>, q: Option<PriceQuote>)
    : (r: seq<AlertEvent>)
    ensures forall e :: e in r ==> e.token == t && !e.LiquidityChanged?
  {
    match q
    case None => []
    case Some(p) => TokenEvents(t, alerts, PreviousPrice(data, t, p), p.inEth)
  }

  /** One token of the loop in `check_price_alerts`; a failed quote skips the token. */
  function PollToken(t: Token, alerts: seq<Alert>, data: D.Dict<Token, TokenRecord>, q: Option<PriceQuote>)
    : (r: (D.Dict<Token, TokenRecord>, seq<AlertEvent>))
    requires D.Valid(data)
    ensures D.Valid(r.0)
  {
    match q
    case None => (data, [])
    case Some(p) =>
      (D.Put(data, t, Refreshed(D.Get(data, t), p)), PollEvents(t, alerts, data, q))
  }

  /** The loop of `check_price_alerts` over the tokens `ks`, threading the cache. */
  function PollPrices(
    ks: seq<Token>, entries: map<Token, seq<Alert>>, data: D.Dict<Token, TokenRecord>,
    quote: Token -> Option<PriceQuote>
  ): (r: (D.Dict<Token, TokenRecord>, seq<AlertEvent>))
    requires D.Valid(data)
    requires forall t :: t in ks ==> t in entries
    ensures D.Valid(r.0)
    ensures forall e :: e in r.1 ==> e.token in ks
    decreases |ks|
  {
    if |ks| == 0 then (data, [])
    else
      var step := PollToken(ks[0], entries[ks[0]], data, quote(ks[0]));
      var rest := PollPrices(ks[1..], entries, step.0, quote);
      (rest.0, step.1 + rest.1)
  }

  /**
   * Over distinct tokens, each token's events are computed against the cache
   * as it was before the loop, and each polled token's record is refreshed
   * once while every other record is left alone.
   */
  lemma PollPricesSpec(
    ks: seq<Token>, entries: map<Token, seq<Alert>>, data: D.Dict<Token, TokenRecord>,
    quote: Token -> Option<PriceQuote>)
    requires D.Valid(data)
    requires D.Distinct(ks)
    requires forall t :: t in ks ==> t in entries
    ensures var r := PollPrices(ks, entries, data, quote);
      && (forall e :: e in r.1 <==> exists t :: t in ks && e in PollEvents(t, entries[t], data, quote(t)))
      && (forall t :: D.Get(r.0, t) ==
            if t in ks && quote(t).Some? then Some(Refreshed(D.Get(data, t), quote(t).value))
            else D.Get(data, t))
  {
    PollPricesEvents(ks, entries, data, quote);
    PollPricesCache(ks, entries, data, quote);
  }

  /**
   * Over distinct tokens with one alert per user on each, the loop raises no
   * event twice: events of different tokens name different tokens.
   */
  lemma {:induction false} PollPricesDistinct(
    ks: seq<Token>, entries: map<Token, seq<Alert>>, data: D.Dict<Token, TokenRecord>,
    quote: Token -> Option<PriceQuote>)
    requires D.Valid(data)
    requires D.Distinct(ks)
    requires forall t :: t in ks ==> t in entries && OnePerUser(entries[t])
    ensures D.Distinct(PollPrices(ks, entries, data, quote).1)
    decreases |ks|
  {
    if |ks| > 0 {
      var t0 := ks[0];
      var step := PollToken(t0, entries[t0], data, quote(t0));
      assert D.Distinct(ks[1..]);
      PollPricesDistinct(ks[1..], entries, step.0, quote);
      var rest := PollPrices(ks[1..], entries, step.0, quote);
      assert t0 !in ks[1..];
      if quote(t0).Some? {
        TokenEventsDistinct(t0, entries[t0], PreviousPrice(data, t0, quote(t0).value), quote(t0).value.inEth);
      }
      DistinctConcat(step.1, rest.1);
    }
  }

  /** A token's poll leaves every other token's record alone. */
  lemma PollTokenKeepsOthers(t0: Token, alerts: seq<Alert>, data: D.Dict<Token, TokenRecord>, q: Option<PriceQuote>)
    requires D.Valid(data)
    ensures forall t :: t != t0 ==> D.Get(PollToken(t0, alerts, data, q).0, t) == D.Get(data, t)
  {
  }

  lemma {:induction false} PollPricesEvents(
    ks: seq<Token>, entries: map<Token, seq<Alert>>, data: D.Dict<Token, TokenRecord>,
    quote: Token -> Option<PriceQuote>)
    requires D.Valid(data)
    requires D.Distinct(ks)
    requires forall t :: t in ks ==> t in entries
    ensures forall e :: e in PollPrices(ks, entries, data, quote).1 <==>
      exists t :: t in ks && e in PollEvents(t, entries[t], data, quote(t))
    decreases |ks|
  {
    if |ks| > 0 {
      var t0 := ks[0];
      var step := PollToken(t0, entries[t0], data, quote(t0));
      assert D.Distinct(ks[1..]);
      PollPricesEvents(ks[1..], entries, step.0, quote);
      assert forall t :: t in ks[1..] ==> t != t0;
      PollTokenKeepsOthers(t0, entries[t0], data, quote(t0));
      assert forall t :: t in ks[1..] ==> PollEvents(t, entries[t], step.0, quote(t)) == PollEvents(t, entries[t], data, quote(t));
      var rest := PollPrices(ks[1..], entries, step.0, quote);
      var r := PollPrices(ks, entries, data, quote);
      assert r.1 == step.1 + rest.1;
      assert step.1 == PollEvents(t0, entries[t0], data, quote(t0));
      forall e ensures e in r.1 <==> exists t :: t in ks && e in PollEvents(t, entries[t], data, quote(t)) {
        if e in step.1 {
          assert t0 in ks;
        } else if e in rest.1 {
          var t :| t in ks[1..] && e in PollEvents(t, entries[t], step.0, quote(t));
          assert t in ks;
        } else {
          assert forall t :: t in ks ==> t == t0 || t in ks[1..];
        }
      }
    }
  }

  lemma {:induction false} PollPricesCache(
    ks: seq<Token>, entries: map<Token, seq<Alert>>, data: D.Dict<Token, TokenRecord>,
    quote: Token -> Option<PriceQuote>)
    requires D.Valid(data)
    requires D.Distinct(ks)
    requires forall t :: t in ks ==> t in entries
    ensures var r := PollPrices(ks, entries, data, quote);
      forall t :: D.Get(r.0, t) ==
        if t in ks && quote(t).Some? then Some(Refreshed(D.Get(data, t), quote(t).value))
        else D.Get(data, t)
    decreases |ks|
  {
    if |ks| > 0 {
      var t0 := ks[0];
      var step := PollToken(t0, entries[t0], data, quote(t0));
      assert D.Distinct(ks[1..]);
      PollPricesCache(ks[1..], entries, step.0, quote);
      assert t0 !in ks[1..];
      PollTokenKeepsOthers(t0, entries[t0], data, quote(t0));
      assert forall t :: t in ks <==> t == t0 || t in ks[1..];
    }
  }

  /** The high threshold `h` of user `u` on token `t` fires in a poll whose price is `c`. */
  ghost predicate HighFires(s: AlertState, quote: Token -> Option<PriceQuote>, u: UserId, t: Token, h: real, c: real) {
    && t in s.priceAlerts.entries
    && quote(t).Some?
    && c == quote(t).value.inEth
    && h != 0.0
    && CrossedUp(PreviousPrice(s.tokenData, t, quote(t).value), c, h)
    && exists a :: a in s.priceAlerts.entries[t] && a.telegramId == u && a.priceHigh == Some(h)
  }

  /** The low threshold `l` of user `u` on token `t` fires in a poll whose price is `c`. */
  ghost predicate LowFires(s: AlertState, quote: Token -> Option<PriceQuote>, u: UserId, t: Token, l: real, c: real) {
    && t in s.priceAlerts.entries
    && quote(t).Some?
    && c == quote(t).value.inEth
    && l != 0.0
    && CrossedDown(PreviousPrice(s.tokenData, t, quote(t).value), c, l)
    && exists a :: a in s.priceAlerts.entries[t] && a.telegramId == u && a.priceLow == Some(l)
  }

  /**
   * `check_price_alerts`. `quote` is the price feed (`None` when it raises,
   * which skips the token). The alert registry is never changed; every
   * polled token's cached price becomes the current price; events are
   * edge-triggered threshold crossings against the previously cached price.
   */
  function CheckPriceAlerts(s: AlertState, quote: Token -> Option<PriceQuote>): (r: (AlertState, seq<AlertEvent>))
    requires Wf(s)
    ensures Wf(r.0)
    ensures r.0.priceAlerts == s.priceAlerts
    ensures forall t :: (D.Get(r.0.tokenData, t) ==
      if t in s.priceAlerts.entries && quote(t).Some? then Some(Refreshed(D.Get(s.tokenData, t), quote(t).value))
      else D.Get(s.tokenData, t))
    ensures forall e :: e in r.1 ==> !e.LiquidityChanged?
    ensures forall u, t, h, c :: PriceHigh(u, t, h, c) in r.1 <==> HighFires(s, quote, u, t, h, c)
    ensures forall u, t, l, c :: PriceLow(u, t, l, c) in r.1 <==> LowFires(s, quote, u, t, l, c)
    ensures D.Distinct(r.1)
  {
    var pa := s.priceAlerts;
    var polled := PollPrices(pa.keys, pa.entries, s.tokenData, quote);
    PollPricesSpec(pa.keys, pa.entries, s.tokenData, quote);
    PollPricesDistinct(pa.keys, pa.entries, s.tokenData, quote);
    PriceEventsFire(s, quote, polled.1);
    (AlertState(pa, polled.0), polled.1)
  }

  /** Events computed token by token against the cache are exactly the threshold crossings. */
  lemma PriceEventsFire(s: AlertState, quote: Token -> Option<PriceQuote>, events: seq<AlertEvent>)
    requires Wf(s)
    requires forall e :: e in events <==>
      exists t :: t in s.priceAlerts.keys && e in PollEvents(t, s.priceAlerts.entries[t], s.tokenData, quote(t))
    ensures forall e :: e in events ==> !e.LiquidityChanged?
    ensures forall u, t, h, c :: PriceHigh(u, t, h, c) in events <==> HighFires(s, quote, u, t, h, c)
    ensures forall u, t, l, c :: PriceLow(u, t, l, c) in events <==> LowFires(s, quote, u, t, l, c)
  {
    var pa := s.priceAlerts;
    forall u, t, h, c ensures PriceHigh(u, t, h, c) in events <==> HighFires(s, quote, u, t, h, c) {
      var e := PriceHigh(u, t, h, c);
      if t in pa.entries && quote(t).Some? {
        var q := quote(t).value;
        var prev := PreviousPrice(s.tokenData, t, q);
        forall a | a in pa.entries[t] {
          AlertEventsHigh(t, a, prev, q.inEth, u, h, c);
        }
      }
      if e in events {
        var t' :| t' in pa.keys && e in PollEvents(t', pa.entries[t'], s.tokenData, quote(t'));
        assert t' == t;
      }
    }
    forall u, t, l, c ensures PriceLow(u, t, l, c) in events <==> LowFires(s, quote, u, t, l, c) {
      var e := PriceLow(u, t, l, c);
      if t in pa.entries && quote(t).Some? {
        var q := quote(t).value;
        var prev := PreviousPrice(s.tokenData, t, q);
        forall a | a in pa.entries[t] {
          AlertEventsLow(t, a, prev, q.inEth, u, l, c);
        }
      }
      if e in events {
        var t' :| t' in pa.keys && e in PollEvents(t', pa.entries[t'], s.tokenData, quote(t'));
        assert t' == t;
      }
    }
  }

  /** Polling again with unchanged prices raises nothing: every crossing fires once. */
  lemma RepeatedPollIsSilent(s: AlertState, quote: Token -> Option<PriceQuote>)
    requires Wf(s)
    ensures var first := CheckPriceAlerts(s, quote);
      CheckPriceAlerts(first.0, quote).1 == []
  {
    var first := CheckPriceAlerts(s, quote);
    var second := CheckPriceAlerts(first.0, quote);
    forall e ensures e !in second.1 {
      if e.PriceHigh? || e.PriceLow? {
        var t := e.token;
        if t in s.priceAlerts.entries && quote(t).Some? {
          assert D.Get(first.0.tokenData, t) == Some(Refreshed(D.Get(s.tokenData, t), quote(t).value));
          assert PreviousPrice(first.0.tokenData, t, quote(t).value) == quote(t).value.inEth;
        }
      }
    }
    EmptyIfNoMembers(second.1);
  }

  lemma HeadIn<T>(s: seq<T>)
    ensures |s| > 0 ==> s[0] in s
  {
  }

  lemma EmptyIfNoMembers<T>(s: seq<T>)
    requires forall x :: x !in s
    ensures s == []
  {
    HeadIn(s);
  }

  /**
   * Once a poll has seen token `t` at or above `h`, the next poll raises no
   * high event for `h` on `t`, whatever the new price.
   */
  lemma NoSecondHighEvent(s: AlertState, quote1: Token -> Option<PriceQuote>, quote2: Token -> Option<PriceQuote>, t: Token, h: real)
    requires Wf(s)
    requires t in s.priceAlerts.entries && quote1(t).Some? && quote1(t).value.inEth >= h
    ensures var first := CheckPriceAlerts(s, quote1);
      forall u, c :: PriceHigh(u, t, h, c) !in CheckPriceAlerts(first.0, quote2).1
  {
    var first := CheckPriceAlerts(s, quote1);
    assert D.Get(first.0.tokenData, t) == Some(Refreshed(D.Get(s.tokenData, t), quote1(t).value));
  }

  /** A token that has no cached record yet never raises a price event on its first poll. */
  lemma FirstPollIsSilent(s: AlertState, quote: Token -> Option<PriceQuote>, t: Token)
    requires Wf(s)
    requires t !in s.tokenData.entries
    ensures forall e :: e in CheckPriceAlerts(s, quote).1 ==> e.token != t
  {
    var r := CheckPriceAlerts(s, quote);
    forall e | e in r.1 ensures e.token != t {
      match e
      case PriceHigh(u, t', h, c) => assert HighFires(s, quote, u, t', h, c);
      case PriceLow(u, t', l, c) => assert LowFires(s, quote, u, t', l, c);
      case LiquidityChanged(_, _, _, _, _, _) =>
    }
  }

  // ----- liquidity polling -----

  /** The percentage change of ETH liquidity, 0 when there was none before. */
  function ChangePercent(previous: real, current: real): real {
    if previous > 0.0 then (current / previous - 1.0) * 100.0 else 0.0
  }

  function Abs(x: real): real {
    if x < 0.0 then -x else x
  }

  /** A change of 20% or more either way is significant. */
  predicate Significant(change: real) {
    Abs(change) >= 20.0
  }

  /** The distinct users among `alerts`, in order of first appearance. */
  function Subscribers(alerts: seq<Alert>): (r: seq<UserId>)
    ensures D.Distinct(r)
    ensures forall u :: u in r <==> exists a :: a in alerts && a.telegramId == u
    decreases |alerts|
  {
    if |alerts| == 0 then []
    else
      var rest := Subscribers(alerts[..|alerts| - 1]);
      var u := alerts[|alerts| - 1].telegramId;
      assert forall a :: a in alerts <==> a in alerts[..|alerts| - 1] || a == alerts[|alerts| - 1];
      if u in rest then rest else rest + [u]
  }

  function LiquidityEventsFor(users: seq<UserId>, t: Token, previous: real, current: real, change: real)
    : (r: seq<AlertEvent>)
    ensures |r| == |users|
    ensures forall i :: 0 <= i < |r| ==>
      r[i] == LiquidityChanged(users[i], t, previous, current, change, change > 0.0)
    decreases |users|
  {
    if |users| == 0 then []
    else
      [LiquidityChanged(users[0], t, previous, current, change, change > 0.0)]
      + LiquidityEventsFor(users[1..], t, previous, current, change)
  }

  /** One event per listed user, all carrying the same figures; distinct users give distinct events. */
  lemma LiquidityEventsForMembers(users: seq<UserId>, t: Token, previous: real, current: real, change: real)
    ensures var r := LiquidityEventsFor(users, t, previous, current, change);
      && (D.Distinct(users) ==> D.Distinct(r))
      && forall e :: e in r <==>
           e == LiquidityChanged(e.telegramId, t, previous, current, change, change > 0.0) && e.telegramId in users
  {
    var r := LiquidityEventsFor(users, t, previous, current, change);
    forall e ensures e in r <==>
      e == LiquidityChanged(e.telegramId, t, previous, current, change, change > 0.0) && e.telegramId in users
    {
      if e in r {
        var i :| 0 <= i < |r| && r[i] == e;
      }
      if e == LiquidityChanged(e.telegramId, t, previous, current, change, change > 0.0) && e.telegramId in users {
        var i :| 0 <= i < |users| && users[i] == e.telegramId;
        assert r[i] == e;
      }
    }
  }

  /** The previous ETH liquidity: the cached one, or the current one when none is cached. */
  function PreviousLiquidity(rec: TokenRecord, l: LiquidityQuote): real {
    rec.ethLiquidity.GetOr(l.ethLiquidity)
  }

  /** The events one cached token raises when the liquidity feed returns `q`. */
  function TokenLiquidityEvents(t: Token, rec: TokenRecord, alerts: seq<Alert>, q: Option<LiquidityQuote>)
    : (r: seq<AlertEvent>)
    ensures D.Distinct(r)
    ensures forall e :: e in r <==>
      && q.Some?
      && e.LiquidityChanged?
      && e.token == t
      && e.previous == PreviousLiquidity(rec, q.value)
      && e.current == q.value.ethLiquidity
      && e.changePercent == ChangePercent(e.previous, e.current)
      && Significant(e.changePercent)
      && e.increased == (e.changePercent > 0.0)
      && exists a :: a in alerts && a.telegramId == e.telegramId
  {
    match q
    case None => []
    case Some(l) =>
      var previous := PreviousLiquidity(rec, l);
      var change := ChangePercent(previous, l.ethLiquidity);
      if Significant(change) then
        var users := Subscribers(alerts);
        LiquidityEventsForMembers(users, t, previous, l.ethLiquidity, change);
        LiquidityEventsFor(users, t, previous, l.ethLiquidity, change)
      else []
  }

  function AlertsOn(pa: D.Dict<Token, seq<Alert>>, t: Token): seq<Alert> {
    D.Get(pa, t).GetOr([])
  }

  function LiquidityEvents(
    ks: seq<Token>, data: map<Token, TokenRecord>, pa: D.Dict<Token, seq<Alert>>,
    liquidity: Token -> Option<LiquidityQuote>
  ): (r: seq<AlertEvent>)
    requires forall t :: t in ks ==> t in data
    requires D.Distinct(ks)
    ensures D.Distinct(r)
    ensures forall e :: e in r <==> exists t :: t in ks && e in TokenLiquidityEvents(t, data[t], AlertsOn(pa, t), liquidity(t))
    decreases |ks|
  {
    if |ks| == 0 then []
    else
      var here := TokenLiquidityEvents(ks[0], data[ks[0]], AlertsOn(pa, ks[0]), liquidity(ks[0]));
      assert D.Distinct(ks[1..]);
      var rest := LiquidityEvents(ks[1..], data, pa, liquidity);
      assert forall e :: e in rest ==> e.token != ks[0];
      DistinctConcat(here, rest);
      here + rest
  }

  lemma DistinctConcat<T>(a: seq<T>, b: seq<T>)
    requires D.Distinct(a) && D.Distinct(b)
    requires forall x :: x in a ==> x !in b
    ensures D.Distinct(a + b)
  {
    var c := a + b;
    forall i, j | 0 <= i < j < |c| ensures c[i] != c[j] {
      if j >= |a| && i < |a| {
        assert c[i] in a && c[j] == b[j - |a|];
      } else if i >= |a| {
        assert c[i] == b[i - |a|] && c[j] == b[j - |a|];
      }
    }
  }

  /** The cached record after a liquidity poll. */
  function WithLiquidity(rec: TokenRecord, q: Option<LiquidityQuote>): TokenRecord {
    match q
    case None => rec
    case Some(l) => rec.(ethLiquidity := Some(l.ethLiquidity), tokenLiquidity := Some(l.tokenLiquidity))
  }

  /**
   * `check_liquidity_changes`. Every cached token is polled (`None` when the
   * feed raises, which skips it); its cached liquidity becomes the current
   * one whether or not an event fires; a move of 20% or more raises one event
   * per distinct user with an alert on the token.
   */
  function CheckLiquidityChanges(s: AlertState, liquidity: Token -> Option<LiquidityQuote>)
    : (r: (AlertState, seq<AlertEvent>))
    requires Wf(s)
    ensures Wf(r.0)
    ensures r.0.priceAlerts == s.priceAlerts
    ensures r.0.tokenData.keys == s.tokenData.keys
    ensures forall t :: t in s.tokenData.entries ==>
      r.0.tokenData.entries[t] == WithLiquidity(s.tokenData.entries[t], liquidity(t))
    ensures D.Distinct(r.1)
    ensures forall e :: e in r.1 <==>
      && e.LiquidityChanged?
      && e.token in s.tokenData.entries
      && liquidity(e.token).Some?
      && e.previous == PreviousLiquidity(s.tokenData.entries[e.token], liquidity(e.token).value)
      && e.current == liquidity(e.token).value.ethLiquidity
      && e.changePercent == ChangePercent(e.previous, e.current)
      && Significant(e.changePercent)
      && e.increased == (e.changePercent > 0.0)
      && e.token in s.priceAlerts.entries
      && exists a :: a in s.priceAlerts.entries[e.token] && a.telegramId == e.telegramId
  {
    var td := s.tokenData;
    var events := LiquidityEvents(td.keys, td.entries, s.priceAlerts, liquidity);
    var entries := map t | t in td.entries :: WithLiquidity(td.entries[t], liquidity(t));
    assert entries.Keys == td.entries.Keys;
    (AlertState(s.priceAlerts, D.Dict(td.keys, entries)), events)
  }

  /** The boundary example: 10 ETH of liquidity becoming 12 ETH is a 20% rise and fires. */
  lemma TwentyPercentFires()
    ensures ChangePercent(10.0, 12.0) == 20.0 && Significant(ChangePercent(10.0, 12.0))
    ensures !Significant(ChangePercent(10.0, 11.99))
  {
  }
}

=== FILE: copytrade.dfy ===
/**
 * The copy-trade registry of `trading/copytrade.py`: `monitored_wallets`
 * maps a watched wallet to the subscriptions copying it, in the order they
 * were set up, and `processed_transactions` remembers every transaction
 * hash already handled. Database calls and the address check are oracle
 * parameters.
 */
module CopyTrade {
  import opened Wrappers
  import D = Dict

  type UserId = string
  type Addr = string
  type Hash = string

  /**
   * One subscription. `active` is absent until a resume writes `True` into
   * it; a pause removes the subscription instead of clearing the flag.
   */
  datatype Entry = Entry(
    telegramId: UserId,
    configId: int,
    slippageGuard: real,
    maxEthPerTrade: real,
    sandboxMode: bool,
    active: Option<bool>)

  datatype CopyState = CopyState(monitored: D.Dict<Addr, seq<Entry>>, processed: set<Hash>)

  datatype CopyError = InvalidWallet | NoWallet | UserNotFound | ConfigNotFound | UpdateFailed

  /** What a successful setup reports back. */
  datatype SetupSummary = SetupSummary(
    configId: int, targetWallet: Addr, slippageGuard: real, maxEthPerTrade: real, sandboxMode: bool)

  /** The stored configuration row as the database returns it after an update. */
  datatype ConfigRow = ConfigRow(active: bool, slippageGuard: real, sandboxMode: bool, maxEthPerTrade: real)

  /** The optional arguments of `update_copy_trading`; `None` leaves a field alone. */
  datatype Patch = Patch(
    active: Option<bool>, slippageGuard: Option<real>, sandboxMode: Option<bool>, maxEthPerTrade: Option<real>)

  /** What a successful update reports back: each field from the patch, else from the row. */
  datatype UpdateSummary = UpdateSummary(
    configId: int, active: bool, slippageGuard: real, sandboxMode: bool, maxEthPerTrade: real)

  datatype Tx = Tx(hash: Hash, from: Addr, to: Addr, value: real)

  /** The copy a subscriber would make of a watched wallet's transaction. */
  datatype Intent = Intent(
    telegramId: UserId, configId: int, hash: Hash, slippageGuard: real, maxEthPerTrade: real, sandboxMode: bool)

  /** Every watched wallet has at least one subscription. */
  ghost predicate Wf(s: CopyState) {
    && D.Valid(s.monitored)
    && forall w :: w in s.monitored.entries ==> |s.monitored.entries[w]| > 0
  }

  function Initial(): (s: CopyState)
    ensures Wf(s)
    ensures s.monitored.entries == map[] && s.processed == {}
  {
    CopyState(D.Empty(), {})
  }

  function ListOf(s: CopyState, w: Addr): seq<Entry> {
    D.Get(s.monitored, w).GetOr([])
  }

  // ----- setup -----

  /**
   * `setup_copy_trading`. `isAddress` is the web3 address check, `hasWallet`
   * whether the user exists with a wallet, and `newConfigId` the id the
   * database assigns to the new configuration row.
   */
  function SetupCopyTrading(
    s: CopyState, user: UserId, target: Addr, slippageGuard: real, maxEthPerTrade: real, sandboxMode: bool,
    isAddress: bool, hasWallet: bool, newConfigId: int
  ): (r: (CopyState, Result<SetupSummary, CopyError>))
    requires Wf(s)
    ensures Wf(r.0)
    ensures r.1 == Err(InvalidWallet) <==> !isAddress
    ensures r.1 == Err(NoWallet) <==> isAddress && !hasWallet
    ensures r.1.Err? ==> r.0 == s
    ensures r.1.Ok? ==>
      && r.1.value == SetupSummary(newConfigId, target, slippageGuard, maxEthPerTrade, sandboxMode)
      && r.0.processed == s.processed
      && ListOf(r.0, target) == ListOf(s, target) + [Entry(user, newConfigId, slippageGuard, maxEthPerTrade, sandboxMode, None)]
      && (forall w :: w != target ==> D.Get(r.0.monitored, w) == D.Get(s.monitored, w))
      && (r.0.monitored.keys ==
            if target in s.monitored.entries then s.monitored.keys else s.monitored.keys + [target])
  {
    if !isAddress then (s, Err(InvalidWallet))
    else if !hasWallet then (s, Err(NoWallet))
    else
      var entry := Entry(user, newConfigId, slippageGuard, maxEthPerTrade, sandboxMode, None);
      var list := ListOf(s, target) + [entry];
      (s.(monitored := D.Put(s.monitored, target, list)),
       Ok(SetupSummary(newConfigId, target, slippageGuard, maxEthPerTrade, sandboxMode)))
  }

  /** Setting up the same subscription twice keeps both entries: setups are not deduplicated. */
  lemma SetupTwiceKeepsBoth(
    s: CopyState, user: UserId, target: Addr, slippageGuard: real, maxEthPerTrade: real, sandboxMode: bool,
    id1: int, id2: int)
    requires Wf(s)
    ensures
      var first := SetupCopyTrading(s, user, target, slippageGuard, maxEthPerTrade, sandboxMode, true, true, id1);
      var second := SetupCopyTrading(first.0, user, target, slippageGuard, maxEthPerTrade, sandboxMode, true, true, id2);
      |ListOf(second.0, target)| == |ListOf(s, target)| + 2
  {
  }

  // ----- update -----

  /** The index of the first entry for `id`, or `|cfgs|` when there is none. */
  function IndexOfConfig(cfgs: seq<Entry>, id: int): (i: nat)
    ensures i <= |cfgs|
    ensures i < |cfgs| ==> cfgs[i].configId == id
    ensures forall j :: 0 <= j < i ==> cfgs[j].configId != id
    decreases |cfgs|
  {
    if |cfgs| == 0 then 0
    else if cfgs[0].configId == id then 0
    else 1 + IndexOfConfig(cfgs[1..], id)
  }

  /** The fields of one entry after a patch that does not pause it. */
  function Apply(e: Entry, p: Patch): (r: Entry)
    requires p.active != Some(false)
    ensures r.telegramId == e.telegramId && r.configId == e.configId
    ensures p.active == None ==> r.active == e.active
    ensures p.active == Some(true) ==> r.active == Some(true)
    ensures p.slippageGuard.Some? ==> r.slippageGuard == p.slippageGuard.value
    ensures p.slippageGuard.None? ==> r.slippageGuard == e.slippageGuard
    ensures p.sandboxMode.Some? ==> r.sandboxMode == p.sandboxMode.value
    ensures p.sandboxMode.None? ==> r.sandboxMode == e.sandboxMode
    ensures p.maxEthPerTrade.Some? ==> r.maxEthPerTrade == p.maxEthPerTrade.value
    ensures p.maxEthPerTrade.None? ==> r.maxEthPerTrade == e.maxEthPerTrade
  {
    Entry(
      e.telegramId, e.configId,
      p.slippageGuard.GetOr(e.slippageGuard),
      p.maxEthPerTrade.GetOr(e.maxEthPerTrade),
      p.sandboxMode.GetOr(e.sandboxMode),
      if p.active == Some(true) then Some(true) else e.active)
  }

  /**
   * One wallet's list after the inner loop: the first entry for `id` is
   * popped on a pause and patched otherwise; the loop then breaks. On a
   * pause the field writes go to the popped entry and are lost.
   */
  function PatchList(cfgs: seq<Entry>, id: int, p: Patch): seq<Entry> {
    var i := IndexOfConfig(cfgs, id);
    if i == |cfgs| then cfgs
    else if p.active == Some(false) then cfgs[..i] + cfgs[i + 1..]
    else cfgs[i := Apply(cfgs[i], p)]
  }

  /** The entries for `id`, left out: what a list looks like once that configuration is paused. */
  function WithoutConfig(cfgs: seq<Entry>, id: int): (r: seq<Entry>)
    ensures forall e :: e in r <==> e in cfgs && e.configId != id
    ensures |r| <= |cfgs|
    decreases |cfgs|
  {
    if |cfgs| == 0 then []
    else if cfgs[0].configId == id then WithoutConfig(cfgs[1..], id)
    else [cfgs[0]] + WithoutConfig(cfgs[1..], id)
  }

  /** How often configuration `id` occurs in a list. */
  function Occurrences(cfgs: seq<Entry>, id: int): nat
    decreases |cfgs|
  {
    if |cfgs| == 0 then 0
    else (if cfgs[0].configId == id then 1 else 0) + Occurrences(cfgs[1..], id)
  }

  lemma {:induction false} NoOccurrence(cfgs: seq<Entry>, id: int)
    ensures Occurrences(cfgs, id) == 0 <==> forall e :: e in cfgs ==> e.configId != id
    ensures Occurrences(cfgs, id) == 0 ==> WithoutConfig(cfgs, id) == cfgs
    decreases |cfgs|
  {
    if |cfgs| > 0 {
      NoOccurrence(cfgs[1..], id);
      assert forall e :: e in cfgs <==> e == cfgs[0] || e in cfgs[1..];
      assert [cfgs[0]] + cfgs[1..] == cfgs;
    }
  }

  /**
   * The partner of `PatchList` for a pause: when `id` occurs at most once,
   * popping its first entry is filtering it out.
   */
  lemma {:induction false} PauseIsWithoutConfig(cfgs: seq<Entry>, id: int, p: Patch)
    requires p.active == Some(false)
    requires Occurrences(cfgs, id) <= 1
    ensures PatchList(cfgs, id, p) == WithoutConfig(cfgs, id)
    decreases |cfgs|
  {
    if |cfgs| > 0 {
      if cfgs[0].configId == id {
        NoOccurrence(cfgs[1..], id);
        assert cfgs[..0] + cfgs[1..] == cfgs[1..];
      } else {
        PauseIsWithoutConfig(cfgs[1..], id, p);
        PatchListCons(cfgs, id, p);
      }
    }
  }

  /** An entry for another configuration at the head is kept in front of the patched tail. */
  lemma PatchListCons(cfgs: seq<Entry>, id: int, p: Patch)
    requires |cfgs| > 0 && cfgs[0].configId != id
    ensures PatchList(cfgs, id, p) == [cfgs[0]] + PatchList(cfgs[1..], id, p)
  {
    var i := IndexOfConfig(cfgs, id);
    var tail := cfgs[1..];
    assert i == 1 + IndexOfConfig(tail, id);
    if i == |cfgs| {
      assert [cfgs[0]] + tail == cfgs;
    } else if p.active == Some(false) {
      assert cfgs[..i] + cfgs[i + 1..] == [cfgs[0]] + (tail[..i - 1] + tail[i..]);
    } else {
      assert cfgs[i := Apply(cfgs[i], p)] == [cfgs[0]] + tail[i - 1 := Apply(tail[i - 1], p)];
    }
  }

  /**
   * The partner of `PatchList` for every other patch: the list keeps its
   * length and only the first entry for `id` changes, to the patched entry.
   */
  lemma PatchTouchesFirstMatchOnly(cfgs: seq<Entry>, id: int, p: Patch)
    requires p.active != Some(false)
    ensures |PatchList(cfgs, id, p)| == |cfgs|
    ensures forall j :: 0 <= j < |cfgs| ==>
      PatchList(cfgs, id, p)[j] ==
        if j == IndexOfConfig(cfgs, id) then Apply(cfgs[j], p) else cfgs[j]
    ensures (forall e :: e in cfgs ==> e.configId != id) ==> PatchList(cfgs, id, p) == cfgs
  {
    var i := IndexOfConfig(cfgs, id);
    if i < |cfgs| {
      assert cfgs[i] in cfgs;
    }
  }

  /** The first position in `ks` whose list the patch empties, or `|ks|`. */
  function FirstEmptied(ks: seq<Addr>, entries: map<Addr, seq<Entry>>, id: int, p: Patch): (j: nat)
    requires forall w :: w in ks ==> w in entries
    ensures j <= |ks|
    ensures j < |ks| ==> PatchList(entries[ks[j]], id, p) == []
    ensures forall k :: 0 <= k < j ==> PatchList(entries[ks[k]], id, p) != []
    decreases |ks|
  {
    if |ks| == 0 then 0
    else if PatchList(entries[ks[0]], id, p) == [] then 0
    else 1 + FirstEmptied(ks[1..], entries, id, p)
  }

  /**
   * The outer loop over `monitored_wallets.items()`. Deleting a key while
   * iterating makes the next step of the iteration raise, so a deletion
   * ends the loop with `true`; the deletion itself stays in effect.
   * `LoopKeys` and `LoopEntries` state what it computes.
   */
  function UpdateWallets(ks: seq<Addr>, d: D.Dict<Addr, seq<Entry>>, id: int, p: Patch)
    : (r: (D.Dict<Addr, seq<Entry>>, bool))
    requires D.Valid(d)
    requires forall w :: w in ks ==> w in d.entries
    ensures D.Valid(r.0)
    ensures !r.1 ==> r.0.keys == d.keys
    decreases |ks|
  {
    if |ks| == 0 then (d, false)
    else
      var w := ks[0];
      var patched := PatchList(d.entries[w], id, p);
      if patched == [] then (D.Delete(d, w), true)
      else UpdateWallets(ks[1..], D.Put(d, w, patched), id, p)
  }

  /** Past a wallet whose list stays non-empty, the search for an emptied list moves one step on. */
  lemma FirstEmptiedStep(ks: seq<Addr>, d: D.Dict<Addr, seq<Entry>>, id: int, p: Patch)
    requires D.Valid(d) && D.Distinct(ks) && |ks| > 0
    requires forall w :: w in ks ==> w in d.entries
    requires PatchList(d.entries[ks[0]], id, p) != []
    ensures var d' := D.Put(d, ks[0], PatchList(d.entries[ks[0]], id, p));
      && (forall w :: w in ks[1..] ==> w in d'.entries)
      && FirstEmptied(ks, d.entries, id, p) == 1 + FirstEmptied(ks[1..], d'.entries, id, p)
  {
    var w := ks[0];
    var d' := D.Put(d, w, PatchList(d.entries[w], id, p));
    assert forall k :: k in ks[1..] ==> k != w;
    FirstEmptiedFrame(ks[1..], d.entries, d'.entries, id, p);
  }

  /** The loop raises exactly when it reaches an emptied list; it then has deleted that wallet only. */
  lemma {:induction false} LoopKeys(ks: seq<Addr>, d: D.Dict<Addr, seq<Entry>>, id: int, p: Patch)
    requires D.Valid(d) && D.Distinct(ks)
    requires forall w :: w in ks ==> w in d.entries
    ensures var r := UpdateWallets(ks, d, id, p);
      var j := FirstEmptied(ks, d.entries, id, p);
      && (r.1 <==> j < |ks|)
      && (r.1 ==> r.0.keys == D.Without(d.keys, ks[j]))
    decreases |ks|
  {
    if |ks| > 0 {
      var w := ks[0];
      var patched := PatchList(d.entries[w], id, p);
      if patched != [] {
        var d' := D.Put(d, w, patched);
        FirstEmptiedStep(ks, d, id, p);
        assert D.Distinct(ks[1..]);
        LoopKeys(ks[1..], d', id, p);
        var j := FirstEmptied(ks, d.entries, id, p);
        if j < |ks| {
          assert ks[j] == ks[1..][j - 1];
        }
      }
    }
  }

  /** The wallets left after the loop: all but the emptied one, if the loop reached one. */
  lemma LoopMembers(ks: seq<Addr>, d: D.Dict<Addr, seq<Entry>>, id: int, p: Patch)
    requires D.Valid(d) && D.Distinct(ks)
    requires forall w :: w in ks ==> w in d.entries
    ensures var r := UpdateWallets(ks, d, id, p);
      var j := FirstEmptied(ks, d.entries, id, p);
      forall w :: w in r.0.entries <==> w in d.entries && !(j < |ks| && w == ks[j])
  {
    LoopKeys(ks, d, id, p);
  }

  /** After the loop, the wallets before the first emptied one are patched and the rest untouched. */
  lemma {:induction false} LoopEntries(ks: seq<Addr>, d: D.Dict<Addr, seq<Entry>>, id: int, p: Patch)
    requires D.Valid(d) && D.Distinct(ks)
    requires forall w :: w in ks ==> w in d.entries
    ensures forall w :: w in UpdateWallets(ks, d, id, p).0.entries ==>
      (w in d.entries
       && UpdateWallets(ks, d, id, p).0.entries[w] ==
            if D.IndexOf(ks, w) < FirstEmptied(ks, d.entries, id, p) then PatchList(d.entries[w], id, p)
            else d.entries[w])
    decreases |ks|
  {
    if |ks| > 0 {
      var w := ks[0];
      var patched := PatchList(d.entries[w], id, p);
      if patched != [] {
        var d' := D.Put(d, w, patched);
        FirstEmptiedStep(ks, d, id, p);
        assert D.Distinct(ks[1..]);
        LoopEntries(ks[1..], d', id, p);
        var j := FirstEmptied(ks, d.entries, id, p);
        var r := UpdateWallets(ks, d, id, p);
        assert w !in ks[1..];
        forall x | x in r.0.entries
          ensures x in d.entries && r.0.entries[x] == if D.IndexOf(ks, x) < j then PatchList(d.entries[x], id, p) else d.entries[x]
        {
          if x != w {
            assert D.IndexOf(ks, x) == 1 + D.IndexOf(ks[1..], x);
          }
        }
      }
    }
  }

  lemma {:induction false} FirstEmptiedFrame(ks: seq<Addr>, e1: map<Addr, seq<Entry>>, e2: map<Addr, seq<Entry>>, id: int, p: Patch)
    requires forall w :: w in ks ==> w in e1 && w in e2 && e1[w] == e2[w]
    ensures FirstEmptied(ks, e1, id, p) == FirstEmptied(ks, e2, id, p)
    decreases |ks|
  {
    if |ks| > 0 {
      FirstEmptiedFrame(ks[1..], e1, e2, id, p);
    }
  }

  /**
   * `update_copy_trading`. `userExists` is the user lookup and `row` the
   * database update (`None` when no configuration has that id). A pause
   * that empties a wallet's list deletes the wallet and the call then
   * fails with the generic error, although the deletion has happened.
   */
  function UpdateCopyTrading(
    s: CopyState, user: UserId, id: int, p: Patch, userExists: bool, row: Option<ConfigRow>
  ): (r: (CopyState, Result<UpdateSummary, CopyError>))
    requires Wf(s)
    ensures Wf(r.0)
    ensures r.0.processed == s.processed
    ensures r.1 == Err(UserNotFound) <==> !userExists
    ensures r.1 == Err(ConfigNotFound) <==> userExists && row.None?
    ensures !userExists || row.None? ==> r.0 == s
    ensures r.1 == Err(UpdateFailed) <==>
      userExists && row.Some? && exists w :: w in s.monitored.entries && PatchList(s.monitored.entries[w], id, p) == []
    ensures r.1 == Err(UpdateFailed) ==>
      exists w :: w in s.monitored.entries && w !in r.0.monitored.entries
        && r.0.monitored.keys == D.Without(s.monitored.keys, w)
    ensures r.1.Ok? ==>
      && r.0.monitored.keys == s.monitored.keys
      && (forall w :: w in s.monitored.entries ==>
            r.0.monitored.entries[w] == PatchList(s.monitored.entries[w], id, p))
      && r.1.value == UpdateSummary(
           id, p.active.GetOr(row.value.active), p.slippageGuard.GetOr(row.value.slippageGuard),
           p.sandboxMode.GetOr(row.value.sandboxMode), p.maxEthPerTrade.GetOr(row.value.maxEthPerTrade))
    // whatever the outcome, every wallet left is either untouched or patched, and only an emptied one is gone
    ensures forall w :: w in r.0.monitored.entries ==>
      && w in s.monitored.entries
      && (r.0.monitored.entries[w] == s.monitored.entries[w]
          || r.0.monitored.entries[w] == PatchList(s.monitored.entries[w], id, p))
    ensures forall w :: w in s.monitored.entries && w !in r.0.monitored.entries ==>
      PatchList(s.monitored.entries[w], id, p) == []
  {
    if !userExists then (s, Err(UserNotFound))
    else if row.None? then (s, Err(ConfigNotFound))
    else
      var m := s.monitored;
      var looped := UpdateWallets(m.keys, m, id, p);
      LoopKeepsListsNonEmpty(m, id, p);
      LoopRaises(m, id, p);
      LoopPatches(m, id, p);
      LoopTouchesOnly(m, id, p);
      LoopDropsOnlyEmptied(m, id, p);
      var s' := s.(monitored := looped.0);
      if looped.1 then (s', Err(UpdateFailed))
      else
        var row := row.value;
        (s', Ok(UpdateSummary(
          id, p.active.GetOr(row.active), p.slippageGuard.GetOr(row.slippageGuard),
          p.sandboxMode.GetOr(row.sandboxMode), p.maxEthPerTrade.GetOr(row.maxEthPerTrade))))
  }

  /** The outer loop run over every watched wallet never leaves a wallet with an empty list. */
  lemma LoopKeepsListsNonEmpty(m: D.Dict<Addr, seq<Entry>>, id: int, p: Patch)
    requires D.Valid(m)
    requires forall w :: w in m.entries ==> |m.entries[w]| > 0
    ensures var r := UpdateWallets(m.keys, m, id, p);
      forall w :: w in r.0.entries ==> |r.0.entries[w]| > 0
  {
    var r := UpdateWallets(m.keys, m, id, p);
    var j := FirstEmptied(m.keys, m.entries, id, p);
    LoopMembers(m.keys, m, id, p);
    LoopEntries(m.keys, m, id, p);
    forall w | w in r.0.entries ensures |r.0.entries[w]| > 0 {
      var k := D.IndexOf(m.keys, w);
      if k < j {
        assert PatchList(m.entries[m.keys[k]], id, p) != [];
      }
    }
  }

  /** The loop raises exactly when some wallet's list would become empty, and then one wallet is gone. */
  lemma LoopRaises(m: D.Dict<Addr, seq<Entry>>, id: int, p: Patch)
    requires D.Valid(m)
    ensures var r := UpdateWallets(m.keys, m, id, p);
      && (r.1 <==> exists w :: w in m.entries && PatchList(m.entries[w], id, p) == [])
      && (r.1 ==> exists w :: w in m.entries && w !in r.0.entries && r.0.keys == D.Without(m.keys, w))
  {
    var r := UpdateWallets(m.keys, m, id, p);
    var j := FirstEmptied(m.keys, m.entries, id, p);
    LoopKeys(m.keys, m, id, p);
    LoopMembers(m.keys, m, id, p);
    LoopEntries(m.keys, m, id, p);
    if r.1 {
      assert m.keys[j] in m.entries;
    } else {
      forall w | w in m.entries ensures PatchList(m.entries[w], id, p) != [] {
        var k := D.IndexOf(m.keys, w);
        assert PatchList(m.entries[m.keys[k]], id, p) != [];
      }
    }
  }

  /** Without a raise the loop patches every wallet. */
  lemma LoopPatches(m: D.Dict<Addr, seq<Entry>>, id: int, p: Patch)
    requires D.Valid(m)
    ensures var r := UpdateWallets(m.keys, m, id, p);
      !r.1 ==> forall w :: w in m.entries ==> w in r.0.entries && r.0.entries[w] == PatchList(m.entries[w], id, p)
  {
    var r := UpdateWallets(m.keys, m, id, p);
    if !r.1 {
      var j := FirstEmptied(m.keys, m.entries, id, p);
      LoopKeys(m.keys, m, id, p);
      LoopMembers(m.keys, m, id, p);
      LoopEntries(m.keys, m, id, p);
      forall w | w in m.entries
        ensures w in r.0.entries && r.0.entries[w] == PatchList(m.entries[w], id, p)
      {
        assert D.IndexOf(m.keys, w) < j;
      }
    }
  }

  /** Whatever the outcome, each wallet left is patched or untouched. */
  lemma LoopTouchesOnly(m: D.Dict<Addr, seq<Entry>>, id: int, p: Patch)
    requires D.Valid(m)
    ensures var r := UpdateWallets(m.keys, m, id, p);
      forall w :: w in r.0.entries ==>
        w in m.entries && (r.0.entries[w] == m.entries[w] || r.0.entries[w] == PatchList(m.entries[w], id, p))
  {
    LoopEntries(m.keys, m, id, p);
  }

  /** Only a wallet whose list the patch empties can be gone after the loop. */
  lemma LoopDropsOnlyEmptied(m: D.Dict<Addr, seq<Entry>>, id: int, p: Patch)
    requires D.Valid(m)
    ensures var r := UpdateWallets(m.keys, m, id, p);
      forall w :: w in m.entries && w !in r.0.entries ==> PatchList(m.entries[w], id, p) == []
  {
    var r := UpdateWallets(m.keys, m, id, p);
    var j := FirstEmptied(m.keys, m.entries, id, p);
    LoopMembers(m.keys, m, id, p);
    forall w | w in m.entries && w !in r.0.entries
      ensures PatchList(m.entries[w], id, p) == []
    {
      assert j < |m.keys| && w == m.keys[j];
    }
  }

  // ----- transactions -----

  /**
   * The entries whose user can trade, in list order: each such entry as
   * often as it is listed, and no other.
   */
  function Tradable(cfgs: seq<Entry>, canTrade: UserId -> bool): (r: seq<Entry>)
    ensures forall e :: multiset(r)[e] == if canTrade(e.telegramId) then multiset(cfgs)[e] else 0
    ensures forall e :: e in r <==> e in cfgs && canTrade(e.telegramId)
    decreases |cfgs|
  {
    if |cfgs| == 0 then []
    else
      assert cfgs == [cfgs[0]] + cfgs[1..];
      (if canTrade(cfgs[0].telegramId) then [cfgs[0]] else []) + Tradable(cfgs[1..], canTrade)
  }

  /** The intent of each listed entry, position by position. */
  function IntentsOf(cfgs: seq<Entry>, hash: Hash): (r: seq<Intent>)
    ensures |r| == |cfgs|
    ensures forall i :: 0 <= i < |r| ==> r[i] == IntentFor(cfgs[i], hash)
  {
    seq(|cfgs|, i requires 0 <= i < |cfgs| => IntentFor(cfgs[i], hash))
  }

  /**
   * The loop of `process_transaction`: one intent per entry whose user has a
   * wallet and a stored key, in list order, and none for the others.
   */
  function Intents(cfgs: seq<Entry>, hash: Hash, canTrade: UserId -> bool): (r: seq<Intent>)
    ensures r == IntentsOf(Tradable(cfgs, canTrade), hash)
    ensures forall x :: x in r <==>
      exists e :: e in cfgs && canTrade(e.telegramId) && x == IntentFor(e, hash)
    decreases |cfgs|
  {
    var r :=
      if |cfgs| == 0 then []
      else
        var rest := Intents(cfgs[1..], hash, canTrade);
        if canTrade(cfgs[0].telegramId) then
          assert Tradable(cfgs, canTrade) == [cfgs[0]] + Tradable(cfgs[1..], canTrade);
          IntentsOfCons(cfgs[0], Tradable(cfgs[1..], canTrade), hash);
          [IntentFor(cfgs[0], hash)] + rest
        else rest;
    IntentsOfMembers(Tradable(cfgs, canTrade), hash);
    r
  }

  lemma IntentsOfCons(e: Entry, cfgs: seq<Entry>, hash: Hash)
    ensures IntentsOf([e] + cfgs, hash) == [IntentFor(e, hash)] + IntentsOf(cfgs, hash)
  {
    var a := IntentsOf([e] + cfgs, hash);
    var b := [IntentFor(e, hash)] + IntentsOf(cfgs, hash);
    assert |a| == |b|;
    forall i | 0 <= i < |a| ensures a[i] == b[i] {
      if i > 0 { assert ([e] + cfgs)[i] == cfgs[i - 1]; }
    }
  }

  lemma IntentsOfMembers(cfgs: seq<Entry>, hash: Hash)
    ensures forall x :: x in IntentsOf(cfgs, hash) <==> exists e :: e in cfgs && x == IntentFor(e, hash)
  {
    var r := IntentsOf(cfgs, hash);
    forall x | x in r ensures exists e :: e in cfgs && x == IntentFor(e, hash) {
      var i :| 0 <= i < |r| && r[i] == x;
      assert cfgs[i] in cfgs;
    }
    forall e | e in cfgs ensures IntentFor(e, hash) in r {
      var i :| 0 <= i < |cfgs| && cfgs[i] == e;
      assert r[i] == IntentFor(e, hash);
    }
  }

  function IntentFor(e: Entry, hash: Hash): Intent {
    Intent(e.telegramId, e.configId, hash, e.slippageGuard, e.maxEthPerTrade, e.sandboxMode)
  }

  /**
   * `process_transaction`. `canTrade` is the per-user lookup: the user
   * exists with a wallet address and an encrypted key. The hash is recorded
   * before anything else; the registry is only read.
   */
  function ProcessTransaction(s: CopyState, tx: Tx, canTrade: UserId -> bool): (r: (CopyState, seq<Intent>))
    ensures r.0.monitored == s.monitored
    ensures r.0.processed == s.processed + {tx.hash}
    ensures tx.hash in s.processed ==> r.1 == []
    ensures tx.from !in s.monitored.entries ==> r.1 == []
    ensures tx.hash !in s.processed ==> r.1 == IntentsOf(Tradable(ListOf(s, tx.from), canTrade), tx.hash)
    ensures forall x :: x in r.1 <==>
      && tx.hash !in s.processed
      && exists e :: e in ListOf(s, tx.from) && canTrade(e.telegramId) && x == IntentFor(e, tx.hash)
  {
    if tx.hash in s.processed then (s, [])
    else
      var s' := s.(processed := s.processed + {tx.hash});
      (s', Intents(ListOf(s, tx.from), tx.hash, canTrade))
  }

  /** Processing the same transaction twice is processing it once. */
  lemma ProcessTwiceIsProcessOnce(s: CopyState, tx: Tx, canTrade: UserId -> bool)
    ensures var once := ProcessTransaction(s, tx, canTrade);
      ProcessTransaction(once.0, tx, canTrade) == (once.0, [])
  {
  }

  /** The set of processed hashes only grows, whatever sequence of transactions arrives. */
  function ProcessAll(s: CopyState, txs: seq<Tx>, canTrade: UserId -> bool): (r: CopyState)
    decreases |txs|
  {
    if |txs| == 0 then s else ProcessAll(ProcessTransaction(s, txs[0], canTrade).0, txs[1..], canTrade)
  }

  lemma {:induction false} ProcessedGrows(s: CopyState, txs: seq<Tx>, canTrade: UserId -> bool)
    ensures ProcessAll(s, txs, canTrade).processed == s.processed + set i | 0 <= i < |txs| :: txs[i].hash
    ensures ProcessAll(s, txs, canTrade).monitored == s.monitored
    decreases |txs|
  {
    if |txs| > 0 {
      var s1 := ProcessTransaction(s, txs[0], canTrade).0;
      ProcessedGrows(s1, txs[1..], canTrade);
      var tail := set i | 0 <= i < |txs[1..]| :: txs[1..][i].hash;
      var all := set i | 0 <= i < |txs| :: txs[i].hash;
      assert all == {txs[0].hash} + tail by {
        forall h | h in all ensures h in {txs[0].hash} + tail {
          var i :| 0 <= i < |txs| && txs[i].hash == h;
          if i > 0 { assert txs[1..][i - 1].hash == h; }
        }
        forall h | h in tail ensures h in all {
          var i :| 0 <= i < |txs[1..]| && txs[1..][i].hash == h;
          assert txs[i + 1].hash == h;
        }
      }
    }
  }

  // ----- properties across operations -----

  /** Every configuration id occurs at most once in the whole registry. */
  ghost predicate UniqueConfig(s: CopyState, id: int) {
    && (forall w :: w in s.monitored.entries ==> Occurrences(s.monitored.entries[w], id) <= 1)
    && forall w1, w2 :: w1 in s.monitored.entries && w2 in s.monitored.entries && w1 != w2
         && Occurrences(s.monitored.entries[w1], id) > 0
         ==> Occurrences(s.monitored.entries[w2], id) == 0
  }

  /**
   * Pausing a configuration whose id occurs once stops it being copied:
   * afterwards a fresh transaction yields the intents it yielded before,
   * minus those of that configuration. This holds whether or not the call
   * reports the error that follows a deleted wallet.
   */
  lemma PauseStopsCopying(s: CopyState, user: UserId, id: int, p: Patch, row: ConfigRow, tx: Tx, canTrade: UserId -> bool)
    requires Wf(s)
    requires p.active == Some(false)
    requires UniqueConfig(s, id)
    ensures var after := UpdateCopyTrading(s, user, id, p, true, Some(row)).0;
      ListOf(after, tx.from) == WithoutConfig(ListOf(s, tx.from), id)
  {
    var r := UpdateCopyTrading(s, user, id, p, true, Some(row));
    var m, m' := s.monitored, r.0.monitored;
    var w := tx.from;
    if w in m.entries {
      var l := m.entries[w];
      PauseIsWithoutConfig(l, id, p);
      NoMatchUnpatched(l, id, p);
      if r.1.Err? {
        var gone :| gone in m.entries && gone !in m'.entries && m'.keys == D.Without(m.keys, gone);
        NoMatchUnpatched(m.entries[gone], id, p);
      }
    } else {
      assert ListOf(s, w) == [];
    }
  }

  /**
   * After such a pause, a fresh transaction from any watched wallet yields
   * the intents it would have yielded before minus that configuration's.
   */
  lemma PausedConfigNotCopied(s: CopyState, user: UserId, id: int, p: Patch, row: ConfigRow, tx: Tx, canTrade: UserId -> bool)
    requires Wf(s)
    requires p.active == Some(false)
    requires UniqueConfig(s, id)
    requires tx.hash !in s.processed
    ensures var after := UpdateCopyTrading(s, user, id, p, true, Some(row)).0;
      var intents := ProcessTransaction(after, tx, canTrade).1;
      && intents == Intents(WithoutConfig(ListOf(s, tx.from), id), tx.hash, canTrade)
      && forall x :: x in intents ==> x.configId != id
  {
    var after := UpdateCopyTrading(s, user, id, p, true, Some(row)).0;
    PauseStopsCopying(s, user, id, p, row, tx, canTrade);
    assert tx.hash !in after.processed;
  }

  /** A list with no entry for `id` is left alone by any patch. */
  lemma NoMatchUnpatched(cfgs: seq<Entry>, id: int, p: Patch)
    ensures Occurrences(cfgs, id) == 0 ==> PatchList(cfgs, id, p) == cfgs
  {
    NoOccurrence(cfgs, id);
  }

  /** A resume, or any patch, for an id no entry carries leaves the registry as it was: nothing is re-inserted. */
  lemma UnknownConfigNoChange(s: CopyState, user: UserId, id: int, p: Patch, row: ConfigRow)
    requires Wf(s)
    requires forall w, e :: w in s.monitored.entries && e in s.monitored.entries[w] ==> e.configId != id
    ensures var r := UpdateCopyTrading(s, user, id, p, true, Some(row));
      r.0 == s && r.1.Ok?
  {
    var m := s.monitored;
    var r := UpdateCopyTrading(s, user, id, p, true, Some(row));
    forall w | w in m.entries ensures PatchList(m.entries[w], id, p) == m.entries[w] {
      NoOccurrence(m.entries[w], id);
      NoMatchUnpatched(m.entries[w], id, p);
    }
    assert r.1 != Err(UpdateFailed);
    var m' := r.0.monitored;
    assert m'.keys == m.keys;
    assert forall w :: w in m'.entries <==> w in m.entries;
    assert m'.entries == m.entries;
  }
}

=== FILE: copytrade_handlers.dfy ===
/**
 * The copy-trading conversation of bot/copytrade_handlers.py: `/mirror`
 * asks for a wallet to mirror, a slippage guard, a per-trade ETH cap and
 * sandbox mode, then sets the subscription up; the buttons of `/mirrors`
 * pause, resume or toggle sandbox mode of one configuration. Text parsing
 * by Python's `float()` is the parameter `parse`.
 */
module CopyTradeHandlers {
  import opened Wrappers
  import opened Text
  import opened Session
  import CT = CopyTrade

  /** The conversation states; `End` is `ConversationHandler.END`. */
  datatype Step = TargetWallet | SlippageGuard | MaxEth | SandboxMode | ConfirmSetup | End

  const TargetKey := "mirror_target_wallet"
  const SlippageKey := "mirror_slippage_guard"
  const MaxEthKey := "mirror_max_eth"
  const SandboxKey := "mirror_sandbox_mode"
  const MirrorKeys: set<string> := {TargetKey, SlippageKey, MaxEthKey, SandboxKey}

  const DefaultSlippage: real := 5.0
  const MinSlippage: real := 0.1
  const MaxSlippage: real := 50.0
  const DefaultMaxEth: real := 0.1

  /** The arguments `confirm_setup_button` hands to `setup_copy_trading`. */
  datatype SetupRequest = SetupRequest(target: Datum, slippageGuard: Datum, maxEth: Datum, sandboxMode: Datum)

  // ----- target wallet -----

  /**
   * `/mirror [wallet]`: an argument is stored before it is checked, so an
   * invalid one stays in the store while the address is asked for again.
   */
  function MirrorCommand(ud: UserData, args: seq<string>): (r: (UserData, Step))
    ensures r.1 == SlippageGuard <==> |args| > 0 && LooksLikeAddress(args[0])
    ensures r.1 != SlippageGuard ==> r.1 == TargetWallet
    ensures |args| == 0 ==> r.0 == ud
    ensures |args| > 0 ==> TargetKey in r.0 && r.0[TargetKey] == Str(args[0])
    ensures forall k :: k != TargetKey ==> (k in r.0 <==> k in ud) && (k in ud ==> r.0[k] == ud[k])
  {
    if |args| > 0 then
      var ud' := ud[TargetKey := Str(args[0])];
      if !StartsWith(args[0], "0x") || |args[0]| != 42 then (ud', TargetWallet)
      else (ud', SlippageGuard)
    else (ud, TargetWallet)
  }

  /** A typed wallet is checked first and stored only when it looks like an address. */
  function TargetWalletInput(ud: UserData, text: string): (r: (UserData, Step))
    ensures r.1 == SlippageGuard <==> LooksLikeAddress(text)
    ensures r.1 != SlippageGuard ==> r.1 == TargetWallet && r.0 == ud
    ensures r.1 == SlippageGuard ==> TargetKey in r.0 && r.0[TargetKey] == Str(text)
    ensures forall k :: k != TargetKey ==> (k in r.0 <==> k in ud) && (k in ud ==> r.0[k] == ud[k])
  {
    if !StartsWith(text, "0x") || |text| != 42 then (ud, TargetWallet)
    else (ud[TargetKey := Str(text)], SlippageGuard)
  }

  /** The two entry points disagree on an invalid wallet: only the command stores it. */
  lemma InvalidArgumentIsStored(ud: UserData)
    ensures !LooksLikeAddress("pepe")
    ensures MirrorCommand(ud, ["pepe"]) == (ud[TargetKey := Str("pepe")], TargetWallet)
    ensures TargetWalletInput(ud, "pepe") == (ud, TargetWallet)
  {
  }

  // ----- slippage guard and ETH cap -----

  /** A slippage answer: blank means 5.0, otherwise a number from 0.1 to 50 inclusive. */
  function ParseSlippage(text: string, parse: string -> Option<real>): (r: Option<real>)
    ensures r.Some? ==> MinSlippage <= r.value <= MaxSlippage
    ensures IsBlank(text) ==> r == Some(DefaultSlippage)
    ensures !IsBlank(text) ==>
      (r.Some? <==> parse(text).Some? && MinSlippage <= parse(text).value <= MaxSlippage)
    ensures !IsBlank(text) && r.Some? ==> parse(text) == r
  {
    if IsBlank(text) then Some(DefaultSlippage)
    else match parse(text)
      case None => None
      case Some(v) => if v < MinSlippage || v > MaxSlippage then None else Some(v)
  }

  /** An ETH cap answer: blank means 0.1, otherwise a number greater than zero. */
  function ParseMaxEth(text: string, parse: string -> Option<real>): (r: Option<real>)
    ensures r.Some? ==> r.value > 0.0
    ensures IsBlank(text) ==> r == Some(DefaultMaxEth)
    ensures !IsBlank(text) ==> (r.Some? <==> parse(text).Some? && parse(text).value > 0.0)
    ensures !IsBlank(text) && r.Some? ==> parse(text) == r
  {
    if IsBlank(text) then Some(DefaultMaxEth)
    else match parse(text)
      case None => None
      case Some(v) => if v <= 0.0 then None else Some(v)
  }

  /** The bounds are inclusive at both ends, and the default lies inside them. */
  lemma SlippageBounds(parse: string -> Option<real>)
    requires parse("0.1") == Some(0.1) && parse("50") == Some(50.0)
    requires parse("0.09") == Some(0.09) && parse("50.5") == Some(50.5)
    ensures ParseSlippage("0.1", parse) == Some(0.1) && ParseSlippage("50", parse) == Some(50.0)
    ensures ParseSlippage("0.09", parse) == None && ParseSlippage("50.5", parse) == None
    ensures ParseSlippage("", parse) == Some(5.0) && ParseSlippage("\U{001C}", parse) == Some(5.0)
  {
    assert !IsBlank("0.1") && !IsBlank("50") && !IsBlank("0.09") && !IsBlank("50.5") by {
      assert "0.1"[0] == '0' && "50"[0] == '5' && "0.09"[0] == '0' && "50.5"[0] == '5';
    }
  }

  function SlippageInput(ud: UserData, text: string, parse: string -> Option<real>): (r: (UserData, Step))
    ensures r.1 == MaxEth <==> ParseSlippage(text, parse).Some?
    ensures r.1 != MaxEth ==> r.1 == SlippageGuard && r.0 == ud
    ensures r.1 == MaxEth ==>
      SlippageKey in r.0 && r.0[SlippageKey] == Num(ParseSlippage(text, parse).value)
      && MinSlippage <= r.0[SlippageKey].x <= MaxSlippage
    ensures forall k :: k != SlippageKey ==> (k in r.0 <==> k in ud) && (k in ud ==> r.0[k] == ud[k])
  {
    match ParseSlippage(text, parse)
    case None => (ud, SlippageGuard)
    case Some(v) => (ud[SlippageKey := Num(v)], MaxEth)
  }

  function MaxEthInput(ud: UserData, text: string, parse: string -> Option<real>): (r: (UserData, Step))
    ensures r.1 == SandboxMode <==> ParseMaxEth(text, parse).Some?
    ensures r.1 != SandboxMode ==> r.1 == MaxEth && r.0 == ud
    ensures r.1 == SandboxMode ==>
      MaxEthKey in r.0 && r.0[MaxEthKey] == Num(ParseMaxEth(text, parse).value) && r.0[MaxEthKey].x > 0.0
    ensures forall k :: k != MaxEthKey ==> (k in r.0 <==> k in ud) && (k in ud ==> r.0[k] == ud[k])
  {
    match ParseMaxEth(text, parse)
    case None => (ud, MaxEth)
    case Some(v) => (ud[MaxEthKey := Num(v)], SandboxMode)
  }

  /**
   * The sandbox button: only `sandbox_yes` enables sandbox mode. The other
   * answers are read back for the summary, so they must be present.
   */
  function SandboxButton(ud: UserData, data: string): (r: (UserData, Step))
    requires TargetKey in ud && SlippageKey in ud && MaxEthKey in ud
    ensures r.1 == ConfirmSetup
    ensures SandboxKey in r.0 && (r.0[SandboxKey] == Flag(true) <==> data == "sandbox_yes")
    ensures r.0[SandboxKey].Flag?
    ensures forall k :: k != SandboxKey ==> (k in r.0 <==> k in ud) && (k in ud ==> r.0[k] == ud[k])
  {
    (ud[SandboxKey := Flag(data == "sandbox_yes")], ConfirmSetup)
  }

  /**
   * The confirmation button: `confirm_mirror_no` ends the conversation and
   * sets nothing up; any other data asks for the setup and then forgets the
   * four answers, whatever the setup reports.
   */
  function ConfirmSetupButton(ud: UserData, data: string): (r: (UserData, Step, Option<SetupRequest>))
    requires data != "confirm_mirror_no" ==> TargetKey in ud && SlippageKey in ud && MaxEthKey in ud && SandboxKey in ud
    ensures r.1 == End
    ensures r.2.None? <==> data == "confirm_mirror_no"
    ensures r.2.None? ==> r.0 == ud
    ensures r.2.Some? ==>
      && r.2.value == SetupRequest(ud[TargetKey], ud[SlippageKey], ud[MaxEthKey], ud[SandboxKey])
      && (forall k :: k in r.0 <==> k in ud && k !in MirrorKeys)
      && (forall k :: k in r.0 ==> r.0[k] == ud[k])
  {
    if data == "confirm_mirror_no" then (ud, End, None)
    else
      var request := SetupRequest(ud[TargetKey], ud[SlippageKey], ud[MaxEthKey], ud[SandboxKey]);
      (Forget(ud, MirrorKeys), End, Some(request))
  }

  /**
   * The whole conversation from `/mirror <wallet>` to "Yes": the setup asked
   * for carries the answers within their bounds, and the store is left as
   * it was found.
   */
  lemma MirrorConversation(
    ud: UserData, wallet: string, slippageText: string, maxEthText: string, sandboxData: string,
    parse: string -> Option<real>)
    requires forall k :: k in MirrorKeys ==> k !in ud
    requires MirrorCommand(ud, [wallet]).1 == SlippageGuard
    requires SlippageInput(MirrorCommand(ud, [wallet]).0, slippageText, parse).1 == MaxEth
    requires MaxEthInput(SlippageInput(MirrorCommand(ud, [wallet]).0, slippageText, parse).0, maxEthText, parse).1
      == SandboxMode
    ensures var ud1 := MirrorCommand(ud, [wallet]).0;
            var ud2 := SlippageInput(ud1, slippageText, parse).0;
            var ud3 := MaxEthInput(ud2, maxEthText, parse).0;
            var ud4 := SandboxButton(ud3, sandboxData).0;
            var r := ConfirmSetupButton(ud4, "confirm_mirror_yes");
            && r.0 == ud
            && r.2 == Some(SetupRequest(
                 Str(wallet), Num(ParseSlippage(slippageText, parse).value),
                 Num(ParseMaxEth(maxEthText, parse).value), Flag(sandboxData == "sandbox_yes")))
            && LooksLikeAddress(wallet)
            && MinSlippage <= ParseSlippage(slippageText, parse).value <= MaxSlippage
            && ParseMaxEth(maxEthText, parse).value > 0.0
  {
    var ud1 := MirrorCommand(ud, [wallet]).0;
    var ud2 := SlippageInput(ud1, slippageText, parse).0;
    var ud3 := MaxEthInput(ud2, maxEthText, parse).0;
    var ud4 := SandboxButton(ud3, sandboxData).0;
    var r := ConfirmSetupButton(ud4, "confirm_mirror_yes");
    assert r.0 == ud;
  }

  // ----- the /mirrors buttons -----

  /** What `/mirrors` shows of a configuration and caches for its buttons. */
  datatype ConfigView = ConfigView(id: int, active: bool, sandboxMode: bool)

  function ConfigKey(id: int): string {
    "mirror_config_" + IntToString(id)
  }

  lemma ConfigKeyInjective(a: int, b: int)
    ensures ConfigKey(a) == ConfigKey(b) ==> a == b
  {
    if ConfigKey(a) == ConfigKey(b) {
      StartsWithConcat("mirror_config_", IntToString(a));
      StartsWithConcat("mirror_config_", IntToString(b));
      ParseIntToString(a);
      ParseIntToString(b);
    }
  }

  function PauseData(id: int): string { "mirror_pause_" + IntToString(id) }
  function ResumeData(id: int): string { "mirror_resume_" + IntToString(id) }
  function SandboxData(id: int): string { "mirror_sandbox_" + IntToString(id) }

  datatype MirrorAction =
    | StartMirror                            // `mirror_add`: the setup conversation starts
    | Update(configId: int, patch: CT.Patch) // `update_copy_trading` is called
    | ConfigNotCached(configId: int)         // sandbox toggle without a cached configuration
    | BadConfigId                            // `int()` raised on the text after the prefix
    | NoAction

  /** The cached configuration `mirror_config_<id>`, if `/mirrors` stored one. */
  function Cached(ud: UserData, id: int): (r: Option<Datum>)
    ensures r.Some? <==> ConfigKey(id) in ud && ud[ConfigKey(id)].Config?
    ensures r.Some? ==> r.value == ud[ConfigKey(id)]
  {
    var k := ConfigKey(id);
    if k in ud && ud[k].Config? then Some(ud[k]) else None
  }

  /**
   * `mirror_button`: the id is `int()` of the text after the 13-, 14- or
   * 15-character prefix. Pause and resume set only `active`; the sandbox
   * toggle sends the negation of the cached flag.
   */
  function MirrorButton(ud: UserData, data: string): (r: MirrorAction)
    ensures r == StartMirror <==> data == "mirror_add"
    ensures r.Update? ==> r.patch.slippageGuard.None? && r.patch.maxEthPerTrade.None?
    ensures r.Update? ==> (r.patch.active.Some? <==> r.patch.sandboxMode.None?)
    ensures r.Update? && r.patch.active == Some(false) ==>
      StartsWith(data, "mirror_pause_") && ParseInt(data[13..]) == Some(r.configId)
    ensures r.Update? && r.patch.active == Some(true) ==>
      StartsWith(data, "mirror_resume_") && ParseInt(data[14..]) == Some(r.configId)
    ensures r.Update? && r.patch.sandboxMode.Some? ==>
      && StartsWith(data, "mirror_sandbox_") && ParseInt(data[15..]) == Some(r.configId)
      && Cached(ud, r.configId).Some?
      && r.patch.sandboxMode.value == !Cached(ud, r.configId).value.sandboxMode
    ensures r.ConfigNotCached? ==> Cached(ud, r.configId).None?
  {
    if data == "mirror_add" then StartMirror
    else if StartsWith(data, "mirror_pause_") then
      match ParseInt(data[13..])
      case None => BadConfigId
      case Some(id) => Update(id, CT.Patch(Some(false), None, None, None))
    else if StartsWith(data, "mirror_resume_") then
      match ParseInt(data[14..])
      case None => BadConfigId
      case Some(id) => Update(id, CT.Patch(Some(true), None, None, None))
    else if StartsWith(data, "mirror_sandbox_") then
      match ParseInt(data[15..])
      case None => BadConfigId
      case Some(id) =>
        match Cached(ud, id)
        case None => ConfigNotCached(id)
        case Some(config) => Update(id, CT.Patch(None, None, Some(!config.sandboxMode), None))
    else NoAction
  }

  lemma PauseRoundTrip(ud: UserData, id: int)
    ensures MirrorButton(ud, PauseData(id)) == Update(id, CT.Patch(Some(false), None, None, None))
  {
    StartsWithConcat("mirror_pause_", IntToString(id));
    ParseIntToString(id);
    assert PauseData(id)[7] == 'p';
  }

  lemma ResumeRoundTrip(ud: UserData, id: int)
    ensures MirrorButton(ud, ResumeData(id)) == Update(id, CT.Patch(Some(true), None, None, None))
  {
    StartsWithConcat("mirror_resume_", IntToString(id));
    ParseIntToString(id);
    assert ResumeData(id)[7] == 'r';
  }

  lemma SandboxRoundTrip(ud: UserData, id: int)
    ensures MirrorButton(ud, SandboxData(id)) ==
      match Cached(ud, id)
      case None => ConfigNotCached(id)
      case Some(config) => Update(id, CT.Patch(None, None, Some(!config.sandboxMode), None))
  {
    StartsWithConcat("mirror_sandbox_", IntToString(id));
    ParseIntToString(id);
    assert SandboxData(id)[7] == 's';
  }

  /** `/mirrors` caches each listed configuration under `mirror_config_<id>`. */
  function CacheConfigs(ud: UserData, cs: seq<ConfigView>): (r: UserData)
    ensures forall k :: k in ud ==> k in r
    decreases |cs|
  {
    if |cs| == 0 then ud
    else CacheConfigs(ud[ConfigKey(cs[0].id) := Config(cs[0].active, cs[0].sandboxMode)], cs[1..])
  }

  ghost predicate DistinctIds(cs: seq<ConfigView>) {
    forall i, j :: 0 <= i < j < |cs| ==> cs[i].id != cs[j].id
  }

  /** With distinct ids, each listed configuration is found in the cache as listed. */
  lemma {:induction false} CacheHolds(ud: UserData, cs: seq<ConfigView>)
    requires DistinctIds(cs)
    ensures forall i :: 0 <= i < |cs| ==>
      Cached(CacheConfigs(ud, cs), cs[i].id) == Some(Config(cs[i].active, cs[i].sandboxMode))
    decreases |cs|
  {
    if |cs| > 0 {
      var ud' := ud[ConfigKey(cs[0].id) := Config(cs[0].active, cs[0].sandboxMode)];
      CacheHolds(ud', cs[1..]);
      forall i | 0 <= i < |cs|
        ensures Cached(CacheConfigs(ud, cs), cs[i].id) == Some(Config(cs[i].active, cs[i].sandboxMode))
      {
        if i == 0 {
          CacheKeeps(ud', cs[1..], cs[0].id);
        } else {
          assert cs[1..][i - 1] == cs[i];
        }
      }
    }
  }

  /** Caching configurations with other ids leaves the cache entry for `id` alone. */
  lemma {:induction false} CacheKeeps(ud: UserData, cs: seq<ConfigView>, id: int)
    requires forall i :: 0 <= i < |cs| ==> cs[i].id != id
    ensures Cached(CacheConfigs(ud, cs), id) == Cached(ud, id)
    decreases |cs|
  {
    if |cs| > 0 {
      ConfigKeyInjective(cs[0].id, id);
      CacheKeeps(ud[ConfigKey(cs[0].id) := Config(cs[0].active, cs[0].sandboxMode)], cs[1..], id);
    }
  }

  /** A management button of `/mirrors`. */
  datatype Button = Pause(id: int) | Resume(id: int) | ToggleSandbox(id: int) | AddMirror

  /** The callback data a button carries. */
  function CallbackData(b: Button): string {
    match b
    case Pause(id) => PauseData(id)
    case Resume(id) => ResumeData(id)
    case ToggleSandbox(id) => SandboxData(id)
    case AddMirror => "mirror_add"
  }

  /** The two buttons `/mirrors` shows for one configuration: pause or resume, then the sandbox toggle. */
  function ConfigButtons(c: ConfigView): (r: seq<Button>) {
    [if c.active then Pause(c.id) else Resume(c.id), ToggleSandbox(c.id)]
  }

  /** All buttons `/mirrors` shows, ending with "Add New Mirror". */
  function ManageButtons(cs: seq<ConfigView>): (r: seq<Button>)
    ensures |r| == 2 * |cs| + 1
    ensures r[|r| - 1] == AddMirror
    decreases |cs|
  {
    if |cs| == 0 then [AddMirror]
    else ConfigButtons(cs[0]) + ManageButtons(cs[1..])
  }

  /** The buttons of the `i`-th configuration sit at positions `2i` and `2i + 1`. */
  lemma {:induction false} ManageButtonsAt(cs: seq<ConfigView>, i: nat)
    requires i < |cs|
    ensures ManageButtons(cs)[2 * i] == ConfigButtons(cs[i])[0]
    ensures ManageButtons(cs)[2 * i + 1] == ConfigButtons(cs[i])[1]
    decreases i
  {
    if i > 0 {
      ManageButtonsAt(cs[1..], i - 1);
      assert cs[1..][i - 1] == cs[i];
    }
  }

  /**
   * Each button `/mirrors` shows does what it is labelled with: the first
   * button of a configuration sets `active` to the negation of its listed
   * state, the second sets sandbox mode to the negation of its listed mode,
   * and the last starts a new setup.
   */
  lemma ButtonsFlipListedState(ud: UserData, cs: seq<ConfigView>)
    requires DistinctIds(cs)
    ensures var cached := CacheConfigs(ud, cs);
      var buttons := ManageButtons(cs);
      && MirrorButton(cached, CallbackData(buttons[|buttons| - 1])) == StartMirror
      && forall i :: 0 <= i < |cs| ==>
           && MirrorButton(cached, CallbackData(buttons[2 * i]))
              == Update(cs[i].id, CT.Patch(Some(!cs[i].active), None, None, None))
           && MirrorButton(cached, CallbackData(buttons[2 * i + 1]))
              == Update(cs[i].id, CT.Patch(None, None, Some(!cs[i].sandboxMode), None))
  {
    var cached := CacheConfigs(ud, cs);
    var buttons := ManageButtons(cs);
    CacheHolds(ud, cs);
    forall i | 0 <= i < |cs|
      ensures MirrorButton(cached, CallbackData(buttons[2 * i]))
        == Update(cs[i].id, CT.Patch(Some(!cs[i].active), None, None, None))
      ensures MirrorButton(cached, CallbackData(buttons[2 * i + 1]))
        == Update(cs[i].id, CT.Patch(None, None, Some(!cs[i].sandboxMode), None))
    {
      ManageButtonsAt(cs, i);
      PauseRoundTrip(cached, cs[i].id);
      ResumeRoundTrip(cached, cs[i].id);
      SandboxRoundTrip(cached, cs[i].id);
    }
  }

  /**
   * Pressing a configuration's pause button stops it being copied: the
   * watched wallet's list afterwards is its list before without that
   * configuration.
   */
  lemma PauseButtonStopsCopying(
    ud: UserData, s: CT.CopyState, user: CT.UserId, id: int, row: CT.ConfigRow, from: CT.Addr)
    requires CT.Wf(s)
    requires CT.UniqueConfig(s, id)
    ensures var action := MirrorButton(ud, PauseData(id));
      && action.Update? && action.configId == id
      && CT.ListOf(CT.UpdateCopyTrading(s, user, id, action.patch, true, Some(row)).0, from)
         == CT.WithoutConfig(CT.ListOf(s, from), id)
  {
    PauseRoundTrip(ud, id);
    var action := MirrorButton(ud, PauseData(id));
    CT.PauseStopsCopying(s, user, id, action.patch, row, CT.Tx("", from, "", 0.0), x => true);
  }
}

=== FILE: dict.dfy ===
/**
 * A Python `dict`: a finite map that remembers the order in which its keys
 * were first inserted. Assigning to a present key keeps its position,
 * assigning to a new key appends it, and `del` drops it from the order.
 * The bot's in-memory registries are dicts whose iteration order decides
 * the order of emitted events, so the order is part of the model.
 */
module Dict {
  import opened Wrappers

  datatype Dict<K, V> = Dict(keys: seq<K>, entries: map<K, V>)

  /** No element of `s` occurs twice. */
  ghost predicate Distinct<K>(s: seq<K>) {
    forall i, j :: 0 <= i < j < |s| ==> s[i] != s[j]
  }

  /** Keys are listed once each, and exactly the mapped keys are listed. */
  ghost predicate Valid<K(!new), V>(d: Dict<K, V>) {
    && Distinct(d.keys)
    && (forall k :: k in d.entries <==> k in d.keys)
  }

  function Empty<K(!new), V>(): (d: Dict<K, V>)
    ensures Valid(d)
    ensures d.entries == map[]
  {
    Dict([], map[])
  }

  function Get<K, V>(d: Dict<K, V>, k: K): (r: Option<V>)
    ensures r.Some? <==> k in d.entries
    ensures r.Some? ==> r.value == d.entries[k]
  {
    if k in d.entries then Some(d.entries[k]) else None
  }

  /** `d[k] = v`. */
  function Put<K(!new), V>(d: Dict<K, V>, k: K, v: V): (r: Dict<K, V>)
    requires Valid(d)
    ensures Valid(r)
    ensures r.entries == d.entries[k := v]
    ensures k in d.entries ==> r.keys == d.keys
    ensures k !in d.entries ==> r.keys == d.keys + [k]
  {
    if k in d.entries then Dict(d.keys, d.entries[k := v])
    else Dict(d.keys + [k], d.entries[k := v])
  }

  /** The position of the first `k` in `s`, or `|s|` when `k` does not occur. */
  function IndexOf<K(==)>(s: seq<K>, k: K): (i: nat)
    ensures i <= |s|
    ensures i < |s| ==> s[i] == k
    ensures forall j :: 0 <= j < i ==> s[j] != k
    ensures i == |s| <==> k !in s
    decreases |s|
  {
    if |s| == 0 then 0 else if s[0] == k then 0 else 1 + IndexOf(s[1..], k)
  }

  /** The sequence `s` with every occurrence of `k` left out, in order. */
  function Without<K(==,!new)>(s: seq<K>, k: K): (r: seq<K>)
    ensures forall x :: x in r <==> x in s && x != k
    ensures |r| <= |s|
    decreases |s|
  {
    if |s| == 0 then []
    else if s[0] == k then Without(s[1..], k)
    else [s[0]] + Without(s[1..], k)
  }

  lemma {:induction false} WithoutDistinct<K(!new)>(s: seq<K>, k: K)
    requires Distinct(s)
    ensures Distinct(Without(s, k))
    decreases |s|
  {
    if |s| > 0 {
      WithoutDistinct(s[1..], k);
      if s[0] != k {
        var tail := Without(s[1..], k);
        assert s[0] !in s[1..];
        assert s[0] !in tail;
        var r := [s[0]] + tail;
        forall i, j | 0 <= i < j < |r| ensures r[i] != r[j] {
          if i == 0 {
            assert r[j] == tail[j - 1];
          } else {
            assert r[i] == tail[i - 1] && r[j] == tail[j - 1];
          }
        }
      }
    }
  }

  /** A sequence with a new head is duplicate-free iff its tail is and does not hold the head. */
  lemma DistinctCons<K>(x: K, s: seq<K>)
    ensures Distinct([x] + s) <==> x !in s && Distinct(s)
  {
    var r := [x] + s;
    assert forall i :: 0 <= i < |s| ==> r[i + 1] == s[i];
    if x !in s && Distinct(s) {
      forall i, j | 0 <= i < j < |r| ensures r[i] != r[j] {
        assert r[j] == s[j - 1];
      }
    }
    if Distinct(r) {
      forall k | 0 <= k < |s| ensures s[k] != x {
        assert r[0] != r[k + 1];
      }
    }
  }

  /** `del d[k]` for a present key. */
  function Delete<K(==,!new), V>(d: Dict<K, V>, k: K): (r: Dict<K, V>)
    requires Valid(d)
    ensures Valid(r)
    ensures r.entries == d.entries - {k}
    ensures r.keys == Without(d.keys, k)
  {
    WithoutDistinct(d.keys, k);
    Dict(Without(d.keys, k), d.entries - {k})
  }
}

=== FILE: handlers.dfy ===
/**
 * The wallet and buying conversations of bot/handlers.py. `/wallet` creates
 * or imports a key, asks for a six-digit PIN twice and stores the wallet;
 * `/buy <token> [amount]` checks the address and the amount against the ETH
 * balance, asks for a yes/no confirmation and records a simulated buy.
 * User and balance lookups, `validate_address`, the token-info lookup and
 * `float()` are parameters. `setup_handlers` (bot/handlers.py:494-515)
 * registers neither conversation, so in the running bot these handlers are
 * defined but cannot be reached.
 */
module Handlers {
  import opened Wrappers
  import opened Text
  import opened Session
  import W = Wallet
  import P = Portfolio

  /** The conversation states; `End` is `ConversationHandler.END`. */
  datatype Step = WalletChoice | ImportWallet | WalletPin | ConfirmWalletPin | TokenAmount | ConfirmTrade | End

  const TempWalletKey := "temp_wallet"
  const TempPinKey := "temp_pin"
  const BuyTokenKey := "buy_token_address"
  const BuyInfoKey := "buy_token_info"
  const BuyAmountKey := "buy_amount"

  // ----- wallet setup -----

  /**
   * The wallet menu buttons: create a key from 32 random bytes and ask for a
   * PIN, ask for a key to import, or show the balance. Other data makes the
   * handler return nothing (`None` as next state).
   */
  function WalletButton(ud: UserData, data: string, random: seq<byte>, derive: string -> string)
    : (r: (UserData, Option<Step>))
    requires |random| == 32
    ensures r.1 == Some(WalletPin) <==> data == "wallet_create"
    ensures r.1 == Some(WalletPin) ==>
      && TempWalletKey in r.0
      && r.0[TempWalletKey] == Wallet(W.CreateWallet(random, derive).address, W.CreateWallet(random, derive).privateKey)
    ensures r.1 != Some(WalletPin) ==> r.0 == ud
    ensures r.1 == Some(ImportWallet) <==> data == "wallet_import"
    ensures r.1 == Some(End) <==> data == "wallet_balance"
    ensures forall k :: k != TempWalletKey ==> (k in r.0 <==> k in ud) && (k in ud ==> r.0[k] == ud[k])
  {
    if data == "wallet_create" then
      var a := W.CreateWallet(random, derive);
      (ud[TempWalletKey := Wallet(a.address, a.privateKey)], Some(WalletPin))
    else if data == "wallet_import" then (ud, Some(ImportWallet))
    else if data == "wallet_balance" then (ud, Some(End))
    else (ud, None)
  }

  /** A pasted private key: an accepted key is kept for the PIN step, a rejected one asked for again. */
  function ImportWalletInput(ud: UserData, text: string, derive: string -> string): (r: (UserData, Step))
    ensures r.1 == WalletPin <==> W.ImportWallet(text, derive).Ok?
    ensures r.1 != WalletPin ==> r.1 == ImportWallet && r.0 == ud
    ensures r.1 == WalletPin ==>
      && TempWalletKey in r.0
      && r.0[TempWalletKey] ==
           Wallet(W.ImportWallet(text, derive).value.address, W.ImportWallet(text, derive).value.privateKey)
    ensures forall k :: k != TempWalletKey ==> (k in r.0 <==> k in ud) && (k in ud ==> r.0[k] == ud[k])
  {
    match W.ImportWallet(text, derive)
    case Ok(a) => (ud[TempWalletKey := Wallet(a.address, a.privateKey)], WalletPin)
    case Err(_) => (ud, ImportWallet)
  }

  /** A PIN is six characters, all digits. */
  predicate ValidPin(pin: string) {
    IsDigitString(pin) && |pin| == 6
  }

  /** The first PIN entry: a valid PIN is kept and confirmation asked; anything else is asked again. */
  function PinInput(ud: UserData, pin: string): (r: (UserData, Step))
    ensures r.1 == ConfirmWalletPin <==> |pin| == 6 && forall i :: 0 <= i < |pin| ==> '0' <= pin[i] <= '9'
    ensures r.1 != ConfirmWalletPin ==> r.1 == WalletPin && r.0 == ud
    ensures r.1 == ConfirmWalletPin ==> TempPinKey in r.0 && r.0[TempPinKey] == Str(pin)
    ensures forall k :: k != TempPinKey ==> (k in r.0 <==> k in ud) && (k in ud ==> r.0[k] == ud[k])
  {
    if !IsDigitString(pin) || |pin| != 6 then (ud, WalletPin)
    else (ud[TempPinKey := Str(pin)], ConfirmWalletPin)
  }

  /**
   * The confirmation PIN. A different PIN ends the conversation and stores
   * nothing, leaving the pending wallet and PIN where they were; the same
   * PIN stores the pending wallet (third component: address and the key to
   * be encrypted) and forgets both.
   */
  function ConfirmPinInput(ud: UserData, pin: string): (r: (UserData, Step, Option<W.Account>))
    requires TempPinKey in ud
    requires ud[TempPinKey] == Str(pin) ==> TempWalletKey in ud && ud[TempWalletKey].Wallet?
    ensures r.1 == End
    ensures r.2.Some? <==> ud[TempPinKey] == Str(pin)
    ensures r.2.None? ==> r.0 == ud
    ensures r.2.Some? ==>
      && r.2.value == W.Account(ud[TempWalletKey].address, ud[TempWalletKey].privateKey)
      && (forall k :: k in r.0 <==> k in ud && k != TempWalletKey && k != TempPinKey)
      && (forall k :: k in r.0 ==> r.0[k] == ud[k])
  {
    if Str(pin) != ud[TempPinKey] then (ud, End, None)
    else
      var w := ud[TempWalletKey];
      (Forget(ud, {TempWalletKey, TempPinKey}), End, Some(W.Account(w.address, w.privateKey)))
  }

  /**
   * Importing a key and entering a PIN twice: the wallet stored is the one
   * the import normalised, exactly when the two PINs agree; then the store
   * is as it was found. On a mismatch the key stays in the store.
   */
  lemma WalletConversation(ud: UserData, key: string, pin: string, confirm: string, derive: string -> string)
    requires TempWalletKey !in ud && TempPinKey !in ud
    requires W.ImportWallet(key, derive).Ok?
    requires ValidPin(pin)
    ensures var ud1 := ImportWalletInput(ud, key, derive).0;
            var ud2 := PinInput(ud1, pin).0;
            var r := ConfirmPinInput(ud2, confirm);
            && (r.2.Some? <==> confirm == pin)
            && (r.2.Some? ==> r.2.value == W.ImportWallet(key, derive).value && r.0 == ud)
            && (r.2.None? ==> TempWalletKey in r.0 && r.0[TempWalletKey].privateKey == W.ImportWallet(key, derive).value.privateKey)
  {
    var ud1 := ImportWalletInput(ud, key, derive).0;
    var ud2 := PinInput(ud1, pin).0;
    var r := ConfirmPinInput(ud2, confirm);
    if r.2.Some? {
      assert r.0 == ud;
    }
  }

  // ----- buying -----

  /** What the token-info lookup returns. */
  datatype TokenDetails = TokenDetails(name: string, symbol: string)

  /** The amount in the store is positive and covered by the balance. */
  predicate AmountReady(ud: UserData, balance: real) {
    BuyAmountKey in ud && ud[BuyAmountKey].Num? && 0.0 < ud[BuyAmountKey].x <= balance
  }

  /**
   * `/buy <token> [amount]`. `hasWallet` is the user lookup, `isAddress` is
   * `validate_address`, `info` the token-info lookup (`None` when it raises)
   * and `balance` the wallet's ETH balance. Nothing is stored before the
   * wallet, the argument and the address have passed.
   */
  function BuyCommand(
    ud: UserData, hasWallet: bool, args: seq<string>, isAddress: string -> bool,
    info: string -> Option<TokenDetails>, parse: string -> Option<real>, balance: real
  ): (r: (UserData, Step))
    ensures r.1 == ConfirmTrade <==>
      && hasWallet && |args| > 1 && isAddress(args[0]) && info(args[0]).Some?
      && parse(args[1]).Some? && 0.0 < parse(args[1]).value <= balance
    ensures r.1 == TokenAmount <==> hasWallet && |args| == 1 && isAddress(args[0]) && info(args[0]).Some?
    ensures r.1 != ConfirmTrade && r.1 != TokenAmount ==> r.1 == End
    ensures !hasWallet || |args| == 0 || !isAddress(args[0]) ==> r.0 == ud
    ensures r.1 == ConfirmTrade ==>
      AmountReady(r.0, balance) && r.0[BuyAmountKey] == Num(parse(args[1]).value)
    ensures r.1 == ConfirmTrade || r.1 == TokenAmount ==>
      BuyTokenKey in r.0 && r.0[BuyTokenKey] == Str(args[0])
      && BuyInfoKey in r.0 && r.0[BuyInfoKey] == TokenInfo(info(args[0]).value.name, info(args[0]).value.symbol)
    ensures forall k :: k !in {BuyTokenKey, BuyInfoKey, BuyAmountKey} ==>
      (k in r.0 <==> k in ud) && (k in ud ==> r.0[k] == ud[k])
  {
    if !hasWallet || |args| == 0 || !isAddress(args[0]) then (ud, End)
    else
      var token := args[0];
      var ud1 := ud[BuyTokenKey := Str(token)];
      match info(token)
      case None => (ud1, End)
      case Some(details) =>
        var ud2 := ud1[BuyInfoKey := TokenInfo(details.name, details.symbol)];
        if |args| > 1 then
          match parse(args[1])
          case None => (ud2, End)
          case Some(amount) =>
            if amount <= 0.0 then (ud2, End)
            else
              var ud3 := ud2[BuyAmountKey := Num(amount)];
              if amount > balance then (ud3, End) else (ud3, ConfirmTrade)
        else (ud2, TokenAmount)
  }

  /**
   * A typed buy amount: a non-number or a non-positive number is asked for
   * again; an amount above the balance is stored and ends the conversation;
   * otherwise confirmation is asked, which reads the stored token info
   * (a missing one raises `KeyError`, which the handler does not catch).
   */
  function TokenAmountInput(ud: UserData, text: string, parse: string -> Option<real>, balance: real)
    : (r: (UserData, Step))
    requires parse(text).Some? && 0.0 < parse(text).value <= balance ==>
      BuyInfoKey in ud && ud[BuyInfoKey].TokenInfo?
    ensures r.1 == TokenAmount <==> parse(text).None? || parse(text).value <= 0.0
    ensures r.1 == TokenAmount ==> r.0 == ud
    ensures r.1 == ConfirmTrade <==> parse(text).Some? && 0.0 < parse(text).value <= balance
    ensures r.1 != TokenAmount ==>
      (r.1 == End || r.1 == ConfirmTrade) && BuyAmountKey in r.0 && r.0[BuyAmountKey] == Num(parse(text).value)
    ensures r.1 == ConfirmTrade ==> AmountReady(r.0, balance)
    ensures forall k :: k != BuyAmountKey ==> (k in r.0 <==> k in ud) && (k in ud ==> r.0[k] == ud[k])
  {
    match parse(text)
    case None => (ud, TokenAmount)
    case Some(amount) =>
      if amount <= 0.0 then (ud, TokenAmount)
      else
        var ud' := ud[BuyAmountKey := Num(amount)];
        if amount > balance then (ud', End) else (ud', ConfirmTrade)
  }

  /** Whichever way the amount was given, confirmation is asked only for 0 < amount <= balance. */
  lemma ConfirmationNeedsCoveredAmount(
    ud: UserData, hasWallet: bool, args: seq<string>, isAddress: string -> bool,
    info: string -> Option<TokenDetails>, parse: string -> Option<real>, balance: real, text: string)
    ensures var r := BuyCommand(ud, hasWallet, args, isAddress, info, parse, balance);
      && (r.1 == ConfirmTrade ==> AmountReady(r.0, balance))
      && (r.1 == TokenAmount ==>
           var r2 := TokenAmountInput(r.0, text, parse, balance);
           r2.1 == ConfirmTrade ==> AmountReady(r2.0, balance) && r2.0[BuyTokenKey] == Str(args[0]))
  {
  }

  /** "yes" or "y" in any letter case proceeds. */
  predicate Proceeds(text: string) {
    Lower(text) == "yes" || Lower(text) == "y"
  }

  /** The confirmation words, letter by letter: `y`, or `y`, `e`, `s`, each in either case. */
  lemma ProceedsSpelledOut(text: string)
    ensures Proceeds(text) <==>
      (|text| == 1 && text[0] in "yY")
      || (|text| == 3 && text[0] in "yY" && text[1] in "eE" && text[2] in "sS")
  {
    if |text| == 1 {
      assert Lower(text) == "y" <==> Lower(text)[0] == 'y';
    } else if |text| == 3 {
      assert Lower(text) == "yes" <==> Lower(text)[0] == 'y' && Lower(text)[1] == 'e' && Lower(text)[2] == 's';
    }
  }

  /** The transaction a confirmed buy records: an all-zero hash, no tokens yet, the ETH amount. */
  datatype TradeLog = TradeLog(
    hash: string, tokenAddress: string, tokenSymbol: string, tokenAmount: real, ethAmount: real, kind: P.TxKind)

  function SimulatedHash(): (h: string)
    ensures |h| == 66 && StartsWith(h, "0x")
  {
    "0x" + seq(64, _ => '0')
  }

  /**
   * The trade confirmation: anything but "yes"/"y" cancels; confirming
   * records a buy of the stored token for the stored amount. The store is
   * not cleared either way.
   */
  function ConfirmTradeInput(ud: UserData, text: string): (r: (Step, Option<TradeLog>))
    requires Proceeds(text) ==>
      && BuyTokenKey in ud && ud[BuyTokenKey].Str?
      && BuyInfoKey in ud && ud[BuyInfoKey].TokenInfo?
      && BuyAmountKey in ud && ud[BuyAmountKey].Num?
    ensures r.0 == End
    ensures r.1.Some? <==> Proceeds(text)
    ensures r.1.Some? ==>
      && r.1.value.kind == P.Buy && r.1.value.tokenAmount == 0.0
      && r.1.value.hash == SimulatedHash()
      && r.1.value.tokenAddress == ud[BuyTokenKey].s
      && r.1.value.tokenSymbol == ud[BuyInfoKey].symbol
      && r.1.value.ethAmount == ud[BuyAmountKey].x
  {
    var response := Lower(text);
    if response != "yes" && response != "y" then (End, None)
    else
      (End, Some(TradeLog(SimulatedHash(), ud[BuyTokenKey].s, ud[BuyInfoKey].symbol, 0.0, ud[BuyAmountKey].x, P.Buy)))
  }

  /** The recorded transaction as the P&L reads it back. */
  function AsTradeRecord(t: TradeLog): (r: P.TradeRecord)
    ensures r.tokenAddress == Some(t.tokenAddress) && r.kind == t.kind
    ensures r.amount == t.tokenAmount && r.ethAmount == t.ethAmount
  {
    P.TradeRecord(Some(t.tokenAddress), t.tokenAmount, t.ethAmount, t.kind)
  }

  /**
   * A confirmed buy raises the token's cost basis by the ETH spent but adds
   * no tokens, since it is recorded with a token amount of zero. Being the
   * newest transaction, it comes first in the history the P&L reads.
   */
  lemma ConfirmedBuyAddsCostOnly(ud: UserData, text: string, history: seq<P.TradeRecord>)
    requires Proceeds(text)
    requires BuyTokenKey in ud && ud[BuyTokenKey].Str?
    requires BuyInfoKey in ud && ud[BuyInfoKey].TokenInfo?
    requires BuyAmountKey in ud && ud[BuyAmountKey].Num?
    ensures var log := ConfirmTradeInput(ud, text).1.value;
      var before := P.CostBasis(history);
      P.CostBasis([AsTradeRecord(log)] + history) == P.Basis(before.cost + ud[BuyAmountKey].x, before.acquired)
  {
    var log := ConfirmTradeInput(ud, text).1.value;
    P.ZeroBuyFirstShiftsCost(AsTradeRecord(log), history);
  }
}

=== FILE: portfolio.dfy ===
/**
 * The arithmetic of `trading/portfolio.py`: the per-token cost-basis fold
 * and unrealized P&L of `calculate_profit_loss`, and the holdings list and
 * total of `get_user_portfolio`. Balances and prices come from oracle
 * parameters; amounts are exact reals.
 */
module Portfolio {
  import opened Wrappers
  import opened Sorting
  import D = Dict

  type Addr = string

  datatype TxKind = Buy | Sell | OtherKind

  /** One stored transaction, as far as the P&L and the holdings use it. */
  datatype TradeRecord = TradeRecord(tokenAddress: Option<Addr>, amount: real, ethAmount: real, kind: TxKind)

  /** The running totals of the cost-basis loop. */
  datatype Basis = Basis(cost: real, acquired: real)

  datatype PortfolioError = NoWalletFound | PortfolioFailed

  // ----- cost basis -----

  /**
   * One step of the loop: a buy adds its ETH and its tokens; a sell
   * subtracts its per-token ETH price times every token acquired so far
   * (nothing when the sold amount is not positive) and then its tokens;
   * any other kind is ignored.
   */
  function Step(b: Basis, t: TradeRecord): (r: Basis)
    ensures t.kind == OtherKind ==> r == b
  {
    match t.kind
    case Buy => Basis(b.cost + t.ethAmount, b.acquired + t.amount)
    case Sell =>
      Basis(b.cost - (if t.amount > 0.0 then (t.ethAmount / t.amount) * b.acquired else 0.0), b.acquired - t.amount)
    case OtherKind => b
  }

  /**
   * The loop over a token's transactions, in the order the transaction query
   * returns them: newest first, so the loop meets the most recent trade first.
   */
  function CostBasis(txs: seq<TradeRecord>): Basis
    decreases |txs|
  {
    if |txs| == 0 then Basis(0.0, 0.0) else Step(CostBasis(txs[..|txs| - 1]), txs[|txs| - 1])
  }

  /** Total amount of `kind` transactions. */
  function AmountOf(txs: seq<TradeRecord>, kind: TxKind): real
    decreases |txs|
  {
    if |txs| == 0 then 0.0
    else AmountOf(txs[..|txs| - 1], kind) + (if txs[|txs| - 1].kind == kind then txs[|txs| - 1].amount else 0.0)
  }

  /** Total ETH of `kind` transactions. */
  function EthOf(txs: seq<TradeRecord>, kind: TxKind): real
    decreases |txs|
  {
    if |txs| == 0 then 0.0
    else EthOf(txs[..|txs| - 1], kind) + (if txs[|txs| - 1].kind == kind then txs[|txs| - 1].ethAmount else 0.0)
  }

  /** After the loop, the tokens acquired are the tokens bought minus the tokens sold. */
  lemma {:induction false} AcquiredIsBoughtMinusSold(txs: seq<TradeRecord>)
    ensures CostBasis(txs).acquired == AmountOf(txs, Buy) - AmountOf(txs, Sell)
    decreases |txs|
  {
    if |txs| > 0 {
      AcquiredIsBoughtMinusSold(txs[..|txs| - 1]);
    }
  }

  /** Without sells, the cost basis is the ETH spent on buys. */
  lemma {:induction false} CostOfBuysOnly(txs: seq<TradeRecord>)
    requires forall i :: 0 <= i < |txs| ==> txs[i].kind != Sell
    ensures CostBasis(txs).cost == EthOf(txs, Buy)
    decreases |txs|
  {
    if |txs| > 0 {
      CostOfBuysOnly(txs[..|txs| - 1]);
    }
  }

  /**
   * The sell rule as written, for a sale that comes after a buy in the list
   * (so, read newest first, a sale made before a later buy): the buy of 10
   * tokens for 10 ETH and then the sale of 5 for 10 ETH leave a cost basis of
   * -10 ETH on 5 tokens, since the sale price of 2 ETH a token is charged
   * against all 10 tokens the loop has counted.
   */
  lemma SellChargesSalePriceOnHoldings()
    ensures CostBasis([TradeRecord(None, 10.0, 10.0, Buy), TradeRecord(None, 5.0, 10.0, Sell)]) == Basis(-10.0, 5.0)
  {
    var txs := [TradeRecord(None, 10.0, 10.0, Buy), TradeRecord(None, 5.0, 10.0, Sell)];
    assert txs[..1] == [txs[0]];
    assert txs[..1][..0] == [];
  }

  /**
   * A buy of 10 tokens for 10 ETH followed in time by a sale of 5 for 10 ETH
   * reaches the loop newest first, as the sale and then the buy: the sale is
   * charged against no tokens counted yet, so the cost basis is the 10 ETH paid.
   */
  lemma BuyThenSellNewestFirst()
    ensures CostBasis([TradeRecord(None, 5.0, 10.0, Sell), TradeRecord(None, 10.0, 10.0, Buy)]) == Basis(10.0, 5.0)
  {
    var txs := [TradeRecord(None, 5.0, 10.0, Sell), TradeRecord(None, 10.0, 10.0, Buy)];
    assert txs[..1] == [txs[0]];
    assert txs[..1][..0] == [];
  }

  /**
   * A buy of no tokens met first by the loop shifts the cost basis by its
   * ETH and changes nothing else: it adds no tokens, so every later sell is
   * charged exactly as without it.
   */
  lemma {:induction false} ZeroBuyFirstShiftsCost(t: TradeRecord, txs: seq<TradeRecord>)
    requires t.kind == Buy && t.amount == 0.0
    ensures CostBasis([t] + txs) == Basis(CostBasis(txs).cost + t.ethAmount, CostBasis(txs).acquired)
    decreases |txs|
  {
    var all := [t] + txs;
    if |txs| == 0 {
      assert all[..0] == [];
    } else {
      var prefix := txs[..|txs| - 1];
      ZeroBuyFirstShiftsCost(t, prefix);
      assert all[..|all| - 1] == [t] + prefix;
      assert all[|all| - 1] == txs[|txs| - 1];
    }
  }

  // ----- grouping -----

  /** The token address of every transaction, in order. */
  function AddressesOf(txs: seq<TradeRecord>): (r: seq<Option<Addr>>)
    ensures |r| == |txs|
    ensures forall i :: 0 <= i < |txs| ==> r[i] == txs[i].tokenAddress
    decreases |txs|
  {
    if |txs| == 0 then [] else AddressesOf(txs[..|txs| - 1]) + [txs[|txs| - 1].tokenAddress]
  }

  /** The transactions of one token, in order. */
  function OfToken(txs: seq<TradeRecord>, token: Option<Addr>): (r: seq<TradeRecord>)
    ensures forall i :: 0 <= i < |r| ==> r[i].tokenAddress == token
    ensures |r| <= |txs|
    ensures token !in AddressesOf(txs) ==> r == []
    decreases |txs|
  {
    if |txs| == 0 then []
    else
      var rest := OfToken(txs[..|txs| - 1], token);
      if txs[|txs| - 1].tokenAddress == token then rest + [txs[|txs| - 1]] else rest
  }

  /** Every transaction of the token is in its group, and only those. */
  lemma {:induction false} OfTokenMembers(txs: seq<TradeRecord>, token: Option<Addr>)
    ensures forall t :: t in OfToken(txs, token) <==> t in txs && t.tokenAddress == token
    decreases |txs|
  {
    if |txs| > 0 {
      var prefix := txs[..|txs| - 1];
      OfTokenMembers(prefix, token);
      assert txs == prefix + [txs[|txs| - 1]];
    }
  }

  /**
   * `token_transactions`: transactions grouped by token address in a dict
   * whose keys appear in order of first use. A missing address is a key
   * like any other.
   */
  function GroupByToken(txs: seq<TradeRecord>): (r: D.Dict<Option<Addr>, seq<TradeRecord>>)
    ensures D.Valid(r)
    ensures forall k :: k in r.entries <==> k in AddressesOf(txs)
    ensures forall k :: k in r.entries ==> r.entries[k] == OfToken(txs, k)
    decreases |txs|
  {
    if |txs| == 0 then D.Empty()
    else
      var prefix := txs[..|txs| - 1];
      var t := txs[|txs| - 1];
      var g := GroupByToken(prefix);
      assert forall k :: k != t.tokenAddress ==> OfToken(txs, k) == OfToken(prefix, k);
      assert AddressesOf(txs) == AddressesOf(prefix) + [t.tokenAddress];
      if t.tokenAddress in g.entries then
        D.Put(g, t.tokenAddress, g.entries[t.tokenAddress] + [t])
      else
        D.Put(g, t.tokenAddress, [t])
  }

  // ----- profit and loss -----

  /** What the balance and price oracles return for one token. */
  datatype Market = Market(balance: real, priceEth: real)

  datatype TokenPnl = TokenPnl(
    address: Option<Addr>, balance: real, costBasis: real, currentValueEth: real,
    unrealizedPnlEth: real, unrealizedPnlPercent: real)

  function UnrealizedPnl(r: TokenPnl): real {
    r.unrealizedPnlEth
  }

  function CostOf(r: TokenPnl): real {
    r.costBasis
  }

  function ValueOf(r: TokenPnl): real {
    r.currentValueEth
  }

  /** One entry of `token_pnl`. */
  function TokenPnlOf(address: Option<Addr>, txs: seq<TradeRecord>, m: Market): (r: TokenPnl)
    ensures r.address == address && r.balance == m.balance
    ensures r.costBasis == CostBasis(txs).cost
    ensures r.currentValueEth == m.balance * m.priceEth
    ensures CostBasis(txs).acquired <= 0.0 ==> r.unrealizedPnlEth == 0.0 && r.unrealizedPnlPercent == 0.0
  {
    PnlOfBasis(address, CostBasis(txs), m)
  }

  /** The entry for a token whose loop ended at `b`. */
  function PnlOfBasis(address: Option<Addr>, b: Basis, m: Market): (r: TokenPnl)
    ensures r.address == address && r.balance == m.balance
    ensures r.costBasis == b.cost
    ensures r.currentValueEth == m.balance * m.priceEth
    ensures b.acquired <= 0.0 ==> r.unrealizedPnlEth == 0.0 && r.unrealizedPnlPercent == 0.0
  {
    if b.acquired > 0.0 then
      var avg := b.cost / b.acquired;
      var pnl := m.balance * (m.priceEth - avg);
      var pct := if avg > 0.0 then (m.priceEth / avg - 1.0) * 100.0 else 0.0;
      TokenPnl(address, m.balance, b.cost, m.balance * m.priceEth, pnl, pct)
    else
      TokenPnl(address, m.balance, b.cost, m.balance * m.priceEth, 0.0, 0.0)
  }

  /**
   * When tokens were acquired, the unrealized P&L is the current value
   * minus the balance valued at the average cost, and its percentage is
   * positive exactly when the price is above a positive average cost.
   */
  lemma PnlAgainstAverageCost(address: Option<Addr>, txs: seq<TradeRecord>, m: Market)
    requires CostBasis(txs).acquired > 0.0
    ensures var b := CostBasis(txs);
      var avg := b.cost / b.acquired;
      var r := TokenPnlOf(address, txs, m);
      && r.unrealizedPnlEth == r.currentValueEth - m.balance * avg
      && (avg > 0.0 ==> (r.unrealizedPnlPercent > 0.0 <==> m.priceEth > avg))
      && (avg <= 0.0 ==> r.unrealizedPnlPercent == 0.0)
  {
    BasisPnlAgainstAverageCost(address, CostBasis(txs), m);
  }

  lemma BasisPnlAgainstAverageCost(address: Option<Addr>, b: Basis, m: Market)
    requires b.acquired > 0.0
    ensures var avg := b.cost / b.acquired;
      var r := PnlOfBasis(address, b, m);
      && r.unrealizedPnlEth == r.currentValueEth - m.balance * avg
      && (avg > 0.0 ==> (r.unrealizedPnlPercent > 0.0 <==> m.priceEth > avg))
      && (avg <= 0.0 ==> r.unrealizedPnlPercent == 0.0)
  {
    var avg := b.cost / b.acquired;
    Distributes(m.balance, m.priceEth, avg);
    if avg > 0.0 {
      RatioAboveOne(m.priceEth, avg);
    }
  }

  lemma Distributes(x: real, y: real, z: real)
    ensures x * (y - z) == x * y - x * z
  {
  }

  lemma RatioAboveOne(x: real, y: real)
    requires y > 0.0
    ensures (x / y - 1.0) * 100.0 > 0.0 <==> x > y
  {
    assert x == (x / y) * y;
  }

  /** Holding exactly what was acquired, the unrealized P&L is the current value minus the cost basis. */
  lemma PnlOfFullHolding(address: Option<Addr>, txs: seq<TradeRecord>, m: Market)
    requires CostBasis(txs).acquired > 0.0
    requires m.balance == CostBasis(txs).acquired
    ensures var r := TokenPnlOf(address, txs, m);
      r.unrealizedPnlEth == r.currentValueEth - r.costBasis
  {
    BasisPnlOfFullHolding(address, CostBasis(txs), m);
  }

  lemma BasisPnlOfFullHolding(address: Option<Addr>, b: Basis, m: Market)
    requires b.acquired > 0.0 && m.balance == b.acquired
    ensures var r := PnlOfBasis(address, b, m);
      r.unrealizedPnlEth == r.currentValueEth - r.costBasis
  {
    ValueAtAverageCost(b.acquired, m.priceEth, b.cost);
  }

  lemma ValueAtAverageCost(held: real, price: real, cost: real)
    requires held > 0.0
    ensures held * (price - cost / held) == held * price - cost
  {
    var avg := cost / held;
    assert held * avg == cost;
    assert held * (price - avg) == held * price - held * avg;
  }

  /** The rows of `token_pnl` before the sort: one per group whose lookups succeed, in group order. */
  function PnlRows(
    ks: seq<Option<Addr>>, groups: map<Option<Addr>, seq<TradeRecord>>, market: Option<Addr> -> Option<Market>
  ): (r: seq<TokenPnl>)
    requires forall k :: k in ks ==> k in groups
    ensures |r| <= |ks|
    ensures forall row :: row in r <==>
      exists k :: k in ks && market(k).Some? && row == TokenPnlOf(k, groups[k], market(k).value)
    decreases |ks|
  {
    if |ks| == 0 then []
    else
      var rest := PnlRows(ks[1..], groups, market);
      assert forall k :: k in ks <==> k == ks[0] || k in ks[1..];
      match market(ks[0])
      case None => rest
      case Some(m) => [TokenPnlOf(ks[0], groups[ks[0]], m)] + rest
  }

  /** Over distinct group keys no row is listed twice: each row carries its own key. */
  lemma {:induction false} PnlRowsDistinct(
    ks: seq<Option<Addr>>, groups: map<Option<Addr>, seq<TradeRecord>>, market: Option<Addr> -> Option<Market>)
    requires forall k :: k in ks ==> k in groups
    requires D.Distinct(ks)
    ensures D.Distinct(PnlRows(ks, groups, market))
    decreases |ks|
  {
    if |ks| > 0 {
      var rest := PnlRows(ks[1..], groups, market);
      assert ks == [ks[0]] + ks[1..];
      D.DistinctCons(ks[0], ks[1..]);
      PnlRowsDistinct(ks[1..], groups, market);
      if market(ks[0]).Some? {
        D.DistinctCons(TokenPnlOf(ks[0], groups[ks[0]], market(ks[0]).value), rest);
      }
    }
  }

  datatype PnlReport = PnlReport(
    tokenPnl: seq<TokenPnl>, totalCostBasis: real, totalCurrentValue: real,
    totalUnrealizedPnl: real, totalUnrealizedPnlPercent: real)

  /** The overall percentage: the total value against the total cost, 0 without a positive cost. */
  function TotalPercent(value: real, cost: real): real {
    if cost > 0.0 then (value / cost - 1.0) * 100.0 else 0.0
  }

  /**
   * `calculate_profit_loss`. `hasWallet` is the user lookup and `market`
   * the balance and price oracles per token (`None` when a lookup raises,
   * which drops the token).
   */
  function CalculateProfitLoss(hasWallet: bool, txs: seq<TradeRecord>, market: Option<Addr> -> Option<Market>)
    : (r: Result<PnlReport, PortfolioError>)
    ensures r.Err? <==> !hasWallet
    ensures r.Ok? ==>
      var rep := r.value;
      && SortedDesc(rep.tokenPnl, UnrealizedPnl)
      && D.Distinct(rep.tokenPnl)
      && (forall row :: row in rep.tokenPnl <==>
            && row.address in GroupByToken(txs).entries
            && market(row.address).Some?
            && row == TokenPnlOf(row.address, OfToken(txs, row.address), market(row.address).value))
      && rep.totalCostBasis == Sum(rep.tokenPnl, CostOf)
      && rep.totalCurrentValue == Sum(rep.tokenPnl, ValueOf)
      && rep.totalUnrealizedPnl == Sum(rep.tokenPnl, UnrealizedPnl)
      && rep.totalUnrealizedPnlPercent == TotalPercent(rep.totalCurrentValue, rep.totalCostBasis)
  {
    if !hasWallet then Err(NoWalletFound)
    else
      var groups := GroupByToken(txs);
      var rows := PnlRows(groups.keys, groups.entries, market);
      var sorted := SortDesc(rows, UnrealizedPnl);
      RowsAreGroups(txs, market);
      SortDescMembers(rows, UnrealizedPnl);
      PnlRowsDistinct(groups.keys, groups.entries, market);
      SortDescDistinct(rows, UnrealizedPnl);
      var cost := Sum(sorted, CostOf);
      var value := Sum(sorted, ValueOf);
      Ok(PnlReport(sorted, cost, value, Sum(sorted, UnrealizedPnl), TotalPercent(value, cost)))
  }

  /** A row is kept for exactly the groups whose lookups succeed. */
  lemma RowsAreGroups(txs: seq<TradeRecord>, market: Option<Addr> -> Option<Market>)
    ensures var groups := GroupByToken(txs);
      forall row :: row in PnlRows(groups.keys, groups.entries, market) <==>
        && row.address in groups.entries
        && market(row.address).Some?
        && row == TokenPnlOf(row.address, OfToken(txs, row.address), market(row.address).value)
  {
  }

  /** The totals do not depend on the sort: they are the sums over the unsorted rows. */
  lemma TotalsBeforeSort(hasWallet: bool, txs: seq<TradeRecord>, market: Option<Addr> -> Option<Market>)
    requires hasWallet
    ensures var groups := GroupByToken(txs);
      var rows := PnlRows(groups.keys, groups.entries, market);
      var rep := CalculateProfitLoss(hasWallet, txs, market).value;
      && rep.totalCostBasis == Sum(rows, CostOf)
      && rep.totalCurrentValue == Sum(rows, ValueOf)
      && rep.totalUnrealizedPnl == Sum(rows, UnrealizedPnl)
  {
    var groups := GroupByToken(txs);
    var rows := PnlRows(groups.keys, groups.entries, market);
    SumSortDesc(rows, UnrealizedPnl, CostOf);
    SumSortDesc(rows, UnrealizedPnl, ValueOf);
    SumSortDesc(rows, UnrealizedPnl, UnrealizedPnl);
  }

  // ----- holdings -----

  /** The mock ETH price in USD used for the ETH balance. */
  const EthPriceUsd: real := 2500.0

  /** What the balance and price oracles return for one held token. */
  datatype Quote = Quote(balance: real, priceEth: real, priceUsd: real)

  datatype Holding = Holding(
    address: Addr, balance: real, priceEth: real, priceUsd: real, valueEth: real, valueUsd: real)

  datatype Portfolio = Portfolio(ethBalance: real, ethValueUsd: real, tokens: seq<Holding>, totalValueUsd: real)

  function ValueUsd(h: Holding): real {
    h.valueUsd
  }

  /** Python truthiness of a token address: present and non-empty. */
  predicate Named(a: Option<Addr>) {
    a.Some? && a.value != ""
  }

  /**
   * The set of token addresses the user has traded, listed once each in
   * order of first use (the source collects them in a `set`, whose order
   * the final sort makes irrelevant up to ties).
   */
  function TokenAddresses(txs: seq<TradeRecord>): (r: seq<Addr>)
    ensures D.Distinct(r)
    ensures forall a :: a in r <==> a != "" && Some(a) in AddressesOf(txs)
    decreases |txs|
  {
    if |txs| == 0 then []
    else
      var prefix := txs[..|txs| - 1];
      var t := txs[|txs| - 1];
      var rest := TokenAddresses(prefix);
      assert AddressesOf(txs) == AddressesOf(prefix) + [t.tokenAddress];
      if Named(t.tokenAddress) && t.tokenAddress.value !in rest then rest + [t.tokenAddress.value] else rest
  }

  /** One held token: its value at the quoted prices. */
  function HoldingOf(a: Addr, q: Quote): (h: Holding)
    ensures h.address == a && h.balance == q.balance
    ensures h.valueEth == q.balance * q.priceEth && h.valueUsd == q.balance * q.priceUsd
  {
    Holding(a, q.balance, q.priceEth, q.priceUsd, q.balance * q.priceEth, q.balance * q.priceUsd)
  }

  /** The tokens with a positive balance whose lookups succeed, in the order given. */
  function Holdings(addrs: seq<Addr>, quote: Addr -> Option<Quote>): (r: seq<Holding>)
    ensures forall h :: h in r <==>
      exists a :: a in addrs && quote(a).Some? && quote(a).value.balance > 0.0 && h == HoldingOf(a, quote(a).value)
    ensures forall h :: h in r ==> h.balance > 0.0
    decreases |addrs|
  {
    if |addrs| == 0 then []
    else
      var rest := Holdings(addrs[1..], quote);
      assert forall a :: a in addrs <==> a == addrs[0] || a in addrs[1..];
      match quote(addrs[0])
      case Some(q) => if q.balance > 0.0 then [HoldingOf(addrs[0], q)] + rest else rest
      case None => rest
  }

  /** Over distinct addresses no holding is listed twice: each carries its own address. */
  lemma {:induction false} HoldingsDistinct(addrs: seq<Addr>, quote: Addr -> Option<Quote>)
    requires D.Distinct(addrs)
    ensures D.Distinct(Holdings(addrs, quote))
    decreases |addrs|
  {
    if |addrs| > 0 {
      var rest := Holdings(addrs[1..], quote);
      assert addrs == [addrs[0]] + addrs[1..];
      D.DistinctCons(addrs[0], addrs[1..]);
      HoldingsDistinct(addrs[1..], quote);
      if quote(addrs[0]).Some? {
        D.DistinctCons(HoldingOf(addrs[0], quote(addrs[0]).value), rest);
      }
    }
  }

  /**
   * `get_user_portfolio`. `hasWallet` is the user lookup, `ethBalance` the
   * ETH balance oracle (`None` when it raises, which fails the call), and
   * `quote` the per-token balance and price oracles (`None` drops the token).
   */
  function GetUserPortfolio(
    hasWallet: bool, ethBalance: Option<real>, txs: seq<TradeRecord>, quote: Addr -> Option<Quote>
  ): (r: Result<Portfolio, PortfolioError>)
    ensures r == Err(NoWalletFound) <==> !hasWallet
    ensures r == Err(PortfolioFailed) <==> hasWallet && ethBalance.None?
    ensures r.Ok? ==>
      var p := r.value;
      && p.ethBalance == ethBalance.value
      && p.ethValueUsd == ethBalance.value * EthPriceUsd
      && SortedDesc(p.tokens, ValueUsd)
      && D.Distinct(p.tokens)
      && (forall h :: h in p.tokens ==> h.balance > 0.0)
      && (forall h :: h in p.tokens <==>
            exists a :: a in TokenAddresses(txs) && quote(a).Some? && quote(a).value.balance > 0.0
              && h == HoldingOf(a, quote(a).value))
      && p.totalValueUsd == p.ethValueUsd + Sum(p.tokens, ValueUsd)
  {
    if !hasWallet then Err(NoWalletFound)
    else if ethBalance.None? then Err(PortfolioFailed)
    else
      var eth := ethBalance.value;
      var held := Holdings(TokenAddresses(txs), quote);
      var sorted := SortDesc(held, ValueUsd);
      SortDescMembers(held, ValueUsd);
      HoldingsDistinct(TokenAddresses(txs), quote);
      SortDescDistinct(held, ValueUsd);
      SumSortDesc(held, ValueUsd, ValueUsd);
      Ok(Portfolio(eth, eth * EthPriceUsd, sorted, eth * EthPriceUsd + Sum(held, ValueUsd)))
  }

  // ----- the holdings loop as written -----

  /**
   * Whether the ETH balance reaches the portfolio as a `Decimal`: web3's
   * `from_wei` (utils/wallet.py:68) returns the integer 0 for a zero balance
   * and a `Decimal` for any other, and the ETH value and the running total
   * start from it.
   */
  predicate FromWeiIsDecimal(eth: real) {
    eth != 0.0
  }

  /**
   * The token loop as written. A token's USD value is a float (a true
   * division times a float price), and adding a float to a `Decimal` total
   * raises `TypeError` before the append; the per-token `except` swallows it.
   */
  function HoldingsAsWritten(addrs: seq<Addr>, quote: Addr -> Option<Quote>, decimalTotal: bool): (r: seq<Holding>)
    ensures decimalTotal ==> r == []
    ensures !decimalTotal ==> r == Holdings(addrs, quote)
    decreases |addrs|
  {
    if |addrs| == 0 then []
    else
      var rest := HoldingsAsWritten(addrs[1..], quote, decimalTotal);
      match quote(addrs[0])
      case Some(q) => if q.balance > 0.0 && !decimalTotal then [HoldingOf(addrs[0], q)] + rest else rest
      case None => rest
  }

  /**
   * `get_user_portfolio` as written: with a non-zero ETH balance every held
   * token is dropped and the total is the ETH value alone; with a zero
   * balance it is `GetUserPortfolio`.
   */
  function GetUserPortfolioAsWritten(
    hasWallet: bool, ethBalance: Option<real>, txs: seq<TradeRecord>, quote: Addr -> Option<Quote>
  ): (r: Result<Portfolio, PortfolioError>)
    ensures r == Err(NoWalletFound) <==> !hasWallet
    ensures r == Err(PortfolioFailed) <==> hasWallet && ethBalance.None?
    ensures r.Ok? && FromWeiIsDecimal(ethBalance.value) ==>
      && r.value.ethValueUsd == ethBalance.value * EthPriceUsd
      && r.value.tokens == []
      && r.value.totalValueUsd == r.value.ethValueUsd
    ensures r.Ok? && !FromWeiIsDecimal(ethBalance.value) ==> r == GetUserPortfolio(hasWallet, ethBalance, txs, quote)
  {
    if !hasWallet then Err(NoWalletFound)
    else if ethBalance.None? then Err(PortfolioFailed)
    else
      var eth := ethBalance.value;
      var held := HoldingsAsWritten(TokenAddresses(txs), quote, FromWeiIsDecimal(eth));
      Ok(Portfolio(eth, eth * EthPriceUsd, SortDesc(held, ValueUsd), eth * EthPriceUsd + Sum(held, ValueUsd)))
  }

  /**
   * The two agree exactly when nothing would be listed anyway: no wallet, a
   * failed balance, a zero ETH balance, or no held token.
   */
  lemma AsWrittenAgreesIff(
    hasWallet: bool, ethBalance: Option<real>, txs: seq<TradeRecord>, quote: Addr -> Option<Quote>)
    ensures GetUserPortfolioAsWritten(hasWallet, ethBalance, txs, quote) == GetUserPortfolio(hasWallet, ethBalance, txs, quote)
      <==> !hasWallet || ethBalance.None? || !FromWeiIsDecimal(ethBalance.value)
           || Holdings(TokenAddresses(txs), quote) == []
  {
    if hasWallet && ethBalance.Some? && FromWeiIsDecimal(ethBalance.value) {
      var held := Holdings(TokenAddresses(txs), quote);
      assert |GetUserPortfolio(hasWallet, ethBalance, txs, quote).value.tokens| == |held|;
    }
  }

  /**
   * One ETH and one held token worth $10: the source reports $2,500 and no
   * token, where the intended portfolio lists the token and reports $2,510.
   */
  lemma DecimalEthDropsHeldToken()
    ensures var txs := [TradeRecord(Some("0x1"), 4.0, 0.004, Buy)];
      var quote := (a: Addr) => Some(Quote(4.0, 0.001, 2.5));
      && GetUserPortfolioAsWritten(true, Some(1.0), txs, quote) == Ok(Portfolio(1.0, 2500.0, [], 2500.0))
      && GetUserPortfolio(true, Some(1.0), txs, quote)
         == Ok(Portfolio(1.0, 2500.0, [Holding("0x1", 4.0, 0.001, 2.5, 0.004, 10.0)], 2510.0))
  {
    var txs := [TradeRecord(Some("0x1"), 4.0, 0.004, Buy)];
    var quote := (a: Addr) => Some(Quote(4.0, 0.001, 2.5));
    assert txs[..0] == [];
    assert TokenAddresses(txs) == ["0x1"];
    var held := Holdings(["0x1"], quote);
    assert held == [Holding("0x1", 4.0, 0.001, 2.5, 0.004, 10.0)];
    assert SortDesc(held, ValueUsd) == held by {
      assert held[..0] == [];
    }
    assert Sum(held, ValueUsd) == 10.0;
  }
}

=== FILE: session.dfy ===
/**
 * The per-user conversation store of the Telegram bot (`context.user_data`):
 * a string-keyed map whose values are whatever the handlers put there.
 * The handlers of the three conversations (alerts, copy trading, wallet and
 * buying) read and write it between messages.
 */
module Session {
  import opened Text

  /** The kinds of value the handlers store. */
  datatype Datum =
    | Null                                          // Python `None`
    | Str(s: string)
    | Num(x: real)
    | Flag(b: bool)
    | Config(active: bool, sandboxMode: bool)       // a cached copy-trade configuration
    | Wallet(address: string, privateKey: string)  // a wallet awaiting its PIN
    | TokenInfo(name: string, symbol: string)      // a token-info lookup result

  type UserData = map<string, Datum>

  /**
   * The "simple validation" both address prompts apply: a `0x` prefix and 42
   * characters in all. Nothing checks that the rest is hexadecimal.
   */
  predicate LooksLikeAddress(s: string) {
    StartsWith(s, "0x") && |s| == 42
  }

  /**
   * Conditional `del user_data[k]` for every `k` in `ks`. The contract is map
   * subtraction spelled out; `ForgetAbsent` is the property the handlers use.
   */
  function Forget(ud: UserData, ks: set<string>): (r: UserData)
    ensures forall k :: k in r <==> k in ud && k !in ks
    ensures forall k :: k in r ==> r[k] == ud[k]
  {
    ud - ks
  }

  /** Forgetting keys the store never held changes nothing. */
  lemma ForgetAbsent(ud: UserData, ks: set<string>)
    requires forall k :: k in ks ==> k !in ud
    ensures Forget(ud, ks) == ud
  {
  }
}

=== FILE: sorting.dfy ===
/**
 * Python's `list.sort(key=..., reverse=True)` on a real-valued key, and
 * `sum(...)` over a key. The sort is stable: a later element is placed
 * after every earlier element whose key is not smaller.
 */
module Sorting {
  import D = Dict

  ghost predicate SortedDesc<T(!new)>(s: seq<T>, key: T -> real) {
    forall i, j :: 0 <= i < j < |s| ==> key(s[i]) >= key(s[j])
  }

  /** `x` placed before the first element of `s` whose key is smaller than its own. */
  function Insert<T(!new)>(x: T, s: seq<T>, key: T -> real): (r: seq<T>)
    requires SortedDesc(s, key)
    ensures SortedDesc(r, key)
    ensures forall y :: y in r <==> y in s || y == x
    ensures |r| == |s| + 1
    decreases |s|
  {
    if |s| == 0 then [x]
    else if key(x) > key(s[0]) then [x] + s
    else
      var rest := Insert(x, s[1..], key);
      assert forall y :: y in s[1..] ==> key(y) <= key(s[0]) by {
        forall y | y in s[1..] ensures key(y) <= key(s[0]) {
          var k :| 0 <= k < |s[1..]| && s[1..][k] == y;
          assert s[k + 1] == y;
        }
      }
      var r := [s[0]] + rest;
      assert forall k :: 1 <= k < |r| ==> r[k] == rest[k - 1];
      r
  }

  lemma {:induction false} InsertPermutes<T(!new)>(x: T, s: seq<T>, key: T -> real)
    requires SortedDesc(s, key)
    ensures multiset(Insert(x, s, key)) == multiset(s) + multiset{x}
    decreases |s|
  {
    if |s| > 0 && key(x) <= key(s[0]) {
      InsertPermutes(x, s[1..], key);
      assert [s[0]] + s[1..] == s;
    }
  }

  /** Insertion sort, descending by `key`, keeping equal keys in their original order. */
  function SortDesc<T(!new)>(s: seq<T>, key: T -> real): (r: seq<T>)
    ensures SortedDesc(r, key)
    ensures |r| == |s|
    decreases |s|
  {
    if |s| == 0 then []
    else Insert(s[|s| - 1], SortDesc(s[..|s| - 1], key), key)
  }

  /** The sort is a permutation of its input. */
  lemma {:induction false} SortDescPermutes<T(!new)>(s: seq<T>, key: T -> real)
    ensures multiset(SortDesc(s, key)) == multiset(s)
    decreases |s|
  {
    if |s| > 0 {
      var prefix := s[..|s| - 1];
      SortDescPermutes(prefix, key);
      InsertPermutes(s[|s| - 1], SortDesc(prefix, key), key);
      assert prefix + [s[|s| - 1]] == s;
    }
  }

  lemma {:induction false} InsertDistinct<T(!new)>(x: T, s: seq<T>, key: T -> real)
    requires SortedDesc(s, key)
    requires D.Distinct(s) && x !in s
    ensures D.Distinct(Insert(x, s, key))
    decreases |s|
  {
    if |s| == 0 {
      D.DistinctCons(x, s);
    } else if key(x) > key(s[0]) {
      D.DistinctCons(x, s);
    } else {
      assert s == [s[0]] + s[1..];
      D.DistinctCons(s[0], s[1..]);
      assert SortedDesc(s[1..], key);
      InsertDistinct(x, s[1..], key);
      D.DistinctCons(s[0], Insert(x, s[1..], key));
    }
  }

  /** The sort lists no element twice that its input listed once. */
  lemma {:induction false} SortDescDistinct<T(!new)>(s: seq<T>, key: T -> real)
    requires D.Distinct(s)
    ensures D.Distinct(SortDesc(s, key))
    decreases |s|
  {
    if |s| > 0 {
      var prefix := s[..|s| - 1];
      var x := s[|s| - 1];
      assert D.Distinct(prefix);
      SortDescDistinct(prefix, key);
      SortDescMembers(prefix, key);
      assert x !in prefix;
      InsertDistinct(x, SortDesc(prefix, key), key);
    }
  }

  /** The sort keeps exactly the elements it was given. */
  lemma SortDescMembers<T(!new)>(s: seq<T>, key: T -> real)
    ensures forall x :: x in SortDesc(s, key) <==> x in s
  {
    SortDescPermutes(s, key);
    assert forall x :: x in SortDesc(s, key) <==> x in multiset(SortDesc(s, key));
    assert forall x :: x in s <==> x in multiset(s);
  }

  /** The elements of `s` whose key is `v`, in their order in `s`. */
  function WithKey<T(!new)>(s: seq<T>, key: T -> real, v: real): (r: seq<T>)
    ensures forall y :: y in r <==> y in s && key(y) == v
    decreases |s|
  {
    if |s| == 0 then []
    else
      assert forall y :: y in s <==> y == s[0] || y in s[1..];
      (if key(s[0]) == v then [s[0]] else []) + WithKey(s[1..], key, v)
  }

  lemma {:induction false} WithKeyAppend<T(!new)>(s: seq<T>, x: T, key: T -> real, v: real)
    ensures WithKey(s + [x], key, v) == WithKey(s, key, v) + (if key(x) == v then [x] else [])
    decreases |s|
  {
    if |s| > 0 {
      assert (s + [x])[1..] == s[1..] + [x];
      WithKeyAppend(s[1..], x, key, v);
    } else {
      assert ([x])[1..] == [];
    }
  }

  lemma {:induction false} WithKeyNone<T(!new)>(s: seq<T>, key: T -> real, v: real)
    requires forall y :: y in s ==> key(y) != v
    ensures WithKey(s, key, v) == []
    decreases |s|
  {
    if |s| > 0 {
      assert s[0] in s;
      assert forall y :: y in s[1..] ==> y in s;
      WithKeyNone(s[1..], key, v);
    }
  }

  /** Inserting `x` puts it after every listed element with its own key. */
  lemma {:induction false} WithKeyInsert<T(!new)>(x: T, s: seq<T>, key: T -> real, v: real)
    requires SortedDesc(s, key)
    ensures WithKey(Insert(x, s, key), key, v) == WithKey(s, key, v) + (if key(x) == v then [x] else [])
    decreases |s|
  {
    if |s| == 0 {
      assert ([x])[1..] == [];
    } else if key(x) > key(s[0]) {
      assert ([x] + s)[1..] == s;
      if key(x) == v {
        WithKeyBelow(s, key, v);
      }
    } else {
      var rest := Insert(x, s[1..], key);
      assert SortedDesc(s[1..], key);
      WithKeyInsert(x, s[1..], key, v);
      assert ([s[0]] + rest)[1..] == rest;
    }
  }

  /** Nothing in a descending list headed by a key below `v` has key `v`. */
  lemma WithKeyBelow<T(!new)>(s: seq<T>, key: T -> real, v: real)
    requires SortedDesc(s, key) && |s| > 0 && key(s[0]) < v
    ensures WithKey(s, key, v) == []
  {
    forall y | y in s ensures key(y) != v {
      var k :| 0 <= k < |s| && s[k] == y;
      assert key(s[0]) >= key(s[k]);
    }
    WithKeyNone(s, key, v);
  }

  /**
   * The sort is stable: for every key value, the elements carrying it come
   * out in the order they went in.
   */
  lemma {:induction false} SortDescStable<T(!new)>(s: seq<T>, key: T -> real, v: real)
    ensures WithKey(SortDesc(s, key), key, v) == WithKey(s, key, v)
    decreases |s|
  {
    if |s| > 0 {
      var prefix := s[..|s| - 1];
      var x := s[|s| - 1];
      SortDescStable(prefix, key, v);
      WithKeyInsert(x, SortDesc(prefix, key), key, v);
      WithKeyAppend(prefix, x, key, v);
      assert prefix + [x] == s;
    }
  }

  /** `sum(f(x) for x in s)`. */
  function Sum<T(!new)>(s: seq<T>, f: T -> real): real
    decreases |s|
  {
    if |s| == 0 then 0.0 else f(s[0]) + Sum(s[1..], f)
  }

  lemma {:induction false} SumInsert<T(!new)>(x: T, s: seq<T>, key: T -> real, f: T -> real)
    requires SortedDesc(s, key)
    ensures Sum(Insert(x, s, key), f) == f(x) + Sum(s, f)
    decreases |s|
  {
    if |s| > 0 && key(x) <= key(s[0]) {
      SumInsert(x, s[1..], key, f);
      assert ([s[0]] + Insert(x, s[1..], key))[1..] == Insert(x, s[1..], key);
    } else if |s| > 0 {
      assert ([x] + s)[1..] == s;
    }
  }

  lemma {:induction false} SumAppend<T(!new)>(s: seq<T>, x: T, f: T -> real)
    ensures Sum(s + [x], f) == Sum(s, f) + f(x)
    decreases |s|
  {
    if |s| > 0 {
      assert (s + [x])[1..] == s[1..] + [x];
      SumAppend(s[1..], x, f);
    }
  }

  /** Sorting does not change a sum: totals may be taken before or after the sort. */
  lemma {:induction false} SumSortDesc<T(!new)>(s: seq<T>, key: T -> real, f: T -> real)
    ensures Sum(SortDesc(s, key), f) == Sum(s, f)
    decreases |s|
  {
    if |s| > 0 {
      var prefix := s[..|s| - 1];
      SumSortDesc(prefix, key, f);
      SumInsert(s[|s| - 1], SortDesc(prefix, key), key, f);
      SumAppend(prefix, s[|s| - 1], f);
      assert prefix + [s[|s| - 1]] == s;
    }
  }

  /** Sorting an already descending list changes nothing. */
  lemma {:induction false} SortDescSorted<T(!new)>(s: seq<T>, key: T -> real)
    requires SortedDesc(s, key)
    ensures SortDesc(s, key) == s
    decreases |s|
  {
    if |s| > 0 {
      var prefix := s[..|s| - 1];
      var x := s[|s| - 1];
      assert SortedDesc(prefix, key);
      SortDescSorted(prefix, key);
      InsertLast(x, prefix, key);
      assert prefix + [x] == s;
    }
  }

  lemma {:induction false} InsertLast<T(!new)>(x: T, s: seq<T>, key: T -> real)
    requires SortedDesc(s, key)
    requires forall y :: y in s ==> key(y) >= key(x)
    ensures Insert(x, s, key) == s + [x]
    decreases |s|
  {
    if |s| > 0 {
      assert s[0] in s;
      assert SortedDesc(s[1..], key);
      InsertLast(x, s[1..], key);
      assert [s[0]] + (s[1..] + [x]) == s + [x];
    }
  }
}

=== FILE: text.dfy ===
/**
 * String helpers that stand in for the Python string methods the bot uses:
 * `startswith`, `lower`, `isdigit`, `strip() == ""`, `int(...)`/`str(...)` on
 * integers and `binascii` hex encoding. Only the ASCII behaviour of these
 * methods is modelled.
 */
module Text {
  import opened Wrappers

  type byte = x: int | 0 <= x < 256

  predicate StartsWith(s: string, prefix: string) {
    |prefix| <= |s| && s[..|prefix|] == prefix
  }

  lemma StartsWithConcat(prefix: string, rest: string)
    ensures StartsWith(prefix + rest, prefix)
    ensures (prefix + rest)[|prefix|..] == rest
  {
    assert (prefix + rest)[..|prefix|] == prefix;
  }

  // ----- case folding -----

  function LowerChar(c: char): char {
    if 'A' <= c <= 'Z' then (c as int + 32) as char else c
  }

  /** `str.lower()` restricted to ASCII letters. */
  function Lower(s: string): (r: string)
    ensures |r| == |s|
    ensures forall i :: 0 <= i < |s| ==> r[i] == LowerChar(s[i])
  {
    seq(|s|, i requires 0 <= i < |s| => LowerChar(s[i]))
  }

  /** Lower-casing twice is lower-casing once. */
  lemma LowerIdempotent(s: string)
    ensures Lower(Lower(s)) == Lower(s)
  {
  }

  // ----- character classes -----

  predicate IsDigit(c: char) {
    '0' <= c <= '9'
  }

  predicate IsHexDigit(c: char) {
    IsDigit(c) || 'a' <= c <= 'f' || 'A' <= c <= 'F'
  }

  predicate AllDigits(s: string) {
    forall i :: 0 <= i < |s| ==> IsDigit(s[i])
  }

  predicate AllHex(s: string) {
    forall i :: 0 <= i < |s| ==> IsHexDigit(s[i])
  }

  /** `str.isdigit()`: non-empty and every character a digit. */
  predicate IsDigitString(s: string) {
    |s| > 0 && AllDigits(s)
  }

  /**
   * The ASCII characters `str.strip()` removes: space, tab, the line and page
   * breaks, and the four information separators U+001C to U+001F.
   */
  predicate IsSpace(c: char) {
    || c == ' ' || c == '\t' || c == '\n' || c == '\r' || c == '\U{000B}' || c == '\U{000C}'
    || ('\U{001C}' <= c <= '\U{001F}')
  }

  /** `s.strip() == ""`: the text is empty or only whitespace. */
  predicate IsBlank(s: string) {
    forall i :: 0 <= i < |s| ==> IsSpace(s[i])
  }

  // ----- decimal integers: `str(n)` and `int(s)` -----

  function DigitChar(d: nat): (c: char)
    requires d < 10
    ensures IsDigit(c)
  {
    ('0' as int + d) as char
  }

  function DigitValue(c: char): (d: nat)
    requires IsDigit(c)
    ensures d < 10
  {
    c as int - '0' as int
  }

  /** The decimal digits of `n`, most significant first, without leading zeros. */
  function NatToString(n: nat): (s: string)
    ensures IsDigitString(s)
    decreases n
  {
    if n < 10 then [DigitChar(n)] else NatToString(n / 10) + [DigitChar(n % 10)]
  }

  function DigitsValue(s: string): nat
    requires AllDigits(s)
    decreases |s|
  {
    if |s| == 0 then 0 else DigitsValue(s[..|s| - 1]) * 10 + DigitValue(s[|s| - 1])
  }

  lemma {:induction false} DigitsValueOfNatToString(n: nat)
    ensures DigitsValue(NatToString(n)) == n
    decreases n
  {
    if n >= 10 {
      var s := NatToString(n / 10) + [DigitChar(n % 10)];
      assert s[..|s| - 1] == NatToString(n / 10);
      DigitsValueOfNatToString(n / 10);
    }
  }

  /** Python's `str(n)` for an integer. */
  function IntToString(n: int): string {
    if n < 0 then "-" + NatToString(-n) else NatToString(n)
  }

  /**
   * Python's `int(s)` for text made of an optional sign and ASCII digits;
   * `None` stands for the `ValueError` raised on anything else.
   */
  function ParseInt(s: string): (r: Option<int>)
    ensures r.Some? ==> |s| > 0
  {
    if |s| > 0 && (s[0] == '-' || s[0] == '+') then
      var body := s[1..];
      if IsDigitString(body) then
        Some(if s[0] == '-' then 0 - DigitsValue(body) as int else DigitsValue(body) as int)
      else None
    else if IsDigitString(s) then Some(DigitsValue(s))
    else None
  }

  lemma ParseIntToString(n: int)
    ensures ParseInt(IntToString(n)) == Some(n)
  {
    if n < 0 {
      var digits := NatToString(-n);
      var s := "-" + digits;
      assert s[0] == '-' && s[1..] == digits;
      DigitsValueOfNatToString(-n);
      assert ParseInt(s) == Some(0 - DigitsValue(digits) as int);
    } else {
      var s := NatToString(n);
      assert IsDigit(s[0]);
      DigitsValueOfNatToString(n);
      assert ParseInt(s) == Some(DigitsValue(s) as int);
    }
  }

  // ----- hexadecimal: `secrets.token_hex` and `binascii.unhexlify` -----

  function HexChar(d: nat): (c: char)
    requires d < 16
    ensures IsHexDigit(c)
  {
    if d < 10 then ('0' as int + d) as char else ('a' as int + d - 10) as char
  }

  function HexValue(c: char): (d: nat)
    requires IsHexDigit(c)
    ensures d < 16
  {
    if IsDigit(c) then c as int - '0' as int
    else if 'a' <= c <= 'f' then c as int - 'a' as int + 10
    else c as int - 'A' as int + 10
  }

  lemma HexValueOfHexChar(d: nat)
    requires d < 16
    ensures HexValue(HexChar(d)) == d
  {
  }

  /** Lower-case hex, two characters per byte, as `bytes.hex()` writes it. */
  function HexEncode(bytes: seq<byte>): (s: string)
    ensures |s| == 2 * |bytes|
    ensures AllHex(s)
  {
    if |bytes| == 0 then ""
    else [HexChar(bytes[0] / 16), HexChar(bytes[0] % 16)] + HexEncode(bytes[1..])
  }

  /** `binascii.unhexlify`: `None` on odd length or a non-hex character. */
  function HexDecode(s: string): (r: Option<seq<byte>>)
    ensures r.Some? <==> |s| % 2 == 0 && AllHex(s)
    ensures r.Some? ==> 2 * |r.value| == |s|
    decreases |s|
  {
    if |s| == 0 then Some([])
    else if |s| == 1 || !IsHexDigit(s[0]) || !IsHexDigit(s[1]) then None
    else
      match HexDecode(s[2..])
      case None => None
      case Some(rest) => Some([(HexValue(s[0]) * 16 + HexValue(s[1])) as byte] + rest)
  }

  lemma {:induction false} HexRoundTrip(bytes: seq<byte>)
    ensures HexDecode(HexEncode(bytes)) == Some(bytes)
    decreases |bytes|
  {
    if |bytes| > 0 {
      var s := HexEncode(bytes);
      assert s[2..] == HexEncode(bytes[1..]);
      HexRoundTrip(bytes[1..]);
      HexValueOfHexChar(bytes[0] / 16);
      HexValueOfHexChar(bytes[0] % 16);
      assert [bytes[0]] + bytes[1..] == bytes;
    }
  }
}

=== FILE: wallet.dfy ===
/**
 * Private-key handling in the wallet utilities: importing a key typed by the
 * user, creating a fresh key, and the `0x` prefixing done before signing.
 * Deriving an address from a key (`Account.from_key`) is elliptic-curve
 * arithmetic outside this model and is passed in as the function `derive`.
 */
module Wallet {
  import opened Wrappers
  import opened Text

  datatype Account = Account(address: string, privateKey: string)

  /**
   * The reasons an import fails. All three surface to the caller as one
   * `ValueError("Invalid private key: ...")`.
   */
  datatype ImportError = InvalidLength | NotHex | InvalidKey

  /** The key without one leading lower-case `0x`, as the import strips it. */
  function StripPrefix(key: string): (r: string)
    ensures StartsWith(key, "0x") ==> "0x" + r == key
    ensures !StartsWith(key, "0x") ==> r == key
  {
    if StartsWith(key, "0x") then key[2..] else key
  }

  /**
   * `import_wallet_from_private_key`: strip one `0x`, demand 64 characters
   * that decode as hexadecimal, and return the key re-prefixed with `0x`
   * together with its address.
   */
  function ImportWallet(key: string, derive: string -> string): (r: Result<Account, ImportError>)
    ensures r.Ok? <==>
      (StartsWith(key, "0x") && |key| == 66 && AllHex(key[2..]))
      || (!StartsWith(key, "0x") && |key| == 64 && AllHex(key))
    ensures r.Ok? ==> StartsWith(key, "0x") ==> r.value.privateKey == key
    ensures r.Ok? ==> !StartsWith(key, "0x") ==> r.value.privateKey == "0x" + key
    ensures r.Ok? ==> r.value.address == derive(r.value.privateKey)
    ensures r == Err(InvalidLength) <==> |StripPrefix(key)| != 64
    ensures r.Err? ==> r.error != InvalidKey
  {
    var stripped := StripPrefix(key);
    if |stripped| != 64 then Err(InvalidLength)
    else match HexDecode(stripped)
      case None => Err(NotHex)
      case Some(bytes) =>
        if |bytes| != 32 then Err(InvalidKey)
        else Ok(Account(derive("0x" + stripped), "0x" + stripped))
  }

  /** A key given with or without its `0x` prefix imports to the same account. */
  lemma ImportIgnoresPrefix(key: string, derive: string -> string)
    requires !StartsWith(key, "0x")
    ensures ImportWallet("0x" + key, derive) == ImportWallet(key, derive)
  {
    StartsWithConcat("0x", key);
  }

  /** An upper-case `0X` is not stripped, so 64 hex digits behind it fail on length. */
  lemma UpperCasePrefixRejected(hex: string, derive: string -> string)
    requires |hex| == 64
    ensures ImportWallet("0X" + hex, derive) == Err(InvalidLength)
  {
    assert ("0X" + hex)[1] == 'X';
  }

  /** Importing the key an import returned gives back the same account. */
  lemma ImportIdempotent(key: string, derive: string -> string)
    requires ImportWallet(key, derive).Ok?
    ensures ImportWallet(ImportWallet(key, derive).value.privateKey, derive) == ImportWallet(key, derive)
  {
    var k := ImportWallet(key, derive).value.privateKey;
    var stripped := StripPrefix(key);
    assert k == "0x" + stripped;
    StartsWithConcat("0x", stripped);
  }

  /**
   * `create_wallet`: the key is `0x` followed by the hexadecimal of 32 random
   * bytes (`secrets.token_hex(32)`); the bytes are a parameter.
   */
  function CreateWallet(random: seq<byte>, derive: string -> string): (a: Account)
    requires |random| == 32
    ensures |a.privateKey| == 66
    ensures StartsWith(a.privateKey, "0x") && AllHex(a.privateKey[2..])
    ensures HexDecode(a.privateKey[2..]) == Some(random)
    ensures a.address == derive(a.privateKey)
  {
    var hex := HexEncode(random);
    StartsWithConcat("0x", hex);
    HexRoundTrip(random);
    Account(derive("0x" + hex), "0x" + hex)
  }

  /** A created wallet's key is accepted by the import and yields the same account. */
  lemma CreatedKeyImports(random: seq<byte>, derive: string -> string)
    requires |random| == 32
    ensures ImportWallet(CreateWallet(random, derive).privateKey, derive) == Ok(CreateWallet(random, derive))
  {
    var a := CreateWallet(random, derive);
    assert "0x" + a.privateKey[2..] == a.privateKey;
  }

  /** The prefixing `sign_transaction` applies to a key before signing. */
  function SigningKey(key: string): (r: string)
    ensures StartsWith(r, "0x")
    ensures StartsWith(key, "0x") ==> r == key
    ensures !StartsWith(key, "0x") ==> StripPrefix(r) == key
  {
    if StartsWith(key, "0x") then key
    else StartsWithConcat("0x", key); "0x" + key
  }

  /** Prefixing twice is prefixing once. */
  lemma SigningKeyIdempotent(key: string)
    ensures SigningKey(SigningKey(key)) == SigningKey(key)
  {
  }

  /** A key without its prefix signs as the same key as with it. */
  lemma SigningKeyIgnoresPrefix(key: string)
    requires !StartsWith(key, "0x")
    ensures SigningKey("0x" + key) == SigningKey(key)
  {
    StartsWithConcat("0x", key);
  }

  /** An imported key is signed with unchanged. */
  lemma ImportedKeySignsUnchanged(key: string, derive: string -> string)
    requires ImportWallet(key, derive).Ok?
    ensures SigningKey(ImportWallet(key, derive).value.privateKey) == ImportWallet(key, derive).value.privateKey
  {
    StartsWithConcat("0x", StripPrefix(key));
  }
}

=== FILE: wrappers.dfy ===
/** Failure-compatible wrappers shared by every module of the model. */
module Wrappers {

  /** A value that may be missing: Python's `None` versus a present value. */
  datatype Option<+T> = None | Some(value: T) {

    function GetOr(default: T): T {
      match this
      case Some(v) => v
      case None => default
    }
  }

  /** The outcome of an operation that either succeeds with a value or fails with an error. */
  datatype Result<+R, +E> = Ok(value: R) | Err(error: E) {

    predicate IsOk() {
      Ok?
    }
  }
}
